=== FILE: README.md ===
# Marketplace backend core in Dafny

This project models the business core of a tutoring marketplace backend. Students, teachers and schools trade courses, classroom rentals and payments on it. Three kinds of account are involved:

- students enrol in courses;
- teachers run courses and rent classrooms from schools through contracts;
- schools list classrooms.

Every account has a point total. The main part of the model is the **leaderboard ranking engine**:

- the upsert keyed on (user_id, role), which skips the write when the points are unchanged;
- the dense re-ranking by points (descending), then last update (ascending);
- the reconciliation sweep, which corrects cached points against the profiles (as written its profile lookup never succeeds; see Findings);
- the top-100 view with medals and the 60-second cache;
- append-only badge assignment;
- the save clamps and badge validation;
- the profile signal gate;
- the user-status endpoint.

Around it are the smaller rules of the other parts:

- the 5% payment fee with half-even rounding in integer cents, fee transfer, wallet movements and completion;
- payment request validation;
- contract creation, saving and status transitions;
- course validation, creation, access to attachments, and enrollment (join, complete, rate);
- chat membership and read marks;
- classroom GeoJSON validation, ownership, update and delete guards, and the fallback nearby search;
- registration and the profile serializer;
- badge award and seen-marking in the achievements app;
- the database router.

Modelling conventions:

- State is immutable: stores are sequences or maps of records, and every operation is a pure function that returns the new state and the HTTP answer.
- Timestamps are integers in seconds.
- Money is integer cents.
- Object ids are twelve bytes. They are printed as 24 lower-case hex digits and parsed from 24 hex digits of either case.
- Failures of the database, the cache or a remote service are explicit parameters, chosen by the caller.
- Distances, clocks and fresh ids are parameters as well.
- Each module follows one source file or one app: `LeaderboardModels`, `Ranking`, `Sweep`, `Board`, `StatusView`, `BadgeAssignment`, `Signals`, `Payments`, `PaymentRequests`, `Contracts`, `Courses`, `EnrollmentViews`, `Chat`, `Classrooms`, `Registration`, `Achievements` and `DbRouter`.
- `Sorting` holds the stable insertion sort they share. `ObjectIds` and `Wrappers` hold the ids and the `Option`/`Result` types.
- `CharFields` holds the REST framework text field (trimming, blank and NUL refusal) the serializers share. `RatingText` holds Python's reading of numbers written as text.
- Where a finding below corrects the source, both the as-written behaviour and the corrected one are modelled, side by side.

## Model

| member | source | states |
|---|---|---|
| LeaderboardModels.ParseRole | backend/apps/leaderboard/models.py:12-16 | only "student", "teacher" and "school" are roles, and each parses back to its own name |
| LeaderboardModels.SaveFixesOnlyInvalid | backend/apps/leaderboard/models.py:35-38 | apart from the save time, saving leaves an entry unchanged exactly when points ≥ 0 and rank ≥ 1 (validators of lines 17-18); a save that succeeds, repeated, changes only the time |
| LeaderboardModels.Save | backend/apps/leaderboard/models.py:17-38 | a document without a rank cannot be saved (`max(1, None)` raises); otherwise the saved entry satisfies both validators, carries the save time as last_updated (`auto_now`, line 21) and differs from the input in points, rank and that time only |
| LeaderboardModels.CleanBadge | backend/apps/leaderboard/models.py:66-68 | a badge is rejected iff both points_required and rank_required are null; otherwise it is kept unchanged |
| LeaderboardModels.DefaultOrderGroupsRoles | backend/apps/leaderboard/models.py:30 | the default ordering is total; it keeps each role together and orders by rank inside a role, a document without a rank first |
| Ranking.BeforeIsTotalPreorder | backend/apps/leaderboard/utils.py:74-77 | the ranking order (points desc, last_updated asc) is a total preorder |
| Ranking.Find | backend/apps/leaderboard/utils.py:30-33 | the lookup by (user_id, role) returns the first matching document, or reports that none exists |
| Ranking.RoleEntries | backend/apps/leaderboard/utils.py:74 | the role query returns exactly the store's documents of that role |
| Ranking.OrderedFacts | backend/apps/leaderboard/utils.py:74-77 | the sorted role list is sorted by the ranking order, has no repeats and holds exactly the role's documents |
| Ranking.Recalculate | backend/apps/leaderboard/utils.py:67-94 | re-ranking changes only ranks, and only in documents of the given role; each of those then has a rank of at least 1 |
| Ranking.RecalculateEmptyRole | backend/apps/leaderboard/utils.py:89-90 | a role with no documents issues no writes: the store is unchanged |
| Ranking.RecalculateKeepsKeys | backend/apps/leaderboard/utils.py:79-90 | re-ranking keeps every document's (user_id, role) key, so the unique index still holds |
| Ranking.FindStored | backend/apps/leaderboard/utils.py:74-87 | every document of the role appears in the sorted list at the position its key is found |
| Ranking.RecalculateRankRange | backend/apps/leaderboard/utils.py:81-87 | after re-ranking, the role's ranks are exactly 1..N for its N documents |
| Ranking.RoleCountSameRoles | backend/apps/leaderboard/utils.py:81-90 | two stores whose documents agree on role position by position hold equally many documents of each role |
| Ranking.RecalculateDense | backend/apps/leaderboard/utils.py:81-87 | after re-ranking, the set of the role's ranks is exactly {1..N} for the N documents of the role in the new store |
| Ranking.RecalculateRanksDistinct | backend/apps/leaderboard/utils.py:81-87 | after re-ranking, no two documents of the role share a rank (dense ranks) |
| Ranking.RecalculateOrdered | backend/apps/leaderboard/utils.py:74-87 | after re-ranking, a smaller rank means more points, or equal points and an earlier or equal last update |
| Ranking.DisplayName | backend/apps/authentication/models.py:8 | the corrected name: the `full_name` column when it is non-empty, else the username |
| Ranking.GetFullName | backend/apps/leaderboard/utils.py:41 | `get_full_name()` is first and last name joined by a space and stripped; it is empty exactly when both are blank |
| Ranking.DisplayNameAsWritten | backend/apps/leaderboard/utils.py:41 | the name stored and reported is `get_full_name()` when non-empty, else the username |
| Ranking.WriteShape | backend/apps/leaderboard/utils.py:47-51 | an existing document keeps its position, id, rank and verification time; a missing one is appended with a fresh id, no rank and no verification time |
| Ranking.Update | backend/apps/leaderboard/utils.py:21-66 | same points: success with no write; otherwise success iff no fault, with the upsert then the re-rank; a failed lookup or upsert leaves the store as it was and reports False |
| Ranking.WriteSpec | backend/apps/leaderboard/utils.py:39-51 | the upsert keeps the unique index, leaves exactly one document with the key and the new points, and leaves the other documents unchanged |
| Ranking.UpdateSpec | backend/apps/leaderboard/utils.py:39-63 | a successful update leaves one document for the key with the new points, gives the role ranks 1..N and leaves other roles untouched |
| Sweep.Lookup | backend/apps/leaderboard/utils.py:294-306 | the profile lookup evidently meant, through Django's app registry: it succeeds exactly for keys that have a profile, and returns its points |
| Sweep.Verified | backend/apps/leaderboard/utils.py:275-324 | with the intended lookup, only selected entries that have a profile change; those are verified now; only drifted entries take the profile's points and a new last_updated |
| Sweep.Reconcile | backend/apps/leaderboard/utils.py:261-331 | the sweep with the intended lookup maps every entry through the one-entry outcome and returns the number of drifted entries |
| Sweep.NothingDue | backend/apps/leaderboard/utils.py:282-283 | when no entry is unverified or stale, the sweep corrects nothing and changes nothing |
| Sweep.CountIsChangedPoints | backend/apps/leaderboard/utils.py:310-331 | the returned count is the number of entries whose points the sweep changed |
| Sweep.VerifiedIdempotent | backend/apps/leaderboard/utils.py:270-280 | a second sweep at the same time changes nothing more |
| Sweep.SweepOutcome | backend/apps/leaderboard/utils.py:289-324 | with the intended lookup, each entry is afterwards verified now, was not due, or has no profile; ranks are never touched (the sweep does not re-rank) |
| Sweep.ReconcileAsWritten | backend/apps/leaderboard/utils.py:8 | as written, every profile lookup raises and is skipped, so the sweep returns the store unchanged and reports 0 corrections, whatever the profiles hold |
| Sweep.NoProfileChangesNothing | backend/apps/leaderboard/utils.py:303-330 | a sweep whose every lookup fails changes no entry and counts no correction |
| Sweep.AsWrittenMissesDrift | backend/apps/leaderboard/utils.py:296-314 | a never-verified entry whose points differ from its profile is corrected by the intended sweep and left stale by the written one |
| Board.MedalAt | backend/apps/leaderboard/utils.py:193-195 | positions 0, 1 and 2 get gold, silver and bronze; every other position gets no medal |
| Board.ProcessEntries | backend/apps/leaderboard/utils.py:180-197 | each row keeps its entry's identity and points, has rank = position + 1 and carries its position's medal |
| Board.TopEntries | backend/apps/leaderboard/utils.py:164-177 | each role list has min(N, 100) entries |
| Board.TopEntriesSpec | backend/apps/leaderboard/utils.py:164-177 | the top list is sorted, holds only the role's entries without repeats, and every left-out entry ranks no better than each listed one |
| Board.TopRankMatchesStoredRank | backend/apps/leaderboard/utils.py:180-188 | the positional rank the view shows equals the rank re-ranking stores for that entry |
| Board.LeaderboardData | backend/apps/leaderboard/utils.py:151-207 | the sweep is always launched; a failed read yields three empty lists; otherwise each role's top view; no list exceeds 100 |
| Board.CachedLeaderboard | backend/apps/leaderboard/utils.py:339-351 | a hit returns the stored payload and leaves the cache unchanged; a miss computes fresh data and stores it to expire 60 seconds later |
| Board.StaleWithinTtl | backend/apps/leaderboard/utils.py:343-349 | within 60 seconds of a miss, a second read returns the first payload even if the store changed |
| Board.LeaderboardGet | backend/apps/leaderboard/views.py:11-24 | a cache failure gives 500 and keeps the slot; otherwise 200 with the cached read's payload and slot: a hit serves and keeps the stored payload, a miss stores the fresh one for 60 seconds |
| StatusView.UserLeaderboardStatus | backend/apps/leaderboard/utils.py:225-259 | re-ranks the role and then returns the user's entry with its fresh rank; a failed re-rank returns no status with the store unchanged; a failed read after it returns no status with the store re-ranked; a handle failure escapes |
| StatusView.ViewRole | backend/apps/leaderboard/views.py:37-45 | the role is the first present profile in the order student, teacher, school |
| StatusView.StatusGet | backend/apps/leaderboard/views.py:29-76 | no profile gives 400; an escaping failure gives 500; on-board answers carry the stored entry; off-board answers carry the profile's points and role, under `get_full_name() or username` (line 64) |
| StatusView.StatusGetSpec | backend/apps/leaderboard/views.py:54-69 | a user with an entry sees its points and a rank within 1..N; a user without one sees is_on_leaderboard false with the profile's points, named by the username when first and last name are blank |
| StatusView.StatusGetFaults | backend/apps/leaderboard/views.py:54-69 | a failed re-rank or a failed read falls back to the off-board answer with the profile's points and the name as written; only the failed read leaves the role re-ranked |
| StatusView.RegisteredName | backend/apps/authentication/serializers.py:146-156 | for any account the registration endpoint creates, the name the source shows is the username, while the corrected name is the non-empty full name typed at registration |
| BadgeAssignment.HeldNames | backend/apps/leaderboard/utils.py:125 | the held names are exactly the names in the profile's badge list |
| BadgeAssignment.PointBadges | backend/apps/leaderboard/utils.py:122-132 | every appended badge comes from a catalogue badge with points_required ≤ points, the same role and a name not held; every such badge is appended |
| BadgeAssignment.RegistrationIndex | backend/apps/leaderboard/utils.py:136-139 | picks the first catalogue badge whose name contains "Registration" for the role |
| BadgeAssignment.AssignBadges | backend/apps/leaderboard/utils.py:96-149 | result iff the role is known and a profile exists; the old list is a prefix (nothing removed); added items are point awards, or one registration award when the list would stay empty; exactly the old list plus the point awards when that is not empty, else the first registration badge of the role, else nothing |
| BadgeAssignment.PointBadgesDistinct | backend/apps/leaderboard/utils.py:122-132 | with unique catalogue names, the point badges added have distinct names |
| BadgeAssignment.PointBadgesNone | backend/apps/leaderboard/utils.py:122-125 | when no catalogue badge qualifies, no point badge is added |
| BadgeAssignment.AssignBadgesNoDuplicates | backend/apps/leaderboard/utils.py:122-145 | a profile with distinct badge names keeps distinct names after assignment |
| BadgeAssignment.AssignBadgesStable | backend/apps/leaderboard/utils.py:122-145 | assigning again with the same points adds nothing, at any later time |
| BadgeAssignment.CleanBadgeGatesPoints | backend/apps/leaderboard/models.py:66-68 | every badge earned by points passes `Badge.clean`, and a catalogue of badges `clean` would refuse awards no point badge |
| Signals.PreSave | backend/apps/leaderboard/signals.py:11-26 | only the flag may change; it is set iff the row has a primary key, a stored row exists and its points differ, and it is never cleared |
| Signals.RoleOfClass | backend/apps/leaderboard/signals.py:42-50 | Student, Teacher and School map to their roles; any other class maps to none |
| Signals.PostSave | backend/apps/leaderboard/signals.py:31-50 | an update is scheduled iff the flag is set or the row was created, a user is linked and the class maps to a role; the job carries that key and the row's points |
| Signals.OnCommit | backend/apps/leaderboard/signals.py:52-62 | no job changes nothing; a failed lookup or upsert, or points already stored, leave the store as it was; failures never escape |
| Signals.OnCommitSpec | backend/apps/leaderboard/signals.py:52-62 | the unique index holds afterwards; unless the lookup or upsert failed the key holds the new points; a full update leaves the role ranked 1..N; a failed re-rank keeps every other document and the key's old rank (none for a new document) |
| Signals.SaveReachesBoard | backend/apps/leaderboard/signals.py:11-62 | saving a profile with changed points leads, after commit, to an entry holding those points; the store is untouched if it already held them, and otherwise the role is ranked 1..N |
| Signals.StaleFlagHarmless | backend/apps/leaderboard/signals.py:24-36 | a flag left from an earlier save schedules an update again, but the update finds the same points and writes nothing |
| ObjectIds.HexValue | backend/apps/contracts/views.py:51 | exactly the 22 hexadecimal digits of either case have a value, in 0..15 |
| ObjectIds.HexRoundTrip | backend/apps/contracts/models.py:49-51 | parsing the hex text of any byte string gives the bytes back |
| ObjectIds.ParseHexLower | backend/apps/contracts/views.py:51 | parsing ignores the case of the hex digits |
| ObjectIds.ObjectIdRoundTrip | backend/apps/contracts/models.py:49-51 | the string id of a 12-byte object id parses back to it |
| ObjectIds.ParseObjectIdCanonical | backend/apps/contracts/views.py:51 | a parsed id prints back as the lower-cased input |
| CharFields.CharField | backend/apps/authentication/serializers.py:32 | blank text is refused, text with a NUL is refused, anything else is stripped to non-empty trimmed text |
| CharFields.BlankableCharField | backend/apps/authentication/serializers.py:47 | with allow_blank, blank text is the empty string and the rest is as without |
| CharFields.StripIdempotent | backend/apps/authentication/serializers.py:32 | trimming twice equals trimming once |
| CharFields.FieldIgnoresPadding | backend/apps/authentication/serializers.py:32 | white space around a value changes nothing either field returns |
| CharFields.PaddedObjectId | backend/apps/contracts/serializers.py:46 | an object id written out, padded or not, passes as its hex text |
| Contracts.ParseStatus | backend/apps/contracts/models.py:7-14 | a parsed status prints back as the name it was parsed from |
| Contracts.StatusNameRoundTrip | backend/apps/contracts/models.py:7-14 | each of the six statuses parses back from its own name |
| Contracts.Save | backend/apps/contracts/models.py:44-47 | a null or zero total price becomes price per hour × total hours; a non-zero price and every other field stay as they were |
| Contracts.SaveIdempotent | backend/apps/contracts/models.py:44-47 | saving twice equals saving once, and a saved contract always has a total price |
| Contracts.FieldErrors | backend/apps/contracts/serializers.py:58-64 | no field error iff every field is present, both hour counts are at least 1 and the price per hour is at least 0 |
| Contracts.Create | backend/apps/contracts/serializers.py:46-92 | field errors, a blank classroom id, start ≥ end and an unknown or malformed classroom id are refused; the id is read trimmed; a created contract is processing, owned by the requester as teacher and the classroom's school as school, and saved with its price |
| Contracts.CreateValid | backend/apps/contracts/serializers.py:61-68 | a created contract meets the hour validators, starts before it ends and has a non-negative price per hour |
| Contracts.CreateIgnoresPadding | backend/apps/contracts/serializers.py:46 | white space around any field value leaves creation unchanged (the field trims) |
| Contracts.CreatePaddedId | backend/apps/contracts/serializers.py:46-76 | a classroom id written out with white space around it finds that classroom |
| Contracts.WritableFields | backend/apps/contracts/serializers.py:32-43 | total_price, status and payment_reference are not writable through the serializer |
| Contracts.SchoolUpdate | backend/apps/contracts/views.py:73-108 | a malformed id is refused with 400; a contract not of this school gives 404; a status outside processing, rejected and payment_pending gives 400; otherwise the status is overwritten whatever it was |
| Contracts.SchoolUpdateOnlyStatus | backend/apps/contracts/views.py:101-102 | a school's update changes only the status of one contract and nothing else in the store |
| Contracts.TeacherPayment | backend/apps/contracts/views.py:114-151 | the view apart from the save hook: only the teacher's own payment_pending contract is found; a missing reference gives 400; success sets ready_for_enrollment and stores the reference |
| Contracts.TeacherPaymentOnce | backend/apps/contracts/views.py:121-145 | once paid, the same request finds nothing (404) and changes nothing |
| Contracts.PaymentFlow | backend/apps/contracts/views.py:94-145 | a school setting payment_pending and then the teacher paying brings the contract to ready_for_enrollment with the reference |
| Contracts.Detail | backend/apps/contracts/views.py:46-67 | a malformed id escapes as a server error; a teacher sees only their contracts, a school only its own, anyone else any contract |
| Contracts.Listed | backend/apps/contracts/views.py:23-28 | a teacher lists the contracts they teach, a school those it signed, anyone else none |
| Contracts.DetailAgreesWithList | backend/apps/contracts/views.py:23-67 | for teachers and schools a contract is shown in detail exactly when it is listed; other users see any stored contract in detail while their list is empty |
| Courses.NewEnrollment | backend/apps/courses/models.py:78-89 | a new enrollment is not completed, has no rating and no completion date |
| Courses.Clean | backend/apps/courses/models.py:61-76 | a course passes iff a published or in-process online course has both links and an offline course has a ready_for_enrollment contract of the same teacher |
| Courses.LinksRequired | backend/apps/courses/serializers.py:100-101 | without an instance the link check never applies (the create payload has no status) |
| Courses.Finish | backend/apps/courses/serializers.py:107-110 | a free course gets price 0; nothing else changes |
| Courses.Validate | backend/apps/courses/serializers.py:64-110 | the contract text is trimmed and a blank one refused (400); offline without a contract, with an unknown one or with one not ready is refused; online with a contract is refused; a malformed contract id escapes as a server error |
| Courses.ValidateIgnoresPadding | backend/apps/courses/serializers.py:64-90 | white space around the contract id leaves validation unchanged |
| Courses.InitialStatus | backend/apps/courses/views.py:84-90 | a new course is published iff it is online or its contract is ready_for_enrollment; otherwise pending_approval |
| Courses.CreateCourse | backend/apps/courses/views.py:71-92 | a created course belongs to a teacher requester and starts with no students |
| Courses.CreatedIsPublished | backend/apps/courses/views.py:84-90 | every course created through the endpoint is published |
| Courses.CreateSkipsLinkCheck | backend/apps/courses/serializers.py:100-105 | an online course without links is created published and fails the model's clean rule |
| Courses.CreateCourseChecked | backend/apps/courses/models.py:63-67 | an online course without both links is refused; otherwise it is created as before |
| Courses.CheckedCreateIsClean | backend/apps/courses/models.py:61-76 | with the link check applied to the published status, every created course is clean |
| Courses.EnrollmentAccess | backend/apps/courses/models.py:104-106 | access iff the course is free or the enrollment is paid |
| Courses.HasAccess | backend/apps/courses/serializers.py:37-49 | no access when anonymous; access to a free course; otherwise iff enrolled and paid |
| Courses.Attachments | backend/apps/courses/serializers.py:51-61 | the links are shown iff there is access, and are null otherwise |
| Courses.AccessAgrees | backend/apps/courses/serializers.py:37-49 | for an authenticated student, the serializer's access answer agrees with the enrollment's own rule |
| EnrollmentViews.Enroll | backend/apps/courses/views.py:116-172 | with the room hook corrected: a blank course field is refused; a join succeeds iff the course id parses, the course exists, has room, is published and the student is not enrolled; it then adds one enrollment paid iff the course is free and raises the counter by exactly 1; refusals change nothing |
| EnrollmentViews.EnrollIgnoresPadding | backend/apps/courses/serializers.py:145 | white space around the course id joins the same course |
| EnrollmentViews.Join | backend/apps/courses/views.py:120-172 | on a parsed course id: refused for an unknown, full, already joined or unpublished course with nothing changed; otherwise joined |
| EnrollmentViews.EnrollAsWritten | backend/apps/chat/models.py:141-143 | as written, the save hook reads `course.id`, which the course model lacks, so every join the guards allow answers 500 after the enrollment is stored and before the counter is raised |
| EnrollmentViews.EnrollAsWrittenStrands | backend/apps/courses/views.py:124-179 | as written, such a join answers 500, leaves counters out of step with enrollments, and a retry is refused as already enrolled |
| EnrollmentViews.JoinWithRoom | backend/apps/chat/models.py:136-157 | the corrected join: the room keyed by the course's object id gets the teacher and the student, other rooms stay; refusals change no room |
| EnrollmentViews.JoinWithRoomJoins | backend/apps/chat/models.py:136-157 | with the corrected room key, an allowed join succeeds, keeps every counter right and puts teacher and student in the course room |
| EnrollmentViews.EnrollKeepsUnique | backend/apps/courses/models.py:93 | a join keeps (student, course) unique |
| EnrollmentViews.EnrolledInAdd | backend/apps/courses/views.py:151-161 | adding an enrollment adds one to its own course's count and none to the others |
| EnrollmentViews.EnrollKeepsCounts | backend/apps/courses/views.py:151-161 | when every counter equals its number of enrollments, it still does after a join |
| EnrollmentViews.JoinKeepsCounts | backend/apps/courses/views.py:151-161 | a join on a parsed course id keeps every counter equal to its number of enrollments |
| EnrollmentViews.OwnEnrollment | backend/apps/courses/views.py:186-202 | only the requester's own enrollment is found, by its parsed id |
| EnrollmentViews.Complete | backend/apps/courses/views.py:206-223 | unknown gives 404; already completed gives 400 with no change; otherwise completed with a date and the student gains 10 points |
| EnrollmentViews.CompleteOnce | backend/apps/courses/views.py:210-214 | completing again is refused and changes nothing |
| EnrollmentViews.TruncDiv | backend/apps/courses/views.py:293 | integer conversion truncates toward zero, for negative values too |
| EnrollmentViews.RatingValue | backend/apps/courses/views.py:290-300 | an int stays, a bool counts as 0 or 1, null is refused, a float is truncated toward zero, text is read as `int(float(text))` |
| RatingText.ParseRatingText | backend/apps/courses/views.py:293 | text that reads as a number is signed decimal text with at least one digit once white space is stripped |
| RatingText.RatingTextRoundTrip | backend/apps/courses/views.py:293 | a signed whole number with any fraction and white space around it reads as the whole number (truncated toward zero) |
| EnrollmentViews.RatingExamples | backend/apps/courses/views.py:293 | "4.9" reads as 4, "-0.5" as 0, "five" is refused, 5.5 reads as 5, true as 1 |
| EnrollmentViews.Rate | backend/apps/courses/views.py:278-330 | a rating is accepted iff it reads as 1..5 and the enrollment is completed (range first); it stores the rating, sets the course's total_ratings to the number of rated enrollments and gives the teacher 5 points |
| EnrollmentViews.RateCounts | backend/apps/courses/views.py:316-317 | rating again replaces the old rating: the count stays the same but the teacher gains 5 more points |
| Payments.QuantizeCents | backend/apps/payments/models.py:81 | the result is n/100 rounded to the nearest integer, ties to the even neighbour |
| Payments.Fee | backend/apps/payments/models.py:81 | the fee is within half a cent of 5% of the gross amount |
| Payments.FeeBounds | backend/apps/payments/models.py:81-83 | for a non-negative gross: 0 ≤ fee ≤ gross and 0 ≤ net ≤ gross |
| Payments.FeeExamples | backend/apps/payments/models.py:81 | half-cent fees round to even: 0.10 gives 0.00, 0.30 gives 0.02, 0.50 gives 0.02 |
| Payments.CalculateFees | backend/apps/payments/models.py:79-83 | sets fee and net only, with fee + net = gross |
| Payments.TransferFee | backend/apps/payments/models.py:121-144 | no-op for a fee ≤ 0 or one already transferred; a failed transfer changes nothing; success records the id and time and sets transferred |
| Payments.TransferOnce | backend/apps/payments/models.py:125-126 | after a successful transfer, any later transfer attempt changes nothing |
| Payments.Credit | backend/apps/payments/models.py:167-174 | a filtered update changes only that user's wallet, and no wallet when the user has none |
| Payments.MoveFundsTotal | backend/apps/payments/models.py:162-174 | with both wallets present, the summed balance drops by exactly the fee |
| Payments.ContractPaid | backend/apps/payments/models.py:146-150 | the contract becomes ready_for_enrollment with the invoice number as its reference |
| Payments.MarkAsCompleted | backend/apps/payments/models.py:91-119 | the completion evidently meant, with model imports that resolve and save hooks that do not raise: rolled back iff a fee record exists or the enrollment would duplicate; otherwise completed with one fee record, the contract or enrollment effect for its type, the wallets moved and the fee transfer attempted |
| Payments.MarkAsCompletedAsWritten | backend/apps/payments/models.py:91-164 | as written, every completion raises: a duplicate fee record first, otherwise the unresolvable import in `_create_enrollment` or `_update_wallet_balances`; wallets, fee records and enrollments stay as they were, and only a teacher_school contract written to the course database stays paid |
| Payments.MarkAsCompletedAsWrittenStrands | backend/apps/payments/models.py:93-113 | wherever the corrected completion succeeds, the written one raises with no fee recorded, no money moved and no enrollment, leaving at most the contract ready for enrollment; a retry raises again and changes nothing more |
| Payments.CompleteOnce | backend/apps/payments/models.py:101-105 | completing the same payment again rolls back: the one-to-one fee record exists |
| PaymentRequests.RequiredFields | backend/apps/payments/views.py:27-31 | recipient_id, amount and payment_method, then course_id for student_teacher and contract_id otherwise |
| PaymentRequests.FirstMissing | backend/apps/payments/views.py:33-38 | the first required key that is missing, in check order |
| PaymentRequests.Precheck | backend/apps/payments/views.py:17-52 | an unknown type, the first missing field, an unparsable amount and a non-positive amount are refused in that order; otherwise the amount passes |
| PaymentRequests.InitiatePayment | backend/apps/payments/views.py:14-106 | as written: the precheck's error, or no recipient, or the constructor's keyword error |
| PaymentRequests.InitiatePaymentNeverCreates | backend/apps/payments/views.py:60-67 | as written, no request ever creates a payment |
| PaymentRequests.ValidRequestRefused | backend/apps/payments/views.py:60-106 | a complete, valid student_teacher request is answered 400 |
| PaymentRequests.InitiatePaymentFixed | backend/apps/payments/views.py:54-100 | created iff the precheck passes and the recipient, related object and invoice are found; refusals report the precheck's error first |
| PaymentRequests.CreatedSplit | backend/apps/payments/views.py:81-98 | a created payment reports gross = the amount, fee = 5% rounded half-even, fee + net = gross, and pending status |
| Chat.AddParticipant | backend/apps/chat/models.py:48-52 | participants afterwards = participants ∪ {user}; nothing else changes |
| Chat.RemoveParticipant | backend/apps/chat/models.py:54-58 | participants afterwards = participants \ {user}; nothing else changes |
| Chat.MembershipLaws | backend/apps/chat/models.py:48-58 | adding and removing are idempotent; removing undoes adding a newcomer; removing a non-member changes nothing |
| Chat.MarkAsRead | backend/apps/chat/models.py:101-105 | read_by afterwards = read_by ∪ {user} |
| Chat.MarkAsReadIdempotent | backend/apps/chat/models.py:101-105 | marking twice equals marking once |
| Chat.IsReadCountsStrangers | backend/apps/chat/models.py:107-110 | with one participant and one non-participant having read, the count test says read while a participant has not |
| Chat.IsReadAgrees | backend/apps/chat/models.py:107-110 | when only participants have read, the count test agrees with "every participant has read" |
| Chat.GetOrCreate | backend/apps/chat/models.py:121-127 | an existing room is returned; otherwise the default room |
| Chat.RoomIdsDistinct | backend/apps/chat/models.py:119-143 | school_teacher and course room ids never collide, and each kind names distinct rooms for distinct ids |
| Chat.ContractSaved | backend/apps/chat/models.py:112-134 | the hook evidently meant: a ready_for_enrollment contract yields its school_teacher room with both teacher and school; other statuses change nothing |
| Chat.ContractRoomRefused | backend/db_routers.py:18-29 | the router gives no verdict on a contract and a chat room, which are stored in different databases, so Django refuses to relate them |
| Chat.ContractSavedAsWritten | backend/apps/chat/models.py:117-130 | as written the hook raises iff the contract is ready_for_enrollment and its room does not exist yet; otherwise it acts as the corrected hook |
| Chat.TeacherPaymentAsWritten | backend/apps/contracts/views.py:130-151 | the payment view with the hook its save fires: the store is always the view's; for a payable request with no room yet the answer is 400 and no room opens; otherwise the view's answer and the hook's rooms |
| Chat.TeacherPaymentAsWrittenStrands | backend/apps/contracts/views.py:142-151 | the first payment of a contract answers 400, yet the contract is stored ready_for_enrollment with the reference and no room exists; the retry answers 404 |
| Chat.TeacherPaymentWithRoom | backend/apps/contracts/views.py:142-145 | the payment view with the corrected hook: the view's answer and store, and rooms unchanged unless the payment succeeded |
| Chat.TeacherPaymentWithRoomOpens | backend/apps/chat/models.py:117-130 | with the corrected hook, a payable request succeeds and the school-teacher room holds the teacher and the school; every other room stays |
| Chat.EnrollmentSaved | backend/apps/chat/models.py:136-162 | the hook evidently meant, its room named after the course's object id and referring to the course by id: a new enrollment yields the course room with the teacher and the student; other saves change nothing |
| Chat.HooksIdempotent | backend/apps/chat/models.py:112-162 | running either hook twice with the same data equals running it once |
| Classrooms.ValidateLocation | backend/apps/classrooms/serializers.py:40-54 | accepted iff a mapping with type "Point" and a list of exactly two numbers (booleans count); an accepted value is returned unchanged |
| Classrooms.LocationVersusRfc | backend/apps/classrooms/serializers.py:47-52 | compares the rule with a Point of section 3.1.2 of RFC 7946 (positions of two or more numbers, section 3.1.1): a position with an altitude is refused, two booleans pass, and on two non-boolean items the two agree |
| Classrooms.CreateClassroom | backend/apps/classrooms/serializers.py:56-64 | created iff authenticated with a school profile; the requester owns the new, available room |
| Classrooms.IsOwned | backend/apps/classrooms/serializers.py:26-30 | true iff authenticated and the requester is the owning school |
| Classrooms.DistanceField | backend/apps/classrooms/serializers.py:20-24 | the distance the view attached, unchanged, and null exactly when none was computed |
| Classrooms.CreatedIsOwned | backend/apps/classrooms/serializers.py:26-64 | a created room is is_owned for exactly its authenticated creator, who may view it, and any teacher may view it while it is available |
| Classrooms.CleanPk | backend/apps/classrooms/views.py:160-166 | the result (as at line 194 too) is a prefix of the key with no trailing '/', and only '/' was removed |
| Classrooms.GetObject | backend/apps/classrooms/views.py:160-166 | a room is found iff the cleaned key parses as an object id of a stored room; every failure means not found |
| Classrooms.DetailGet | backend/apps/classrooms/views.py:168-190 | missing gives 404; shown iff a teacher views an available room, the requester is a school, or the owner has a school profile; otherwise 403 |
| Classrooms.PutWith | backend/apps/classrooms/views.py:192-262 | updated iff the body is exactly {is_available}, the room exists, the requester is the owning school, and making it unavailable is not blocked by a guarded contract; only that room's availability changes |
| Classrooms.PutIgnoresContracts | backend/apps/classrooms/views.py:227-238 | "active" and "pending" name no contract status, so the guard never blocks: a ready_for_enrollment contract running past today does not stop withdrawal |
| Classrooms.PutCheckedRespectsContracts | backend/apps/classrooms/views.py:227-238 | with the guard on processing, payment_pending and ready_for_enrollment, a room is withdrawn only when none of its live contracts ends today or later; nothing else changes |
| Classrooms.Delete | backend/apps/classrooms/views.py:271-346 | a malformed id gives 400, missing gives 404, not the owner gives 403, a contract ending today or later gives 400; otherwise the room is removed with the cascade |
| Classrooms.Cascade | backend/apps/contracts/models.py:17 | deleting a room removes its contracts (CASCADE) and clears them from courses (SET_NULL, courses/models.py:20); chat rooms, stored in the other database (db_routers.py:6-16), are not visited and stay; everything else stays |
| Classrooms.CascadeKeepsLinks | backend/apps/contracts/models.py:17 | after the cascade no contract or course refers to anything removed, while a chat room that named a removed contract still names it |
| Classrooms.DeleteKeepsOthers | backend/apps/classrooms/views.py:333-340 | a delete keeps every other room, every other room's contracts and every chat room, removes only contracts that have ended, and leaves no dangling link inside the course database |
| Classrooms.DetailAfterChange | backend/apps/classrooms/views.py:168-346 | after a successful update the detail view shows the updated room; after a successful delete it answers 404 |
| Classrooms.Within | backend/apps/classrooms/views.py:94-102 | keeps exactly the rooms with a readable distance ≤ the radius, each as often as it occurs |
| Classrooms.FallbackSpec | backend/apps/classrooms/views.py:89-104 | the result is sorted by ascending distance and holds exactly the rooms within the radius, each once per occurrence |
| Classrooms.FallbackResults | backend/apps/classrooms/views.py:104-105 | the serialised results list the search's rooms in order |
| Classrooms.ListedDistances | backend/apps/classrooms/views.py:94-105 | every listed room shows a distance that is one it was stored with and within the radius, and the shown distances ascend |
| Registration.RequiredFields | backend/apps/authentication/serializers.py:76-98 | student needs three fields, teacher two, school six (not the secondary phone); other roles need none |
| Registration.Validate | backend/apps/authentication/serializers.py:70-100 | accepted iff full_name is non-empty and the role's required fields are present; accepted data is unchanged |
| Registration.Unexpected | backend/apps/authentication/serializers.py:102-156 | the fields left for the user row that it has no column for |
| Registration.Create | backend/apps/authentication/serializers.py:102-164 | username falls back to the email; the password never reaches the columns; a profile exists iff the role is one of the three, holds exactly the role's submitted fields, 0 points and no badges; any key left without a user column raises |
| Registration.FieldErrors | backend/apps/authentication/serializers.py:30-64 | the field layer reports the missing required fields and the declared fields whose value it refuses (blank or NUL text, a role outside the three) |
| Registration.Cleaned | backend/apps/authentication/serializers.py:30-64 | undeclared keys are dropped and text values trimmed |
| Registration.Register | backend/apps/authentication/serializers.py:30-164 | field errors are reported as such; an account created has one of the three roles, the trimmed full name and a profile holding every field the role requires |
| Registration.RegisterUnexpected | backend/apps/authentication/serializers.py:102-156 | past the field layer, the keys the user row refuses are exactly the submitted profile fields of other roles |
| Registration.RegisterOutcome | backend/apps/authentication/serializers.py:76-164 | past the field layer, registration is refused iff a role field is missing, and fails in create iff another role's profile field is also sent |
| Registration.RoleProfile | backend/apps/authentication/serializers.py:213-219 | the profile matching the account's role, none for another role |
| Registration.Points | backend/apps/authentication/serializers.py:213-220 | the role profile's points, else 0 |
| Registration.Badges | backend/apps/authentication/serializers.py:222-229 | the role profile's badges, else the empty list |
| Registration.NewAccountStartsEmpty | backend/apps/authentication/serializers.py:213-229 | a newly registered account reports 0 points and no badges |
| Achievements.ListBadges | backend/apps/achievements/views.py:14-22 | a non-empty type parameter keeps exactly the badges of that type, each as often as it occurs; none or empty keeps all |
| Achievements.ListBadgesAppend | backend/apps/achievements/views.py:18-20 | filtering a joined catalogue is joining the filtered parts, so catalogue order is kept |
| Achievements.ListBadgesIdempotent | backend/apps/achievements/views.py:18-20 | every listed badge has the asked type, and filtering again changes nothing |
| Achievements.IntTextRoundTrip | backend/apps/achievements/views.py:58-62 | a signed number written with white space around it reads back as that number |
| Achievements.Award | backend/apps/achievements/views.py:50-68 | a missing or falsy user_id gives 400; text that is not a whole number gives 500; a badge already held gives 400; an unknown user gives 500; otherwise one unseen (user, badge) record; only the award changes the store |
| Achievements.AwardTextAsNumber | backend/apps/achievements/views.py:52-64 | a non-zero user id sent as padded or signed text is treated exactly as the same id sent as a number |
| Achievements.AwardOnce | backend/apps/achievements/views.py:58-64 | after an award the user holds the badge through exactly one record; other pairs are untouched; a repeated award is refused |
| Achievements.MarkAsSeen | backend/apps/achievements/views.py:28-42 | only the requester's own record is found (404 otherwise); it ends seen and nothing else changes |
| Achievements.MarkAsSeenIdempotent | backend/apps/achievements/views.py:38-42 | marking twice equals marking once, and the owner's record ends seen |
| DbRouter.DbForRead | backend/db_routers.py:6-11 | reads go to mongodb iff the app is classrooms, courses, leaderboard or contracts, else default |
| DbRouter.DbForWrite | backend/db_routers.py:13-16 | writes go to the same database as reads of the same model: mongodb iff the app is one of the four |
| DbRouter.AllowRelation | backend/db_routers.py:18-29 | never forbids; allows user with a document-store model, two document-store models, or two other models; otherwise leaves the decision open |
| DbRouter.RelationsFollowRouting | backend/db_routers.py:8-29 | two models routed to the same database may be related; across databases only the user model may be |
| DbRouter.AllowMigrate | backend/db_routers.py:31-35 | migrations are allowed iff the app is not a document-store app and the database is default |
| DbRouter.MigrationsFollowRouting | backend/db_routers.py:13-35 | a migration is only allowed on the database the app's models are written to |
| Sorting.SortSorted | backend/apps/leaderboard/utils.py:74-77 | the shared sort returns its input permuted and ordered by any total preorder |

## Left out

- Database and cache I/O, pymongo bulk writes, the Mongo handle, `ensure_indexes` and `select_for_update` are out: stores are in-memory maps and sequences. Failures are parameters (`Fault`, `StatusFault`, `readFails`, `cacheFails`). Best-effort bulk atomicity is not modelled.
- The background `Thread` in `get_leaderboard_data` and overlapping sweeps are out. The sweep is a separate sequential operation, and the read only records that it was launched.
- Real clocks and cache timing are out: timestamps are integers and the cache slot is an explicit (payload, expiry) pair.
- The haversine distance, the `$nearSphere` query and `round` in `get_distance` are out because they are floating-point work. The fallback search takes each room's distance as an input.
- The course average rating is out because it is a floating-point mean. Only `total_ratings` and the teacher's points are modelled.
- The Chargily client, webhook HMAC verification, invoices and polling are out because they are network calls. The transfer reply and invoice outcome are parameters.
- JWT authentication and the permission classes are out because they are library code. Roles and profiles arrive as booleans or fields of the requester.
- The login serializer is out.
- Email, WebSocket consumers, chat list views and notifications are out.
- Board.TopRankMatchesStoredRank: the top-100 query and `recalculate_ranks` both sort on (points, last_updated), and the model breaks remaining ties the same way in both, by one stable sort over storage order. MongoDB does not promise the same order for ties across two queries, so two entries tied on both keys could show positions that differ from their stored ranks.
- Sweep.SweepOutcome: the sweep does not re-rank, as written. The model states that ranks are untouched rather than stating dense ranks after a sweep.
- Ranking.UpdateSpec: `user_id` is declared unique in the Django model, but the store is modelled with the unique (user_id, role) index that `update_leaderboard` actually relies on. Should the single-field index exist in the collection, a second role's upsert for the same user would be refused; that is not modelled.
- Ranking.DisplayName: the user model allows a null username, which would be stored as a null name; registration always sets one, so names are text.
- LeaderboardModels.Save: a document the upsert created has no `rank` key; it is taken to load with a null rank.
- LeaderboardModels.Save: `Leaderboard.save` clamps only writes made through Django. The pymongo upserts of `update_leaderboard` bypass it, so stored points are not assumed to be clamped.
- Payments.MarkAsCompleted: a duplicate enrollment is taken to be refused, as the declared `unique_together` (courses/models.py:93) promises. The router never lets Django build that index on the course database (db_routers.py:31-35), so nothing on that database would refuse a duplicate; as written the completion raises before its insert anyway.
- Payments.MoveFundsTotal: no wallet model is part of the repository. Wallets are modelled as one balance per user, which is what `_update_wallet_balances` evidently expects of the model it imports.
- Payments.MarkAsCompleted: the payment's `_create_enrollment` does not raise the course's `current_students`. The model keeps that as written, so the counter invariant of `EnrollmentViews` is not claimed across a paid enrollment.
- PaymentRequests.Precheck: the amount is taken as already parsed to integer cents. Decimal text with sub-cent digits, exponents or `NaN` is not modelled, and neither is how `Decimal(str(x))` parses.
- EnrollmentViews.RatingValue: text is read as signed decimal text with white space around it. Underscores, non-ASCII digits, exponents, `inf`, `nan` and an overflowing conversion (a 500) are not modelled.
- EnrollmentViews.RatingValue: a JSON float is taken as its exact decimal value, so binary rounding (4.9999999999999999 arriving as 5.0) is not modelled.
- EnrollmentViews.OwnEnrollment: a malformed enrollment id is looked up as a plain string, and no stored id has that form, so it is modelled as not found.
- ObjectIds.HexValue: `bytes.fromhex` whitespace handling is not modelled. Object ids accept exactly 24 hexadecimal digits.
- Contracts.Detail: `InvalidId` is not a `ValueError` or `TypeError`, so a malformed id escapes the view's handler. It is modelled as a server error.
- Classrooms.Cascade: payments, stored in the default database like chat rooms, keep their contract link outside the classroom world and are not modelled here.
- PaymentRequests.InitiatePaymentFixed: the course or contract lookup is the boolean `relationFound`. As written, that lookup always raises: it imports `courses.models` and `contracts.models` by paths that do not resolve (payments/views.py:71, :74); it filters on `id`, which the course model lacks (its key is `_id`, courses/models.py:9) and which the contract model has only as a property (contracts/models.py:49-51); and the router gives no verdict on a default-database payment related to a course-database course or contract (db_routers.py:18-29). So even without the `metadata` keyword, the payment could be linked only if that lookup and the relation were rewritten too.
- The 500 answers of the classroom update and delete when the database write fails are out.
- `ClassroomCreateSerializer` is not used by the classroom list view's `post`, which uses the plain serializer. The create rule is modelled on its own.
- Registration.FieldErrors: age, experience_years and region_number stay text and are not parsed as integers; e-mail format, e-mail uniqueness and max_length checks are not modelled.
- Achievements.Award: `int` on text also accepts underscores between digits and non-ASCII digits, and a JSON float or boolean user_id is converted too; these are not modelled.
- Achievements.Award: an unknown user is taken to be refused by the foreign-key constraint with a 500; the settings of the default database are not part of this model.
- Achievements.MarkAsSeen: the view's 403 ownership branch is never reached, because `get_object` already filters by the requester, so it is not modelled.

## Findings

| source | as written | input that shows it | evidently intended | confidence | as-written member | corrected member |
|---|---|---|---|---|---|---|
| backend/apps/payments/views.py:60-67 | `Payment(...)` is built with a `metadata` keyword the model has no field for. The constructor raises `TypeError`, and the catch-all answers 400 | a complete student_teacher request with an existing recipient and amount 1500.00 | build the payment without `metadata` and go on to the fee split and the invoice; the course or contract lookup that follows must be rewritten as well, since it imports unresolvable module paths, filters on an `id` the models do not store, and relates a default-database payment to a course-database object the router refuses | high; not executed | PaymentRequests.ValidRequestRefused | PaymentRequests.CreatedSplit |
| backend/apps/chat/models.py:107-110 | `is_read` compares the number of readers with the number of participants | participants {a, b}, read_by {a, c} where c left the room | read by every participant | medium; not executed | Chat.IsReadCountsStrangers | Chat.IsReadAgrees |
| backend/apps/courses/serializers.py:100-105 | the link check on create looks at `data.get('status', 'draft')`, but status is not a serializer field. The check never runs, yet `perform_create` publishes every online course | an online course with no materials link and no meeting link | a course published online carries both links, as `Course.clean` demands (models.py:63-67) | high; not executed | Courses.CreateSkipsLinkCheck | Courses.CheckedCreateIsClean |
| backend/apps/classrooms/views.py:227-238 | the withdrawal guard filters contracts on `status__in=['active', 'pending']`, and neither is a contract status | an owner setting is_available false while a ready_for_enrollment contract runs past today | block while a live contract (processing, payment_pending, ready_for_enrollment) ends today or later | high; not executed | Classrooms.PutIgnoresContracts | Classrooms.PutCheckedRespectsContracts |
| backend/apps/leaderboard/utils.py:8 | the sweep calls `apps.get_model`, but `apps` is the module `backend.apps.authentication.apps`, which defines only the app config class. Every lookup raises AttributeError, the per-entry handler skips the entry, and the sweep writes nothing and returns 0 | a never-verified board entry with 5 points whose student profile has 7 | resolve the profile models through Django's app registry (`django.apps.apps.get_model`), so stale entries are healed and counted | high; not executed | Sweep.ReconcileAsWritten | Sweep.Reconcile |
| backend/apps/chat/models.py:141-143 | the enrollment save hook names the room after `course.id`, but the course's only key is its `_id` object id field, so the attribute lookup raises. The view's `transaction.atomic(using='default')` does not cover the course database: the enrollment stays, the counter is not raised and the view answers 500 | a published course with room and a student not yet enrolled | name the room after the course's object id and have it refer to the course by that id, since the router refuses a relation from a default-database room to a course-database course (db_routers.py:18-29, as for contracts below); the join then completes with the teacher and the student in the course room | medium; not executed | EnrollmentViews.EnrollAsWrittenStrands | EnrollmentViews.JoinWithRoomJoins |
| backend/apps/leaderboard/utils.py:41 | the board stores `user.get_full_name() or user.username`, and the status view's off-board answer shows the same (leaderboard/views.py:64). `get_full_name` joins first and last name, which registration never fills, so every registered account is listed under its username, the e-mail unless one was given | any account created through the registration endpoint | list the `full_name` column that registration collects | medium; not executed | StatusView.RegisteredName | Ranking.DisplayName |
| backend/apps/chat/models.py:121-127 | the contract hook builds the school-teacher room with `contract=instance`. Chat rooms are stored in the default database and contracts in the course database, and the router gives no verdict on that pair (db_routers.py:18-29), so Django refuses the relation and the hook raises. The teacher's payment view has already stored the contract; its catch-all answers 400 (contracts/views.py:143-151) | a teacher paying their payment_pending contract with reference "INV-1" | open the school-teacher room for the contract, so the payment answers 200 with both parties in the room | medium; not executed | Chat.TeacherPaymentAsWrittenStrands | Chat.TeacherPaymentWithRoomOpens |
| backend/apps/payments/models.py:93-164 | `_create_enrollment` imports `courses.models` and `_update_wallet_balances` imports `wallets.models`; neither path resolves (the app is `backend.apps.courses`, and there is no wallets app), so each raises on its first line. Every completion without a fee record reaches the wallet update, so `mark_as_completed` never returns. Its `transaction.atomic()` covers the default database only: the payment, its fee record and the wallets roll back, no enrollment is created, and only a teacher_school contract already saved to the course database stays paid | a pending student_teacher payment for a course the student has not joined | complete the payment: record the fee, move the money and create the enrollment or mark the contract paid, with the enrollment model imported from `backend.apps.courses` and a wallet model that exists | high; not executed | Payments.MarkAsCompletedAsWrittenStrands | Payments.MarkAsCompleted |

=== FILE: achievements.dfy ===
/** The achievements views: listing badges by type, awarding a badge to a
    user once, and marking an earned badge as seen. */
module Achievements {
  import opened Wrappers
  import opened CharFields
  import opened RatingText

  datatype Badge = Badge(id: nat, name: string, badgeType: string)

  /** `BadgeViewSet.get_queryset`: a non-empty `type` parameter keeps only
      badges of that type, in catalogue order. */
  function ListBadges(all: seq<Badge>, typeParam: Option<string>): (r: seq<Badge>)
    ensures typeParam.None? || typeParam == Some("") ==> r == all
    ensures typeParam.Some? && typeParam.value != "" ==>
      forall b :: b in r <==> b in all && b.badgeType == typeParam.value
    ensures typeParam.Some? && typeParam.value != "" ==>
      forall b :: multiset(r)[b] == if b.badgeType == typeParam.value then multiset(all)[b] else 0
    ensures |r| <= |all|
  {
    if typeParam.None? || typeParam.value == "" then all
    else if |all| == 0 then []
    else
      var rest := ListBadges(all[1..], typeParam);
      assert all == [all[0]] + all[1..];
      if all[0].badgeType == typeParam.value then [all[0]] + rest else rest
  }

  /** The filter distributes over joined catalogues: it keeps the
      catalogue's order and judges each badge on its own. */
  lemma {:induction false} ListBadgesAppend(a: seq<Badge>, b: seq<Badge>, t: string)
    requires t != ""
    ensures ListBadges(a + b, Some(t)) == ListBadges(a, Some(t)) + ListBadges(b, Some(t))
  {
    if |a| == 0 {
      assert a + b == b;
    } else {
      assert (a + b)[0] == a[0];
      assert (a + b)[1..] == a[1..] + b;
      ListBadgesAppend(a[1..], b, t);
    }
  }

  /** Every listed badge has the type asked for, and filtering the listing
      again changes nothing. */
  lemma {:induction false} ListBadgesIdempotent(all: seq<Badge>, t: string)
    requires t != ""
    ensures forall i :: 0 <= i < |ListBadges(all, Some(t))| ==> ListBadges(all, Some(t))[i].badgeType == t
    ensures ListBadges(ListBadges(all, Some(t)), Some(t)) == ListBadges(all, Some(t))
  {
    if |all| > 0 {
      ListBadgesIdempotent(all[1..], t);
      var rest := ListBadges(all[1..], Some(t));
      if all[0].badgeType == t {
        assert ([all[0]] + rest)[0] == all[0];
        assert ([all[0]] + rest)[1..] == rest;
      }
    }
  }

  /** A record ties a user, by primary key, to a badge. */
  datatype UserBadge = UserBadge(user: int, badge: nat, isSeen: bool)

  /** The earned badges, by record id. */
  type Records = map<nat, UserBadge>

  /** The ids of the records pairing `user` with `badge`. */
  function Holding(rs: Records, user: int, badge: nat): set<nat> {
    set k | k in rs && rs[k].user == user && rs[k].badge == badge
  }

  /** Python's `int(s)` on text: white space around an optionally signed
      run of decimal digits. Anything else is a `ValueError`. */
  function IntText(s: string): (r: Option<int>)
    ensures r.Some? ==> |Unsigned(Strip(s))| > 0 && AllDigits(Unsigned(Strip(s)))
  {
    var t := Strip(s);
    var b := Unsigned(t);
    if |b| > 0 && AllDigits(b) then
      var n: int := DigitsValue(b);
      Some(if t[0] == '-' then -n else n)
    else None
  }

  /** A signed number written out, with white space around it, reads back
      as that number. */
  lemma IntTextRoundTrip(p: string, sign: string, n: nat, q: string)
    requires AllSpace(p) && AllSpace(q)
    requires sign == "" || sign == "-" || sign == "+"
    ensures IntText(p + (sign + NatText(n)) + q) == Some(Signed(sign, n))
  {
    var w := NatText(n);
    var t := sign + w;
    NatTextValue(n);
    assert Decimal(w, None) == w;
    DecimalTrimmed(sign, w, None);
    StripPadded(p, t, q);
    StripTrimmed(t);
    assert Strip(p + t + q) == t;
    SignedParts(sign, w);
    IntTextOf(p + t + q, t, w, n);
  }

  /** `IntText` of text that strips to `t`, a sign and the digits `w` of `n`. */
  lemma IntTextOf(s: string, t: string, w: string, n: nat)
    requires Strip(s) == t && |t| > 0 && Unsigned(t) == w && |w| > 0 && AllDigits(w) && DigitsValue(w) == n
    ensures IntText(s) == Some(if t[0] == '-' then -(n as int) else n as int)
  {
  }

  /** The `user_id` of the request body: JSON text or a JSON number. */
  datatype UserIdValue = IdText(text: string) | IdNumber(number: int)

  /** Python truthiness of the value. */
  predicate Truthy(v: UserIdValue) {
    v != IdText("") && v != IdNumber(0)
  }

  /** The primary key the integer column makes of the value; text that is
      not a whole number raises `ValueError`. */
  function UserPk(v: UserIdValue): (r: Option<int>)
    ensures v.IdNumber? ==> r == Some(v.number)
  {
    match v
    case IdNumber(n) => Some(n)
    case IdText(s) => IntText(s)
  }

  /** 500: the lookup could not convert the value, or the new record names
      a user that does not exist. */
  datatype Response = Awarded(record: UserBadge) | BadRequest | NotFound | Seen | ServerError

  /** `AdminBadgeViewSet.award`: the new record takes the id `freshId`;
      `users` are the primary keys of the existing users. */
  function Award(rs: Records, users: set<int>, badge: nat, userId: Option<UserIdValue>, freshId: nat): (r: (Response, Records))
    requires freshId !in rs
    ensures userId.None? || !Truthy(userId.value) ==> r == (BadRequest, rs)
    ensures r.0.Awarded? <==>
      && userId.Some? && Truthy(userId.value) && UserPk(userId.value).Some?
      && UserPk(userId.value).value in users && Holding(rs, UserPk(userId.value).value, badge) == {}
    ensures r.0 == ServerError <==>
      && userId.Some? && Truthy(userId.value)
      && (UserPk(userId.value).None?
          || (UserPk(userId.value).value !in users && Holding(rs, UserPk(userId.value).value, badge) == {}))
    ensures !r.0.Awarded? ==> r.1 == rs
    ensures r.0.Awarded? ==> r.1 == rs[freshId := UserBadge(UserPk(userId.value).value, badge, false)]
  {
    if userId.None? || !Truthy(userId.value) then (BadRequest, rs)
    else match UserPk(userId.value)
      case None => (ServerError, rs)
      case Some(user) =>
        if Holding(rs, user, badge) != {} then (BadRequest, rs)
        else if user !in users then (ServerError, rs)
        else
          var ub := UserBadge(user, badge, false);
          (Awarded(ub), rs[freshId := ub])
  }

  /** A user id sent as text, padded or signed, is awarded exactly as the
      same id sent as a number. */
  lemma AwardTextAsNumber(rs: Records, users: set<int>, badge: nat, p: string, sign: string, n: nat, q: string, freshId: nat)
    requires freshId !in rs
    requires AllSpace(p) && AllSpace(q)
    requires sign == "" || sign == "-" || sign == "+"
    requires Signed(sign, n) != 0
    ensures Award(rs, users, badge, Some(IdText(p + (sign + NatText(n)) + q)), freshId)
         == Award(rs, users, badge, Some(IdNumber(Signed(sign, n))), freshId)
  {
    var s := p + (sign + NatText(n)) + q;
    IntTextRoundTrip(p, sign, n, q);
    assert |s| > 0;
    SamePkSameAward(rs, users, badge, IdText(s), IdNumber(Signed(sign, n)), freshId);
  }

  /** The view looks only at whether the value is truthy and at the key
      it converts to. */
  lemma SamePkSameAward(rs: Records, users: set<int>, badge: nat, v: UserIdValue, w: UserIdValue, freshId: nat)
    requires freshId !in rs
    requires Truthy(v) && Truthy(w) && UserPk(v) == UserPk(w)
    ensures Award(rs, users, badge, Some(v), freshId) == Award(rs, users, badge, Some(w), freshId)
  {
  }

  /** After a successful award the user holds the badge through exactly one
      record, and the pairs of every other user and badge are untouched; a
      repeated award is refused. */
  lemma {:induction false} AwardOnce(rs: Records, users: set<int>, badge: nat, user: UserIdValue, freshId: nat, laterId: nat)
    requires freshId !in rs && laterId != freshId && laterId !in rs
    requires Award(rs, users, badge, Some(user), freshId).0.Awarded?
    ensures UserPk(user).Some?
    ensures var after := Award(rs, users, badge, Some(user), freshId).1;
      && Holding(after, UserPk(user).value, badge) == {freshId}
      && (forall u, b: nat :: (u, b) != (UserPk(user).value, badge) ==> Holding(after, u, b) == Holding(rs, u, b))
      && Award(after, users, badge, Some(user), laterId) == (BadRequest, after)
  {
    var pk := UserPk(user).value;
    var after := Award(rs, users, badge, Some(user), freshId).1;
    assert after == rs[freshId := UserBadge(pk, badge, false)];
    forall u, b: nat | (u, b) != (pk, badge) ensures Holding(after, u, b) == Holding(rs, u, b) {
      HoldingAfterInsert(rs, freshId, UserBadge(pk, badge, false), u, b);
    }
    HoldingAfterInsert(rs, freshId, UserBadge(pk, badge, false), pk, badge);
  }

  /** A new record adds its id to the holdings of its own user and badge
      only. */
  lemma HoldingAfterInsert(rs: Records, id: nat, ub: UserBadge, u: int, b: nat)
    requires id !in rs
    ensures Holding(rs[id := ub], u, b) == Holding(rs, u, b) + (if ub.user == u && ub.badge == b then {id} else {})
  {
  }

  /** `UserBadgeViewSet.mark_as_seen`. The record is looked up among the
      requester's own badges, so another user's record is not found (the
      view's later ownership test can then never fail). */
  function MarkAsSeen(rs: Records, id: nat, requester: int): (r: (Response, Records))
    ensures r.0 == Seen <==> id in rs && rs[id].user == requester
    ensures r.0 != Seen ==> r == (NotFound, rs)
    ensures r.0 == Seen ==> r.1 == rs[id := rs[id].(isSeen := true)]
  {
    if id !in rs || rs[id].user != requester then (NotFound, rs)
    else if !rs[id].isSeen then (Seen, rs[id := rs[id].(isSeen := true)])
    else (Seen, rs)
  }

  /** Marking twice is the same as marking once, and an owner's record ends
      seen. */
  lemma MarkAsSeenIdempotent(rs: Records, id: nat, requester: int)
    ensures var once := MarkAsSeen(rs, id, requester);
      MarkAsSeen(once.1, id, requester).1 == once.1
    ensures id in rs && rs[id].user == requester ==>
      var after := MarkAsSeen(rs, id, requester).1; id in after && after[id].isSeen
  {
  }
}

=== FILE: char_field.dfy ===
/** Django REST framework's `CharField` as the serializers here declare it
    (`trim_whitespace` on): blank text is refused, surrounding white space
    is trimmed and a NUL character is refused. */
module CharFields {
  import opened Wrappers
  import opened ObjectIds

  /** Python's `str.isspace`, the characters `str.strip()` removes. */
  predicate IsSpace(c: char) {
    || ('\t' <= c <= '\r')
    || ('\U{1C}' <= c <= ' ')
    || c == '\U{85}' || c == '\U{A0}' || c == '\U{1680}'
    || ('\U{2000}' <= c <= '\U{200A}')
    || c == '\U{2028}' || c == '\U{2029}' || c == '\U{202F}' || c == '\U{205F}' || c == '\U{3000}'
  }

  predicate AllSpace(s: string) {
    forall i :: 0 <= i < |s| ==> IsSpace(s[i])
  }

  /** No white space at either end. */
  predicate Trimmed(s: string) {
    |s| == 0 || (!IsSpace(s[0]) && !IsSpace(s[|s| - 1]))
  }

  /** `str.lstrip()`: a suffix of `s` after nothing but white space. */
  function StripStart(s: string): (r: string)
    ensures |r| <= |s| && r == s[|s| - |r|..]
    ensures AllSpace(s[..|s| - |r|])
    ensures |r| > 0 ==> !IsSpace(r[0])
  {
    if |s| > 0 && IsSpace(s[0]) then
      var r := StripStart(s[1..]);
      var n := |s| - |r|;
      assert s[1..][n - 1..] == s[n..];
      SpaceThenSpace(s, n);
      r
    else s
  }

  /** A white-space character followed by white space is white space. */
  lemma SpaceThenSpace(s: string, n: int)
    requires 0 < n <= |s| && IsSpace(s[0]) && AllSpace(s[1..][..n - 1])
    ensures AllSpace(s[..n])
  {
    forall i | 0 <= i < n ensures IsSpace(s[..n][i]) {
      if i > 0 {
        assert s[..n][i] == s[1..][..n - 1][i - 1];
      }
    }
  }

  /** `str.rstrip()`: a prefix of `s` before nothing but white space. */
  function StripEnd(s: string): (r: string)
    ensures |r| <= |s| && r == s[..|r|]
    ensures AllSpace(s[|r|..])
    ensures |r| > 0 ==> !IsSpace(r[|r| - 1])
  {
    if |s| > 0 && IsSpace(s[|s| - 1]) then
      var r := StripEnd(s[..|s| - 1]);
      assert s[..|s| - 1][..|r|] == s[..|r|];
      assert AllSpace(s[|r|..]) by {
        forall j | 0 <= j < |s| - |r| ensures IsSpace(s[|r|..][j]) {
          if j < |s| - 1 - |r| {
            assert s[|r|..][j] == s[..|s| - 1][|r|..][j];
          }
        }
      }
      r
    else s
  }

  /** `str.strip()`. */
  function Strip(s: string): (r: string)
    ensures Trimmed(r)
    ensures r == [] <==> AllSpace(s)
    ensures |r| <= |s|
  {
    var a := StripStart(s);
    var r := StripEnd(a);
    assert r == [] ==> AllSpace(s) by {
      if r == [] {
        assert AllSpace(a);
        assert s == s[..|s| - |a|] + a;
      }
    }
    assert |a| > 0 ==> !AllSpace(s) by {
      if |a| > 0 {
        assert !IsSpace(s[|s| - |a|]);
      }
    }
    r
  }

  /** Every character of `s` that is not white space survives `Strip`. */
  lemma StripKeeps(s: string, c: char)
    requires c in s && !IsSpace(c)
    ensures c in Strip(s)
  {
    var a := StripStart(s);
    var n := |s| - |a|;
    var i :| 0 <= i < |s| && s[i] == c;
    forall k | 0 <= k < n ensures IsSpace(s[k]) {
      assert s[..n][k] == s[k];
    }
    var j := i - n;
    assert a[j] == c;
    var r := StripEnd(a);
    forall k | |r| <= k < |a| ensures IsSpace(a[k]) {
      assert a[|r|..][k - |r|] == a[k];
    }
    assert r[j] == c;
  }

  /** Leading white space does not change `StripStart`. */
  lemma {:induction false} StripStartPadded(p: string, s: string)
    requires AllSpace(p)
    ensures StripStart(p + s) == StripStart(s)
  {
    if p != [] {
      assert (p + s)[0] == p[0];
      assert (p + s)[1..] == p[1..] + s;
      assert AllSpace(p[1..]) by {
        assert forall i :: 0 <= i < |p| - 1 ==> p[1..][i] == p[i + 1];
      }
      StripStartPadded(p[1..], s);
    } else {
      assert p + s == s;
    }
  }

  /** Trailing white space does not change `StripEnd`. */
  lemma {:induction false} StripEndPadded(s: string, q: string)
    requires AllSpace(q)
    ensures StripEnd(s + q) == StripEnd(s)
  {
    if q != [] {
      assert (s + q)[|s + q| - 1] == q[|q| - 1];
      assert (s + q)[..|s + q| - 1] == s + q[..|q| - 1];
      assert AllSpace(q[..|q| - 1]) by {
        assert forall i :: 0 <= i < |q| - 1 ==> q[..|q| - 1][i] == q[i];
      }
      StripEndPadded(s, q[..|q| - 1]);
    } else {
      assert s + q == s;
    }
  }

  /** Trailing white space after text that is not all white space passes
      through `StripStart` unchanged. */
  lemma {:induction false} StripStartKeepsTail(s: string, q: string)
    requires !AllSpace(s)
    ensures StripStart(s + q) == StripStart(s) + q
  {
    if IsSpace(s[0]) {
      assert (s + q)[1..] == s[1..] + q;
      assert !AllSpace(s[1..]) by {
        var i :| 0 <= i < |s| && !IsSpace(s[i]);
        assert s[1..][i - 1] == s[i];
      }
      StripStartKeepsTail(s[1..], q);
    }
  }

  /** White space around the text does not change what `Strip` keeps. */
  lemma StripPadded(p: string, s: string, q: string)
    requires AllSpace(p) && AllSpace(q)
    ensures Strip(p + s + q) == Strip(s)
  {
    PaddedBlank(p, s, q);
    if !AllSpace(s) {
      assert p + s + q == p + (s + q);
      StripStartPadded(p, s + q);
      StripStartKeepsTail(s, q);
      StripEndPadded(StripStart(s), q);
      assert StripStart(p + s + q) == StripStart(s) + q;
      assert Strip(p + s + q) == StripEnd(StripStart(s) + q);
    }
  }

  /** Text already without white space at its ends is kept whole. */
  lemma StripTrimmed(s: string)
    requires Trimmed(s)
    ensures Strip(s) == s
  {
    assert StripStart(s) == s;
  }

  /** Stripping twice is stripping once. */
  lemma StripIdempotent(s: string)
    ensures Strip(Strip(s)) == Strip(s)
  {
    StripTrimmed(Strip(s));
  }

  datatype FieldError = Blank | NullCharacter

  /** `CharField.run_validation` on a value that is present and not null:
      text that is empty or all white space is refused as blank before
      anything else; otherwise the value is the trimmed text, refused when
      it holds a NUL character. */
  function CharField(s: string): (r: Result<string, FieldError>)
    ensures r == Err(Blank) <==> AllSpace(s)
    ensures r == Err(NullCharacter) <==> !AllSpace(s) && '\0' in s
    ensures r.Ok? ==> r.value == Strip(s) && Trimmed(r.value) && r.value != [] && '\0' !in r.value
  {
    if AllSpace(s) then Err(Blank)
    else
      var v := Strip(s);
      assert '\0' in s ==> '\0' in v by {
        if '\0' in s {
          StripKeeps(s, '\0');
        }
      }
      if '\0' in v then Err(NullCharacter) else Ok(v)
  }

  /** The same field with `allow_blank`: blank text is the empty string. */
  function BlankableCharField(s: string): (r: Result<string, FieldError>)
    ensures r == Ok([]) <==> AllSpace(s)
    ensures r.Err? <==> r == Err(NullCharacter)
    ensures forall v :: r == Ok(v) && v != [] ==> CharField(s) == r
  {
    if AllSpace(s) then Ok([]) else CharField(s)
  }

  /** White space around the text leaves it blank exactly when it was. */
  lemma PaddedBlank(p: string, s: string, q: string)
    requires AllSpace(p) && AllSpace(q)
    ensures AllSpace(p + s + q) <==> AllSpace(s)
  {
    if AllSpace(s) {
      forall i | 0 <= i < |p + s + q| ensures IsSpace((p + s + q)[i]) {
        if i < |p| {
          assert (p + s + q)[i] == p[i];
        } else if i < |p| + |s| {
          assert (p + s + q)[i] == s[i - |p|];
        } else {
          assert (p + s + q)[i] == q[i - |p| - |s|];
        }
      }
    } else {
      var i :| 0 <= i < |s| && !IsSpace(s[i]);
      assert (p + s + q)[|p| + i] == s[i];
    }
  }

  /** White space around the text adds no NUL character. */
  lemma PaddedNul(p: string, s: string, q: string)
    requires AllSpace(p) && AllSpace(q)
    ensures '\0' in p + s + q <==> '\0' in s
  {
    var x := p + s + q;
    forall k | 0 <= k < |x| ensures !IsSpace(x[k]) ==> |p| <= k < |p| + |s| && x[k] == s[k - |p|] {
      if k < |p| {
        assert x[k] == p[k];
      } else if k >= |p| + |s| {
        assert x[k] == q[k - |p| - |s|];
      } else {
        assert x[k] == s[k - |p|];
      }
    }
    assert !IsSpace('\0');
    if '\0' in s {
      var i :| 0 <= i < |s| && s[i] == '\0';
      assert x[|p| + i] == '\0';
    }
    if '\0' in x {
      var i :| 0 <= i < |x| && x[i] == '\0';
      assert s[i - |p|] == '\0';
    }
  }

  /** Padding a value with white space changes nothing a serializer sees. */
  lemma FieldIgnoresPadding(p: string, s: string, q: string)
    requires AllSpace(p) && AllSpace(q)
    ensures CharField(p + s + q) == CharField(s)
    ensures BlankableCharField(p + s + q) == BlankableCharField(s)
  {
    StripPadded(p, s, q);
    PaddedBlank(p, s, q);
    PaddedNul(p, s, q);
  }

  /** An object id written out, with or without white space around it,
      passes the field as exactly its hex form. */
  lemma PaddedObjectId(p: string, b: Oid, q: string)
    requires ValidOid(b) && AllSpace(p) && AllSpace(q)
    ensures CharField(p + ObjectIdString(b) + q) == Ok(ObjectIdString(b))
  {
    var h := ObjectIdString(b);
    FieldIgnoresPadding(p, h, q);
    assert forall i :: 0 <= i < |h| ==> !IsSpace(h[i]) && h[i] != '\0' by {
      forall i | 0 <= i < |h| ensures !IsSpace(h[i]) && h[i] != '\0' {
        assert '0' <= h[i] <= '9' || 'a' <= h[i] <= 'f';
      }
    }
    assert !IsSpace(h[0]) && !IsSpace(h[|h| - 1]);
    StripTrimmed(h);
  }
}

=== FILE: chat.dfy ===
/** Chat rooms and messages: membership and read-marking as set
    operations, the read predicate, and the rooms opened when a contract
    becomes ready or a student enrolls. */
module Chat {
  import opened Wrappers
  import opened ObjectIds
  import Contracts
  import DbRouter

  datatype RoomType = CourseRoom | SchoolTeacherRoom | PrivateRoom

  /** A room; `course` and `contract` are the linked object, if any. */
  datatype Room = Room(
    roomType: RoomType,
    course: Option<string>,
    contract: Option<Oid>,
    participants: set<string>)

  /** Rooms by their unique `room_id`. */
  type Rooms = map<string, Room>

  /** `add_participant`. */
  function AddParticipant(r: Room, user: string): (r2: Room)
    ensures r2.participants == r.participants + {user}
    ensures r2.(participants := r.participants) == r
  {
    if user in r.participants then r else r.(participants := r.participants + {user})
  }

  /** `remove_participant`. */
  function RemoveParticipant(r: Room, user: string): (r2: Room)
    ensures r2.participants == r.participants - {user}
    ensures r2.(participants := r.participants) == r
  {
    if user in r.participants then r.(participants := r.participants - {user}) else r
  }

  /** Adding twice is adding once; removing undoes adding a newcomer; and
      removing an absent user changes nothing. */
  lemma MembershipLaws(r: Room, user: string)
    ensures AddParticipant(AddParticipant(r, user), user) == AddParticipant(r, user)
    ensures RemoveParticipant(RemoveParticipant(r, user), user) == RemoveParticipant(r, user)
    ensures user !in r.participants ==> RemoveParticipant(AddParticipant(r, user), user) == r
    ensures user !in r.participants ==> RemoveParticipant(r, user) == r
  {
  }

  datatype Message = Message(sender: string, content: string, readBy: set<string>)

  /** `mark_as_read`. */
  function MarkAsRead(m: Message, user: string): (m2: Message)
    ensures m2.readBy == m.readBy + {user}
    ensures m2.(readBy := m.readBy) == m
  {
    if user in m.readBy then m else m.(readBy := m.readBy + {user})
  }

  lemma MarkAsReadIdempotent(m: Message, user: string)
    ensures MarkAsRead(MarkAsRead(m, user), user) == MarkAsRead(m, user)
  {
  }

  /** `is_read` as written: as many readers as participants. */
  predicate IsReadAsWritten(m: Message, room: Room) {
    |m.readBy| == |room.participants|
  }

  /** Read by every participant, as the property's description says. */
  predicate IsRead(m: Message, room: Room) {
    room.participants <= m.readBy
  }

  /** The counts can agree while a participant has not read: a reader who
      has since left the room stands in for one who has not. */
  lemma IsReadCountsStrangers()
    ensures var room := Room(PrivateRoom, None, None, {"a", "b"});
      var m := Message("a", "hi", {"a", "c"});
      IsReadAsWritten(m, room) && !IsRead(m, room)
  {
    var m := Message("a", "hi", {"a", "c"});
    assert "b" !in m.readBy;
    assert |{"a", "b"}| == 2 && |{"a", "c"}| == 2;
  }

  lemma SubsetNotLarger<T>(a: set<T>, b: set<T>)
    requires a <= b
    ensures |a| <= |b|
  {
    assert b == a + (b - a);
  }

  lemma ProperSubsetSmaller<T>(a: set<T>, b: set<T>)
    requires a <= b && a != b
    ensures |a| < |b|
  {
    var x :| x in b && x !in a;
    SubsetNotLarger(a, b - {x});
  }

  /** When only participants have read, the two agree. */
  lemma IsReadAgrees(m: Message, room: Room)
    requires m.readBy <= room.participants
    ensures IsReadAsWritten(m, room) <==> IsRead(m, room)
  {
    if m.readBy != room.participants {
      ProperSubsetSmaller(m.readBy, room.participants);
    }
  }

  /** `get_or_create(room_id=…, defaults=…)`. */
  function GetOrCreate(rooms: Rooms, rid: string, blank: Room): (r: Room)
    ensures rid in rooms ==> r == rooms[rid]
    ensures rid !in rooms ==> r == blank
  {
    if rid in rooms then rooms[rid] else blank
  }

  function SchoolTeacherRoomId(contractId: Oid): string {
    "school_teacher_" + ObjectIdString(contractId)
  }

  function CourseRoomId(courseId: string): string {
    "course_" + courseId
  }

  /** Generated room ids never collide: the two kinds differ, and each
      kind names one contract or one course. */
  lemma RoomIdsDistinct(contractId: Oid, otherContract: Oid, courseId: string, otherCourse: string)
    ensures SchoolTeacherRoomId(contractId) != CourseRoomId(courseId)
    ensures contractId != otherContract ==> SchoolTeacherRoomId(contractId) != SchoolTeacherRoomId(otherContract)
    ensures courseId != otherCourse ==> CourseRoomId(courseId) != CourseRoomId(otherCourse)
  {
    assert SchoolTeacherRoomId(contractId)[0] == 's';
    assert CourseRoomId(courseId)[0] == 'c';
    if SchoolTeacherRoomId(contractId) == SchoolTeacherRoomId(otherContract) {
      assert SchoolTeacherRoomId(contractId)[15..] == ObjectIdString(contractId);
      assert SchoolTeacherRoomId(otherContract)[15..] == ObjectIdString(otherContract);
      HexRoundTrip(contractId);
      HexRoundTrip(otherContract);
    }
    if CourseRoomId(courseId) == CourseRoomId(otherCourse) {
      assert CourseRoomId(courseId)[7..] == courseId;
      assert CourseRoomId(otherCourse)[7..] == otherCourse;
    }
  }

  /** The contract save hook: a contract ready for enrollment gets one
      school-teacher room holding its teacher and its school. */
  function ContractSaved(rooms: Rooms, id: Oid, c: Contracts.Contract): (r: Rooms)
    ensures c.status != Contracts.ReadyForEnrollment ==> r == rooms
    ensures c.status == Contracts.ReadyForEnrollment ==>
      var rid := SchoolTeacherRoomId(id);
      && r.Keys == rooms.Keys + {rid}
      && (forall k :: k in rooms && k != rid ==> r[k] == rooms[k])
      && (rid in rooms ==> r[rid] == rooms[rid].(participants := rooms[rid].participants + {c.teacher, c.school}))
      && (rid !in rooms ==> r[rid] == Room(SchoolTeacherRoom, None, Some(id), {c.teacher, c.school}))
  {
    if c.status != Contracts.ReadyForEnrollment then rooms
    else
      var rid := SchoolTeacherRoomId(id);
      var room := GetOrCreate(rooms, rid, Room(SchoolTeacherRoom, None, Some(id), {}));
      rooms[rid := AddParticipant(AddParticipant(room, c.teacher), c.school)]
  }

  const ContractModel := DbRouter.Meta("contracts", "contract")
  const ChatRoomModel := DbRouter.Meta("chat", "chatroom")

  /** Django's check when `value` is assigned to a foreign key of an
      instance of `holder`: the routers' verdict when one gives it, and
      otherwise both must be stored in the same database. */
  predicate RelationAllowed(value: DbRouter.Meta, holder: DbRouter.Meta) {
    match DbRouter.AllowRelation(value, holder)
    case Some(b) => b
    case None => DbRouter.DbForWrite(value) == DbRouter.DbForWrite(holder)
  }

  /** A contract is stored in the course database and a chat room in the
      default one, and the router has no opinion on that pair, so a room
      can never be given a contract. */
  lemma ContractRoomRefused()
    ensures DbRouter.AllowRelation(ContractModel, ChatRoomModel).None?
    ensures !RelationAllowed(ContractModel, ChatRoomModel)
  {
  }

  /** The contract save hook as written: a missing room is built with the
      contract as its foreign key, which Django refuses (see
      `ContractRoomRefused`), so the hook raises (`None`); an existing room
      is only joined. */
  function ContractSavedAsWritten(rooms: Rooms, id: Oid, c: Contracts.Contract): (r: Option<Rooms>)
    ensures r.None? <==> c.status == Contracts.ReadyForEnrollment && SchoolTeacherRoomId(id) !in rooms
    ensures r.Some? ==> r.value == ContractSaved(rooms, id, c)
  {
    ContractRoomRefused();
    if c.status == Contracts.ReadyForEnrollment && SchoolTeacherRoomId(id) !in rooms
       && !RelationAllowed(ContractModel, ChatRoomModel)
    then None
    else Some(ContractSaved(rooms, id, c))
  }

  /** The request a teacher's payment of contract `rawId` goes through:
      the id reads, the contract is theirs and awaits payment, and the
      reference is not empty. */
  predicate PayableBy(cs: Contracts.Contracts, rawId: string, requester: string, reference: Option<string>) {
    && ParseObjectId(rawId).Some?
    && ParseObjectId(rawId).value in cs
    && cs[ParseObjectId(rawId).value].teacher == requester
    && cs[ParseObjectId(rawId).value].status == Contracts.PaymentPending
    && reference.Some? && reference.value != ""
  }

  /** `TeacherPaymentUpdateView.update` with the save hook the contract's
      save fires as written. The hook runs after the contract document is
      written, and the view's catch-all answers its exception with 400. */
  function TeacherPaymentAsWritten(cs: Contracts.Contracts, rooms: Rooms, rawId: string, requester: string, reference: Option<string>)
    : (r: (Contracts.ContractResponse, Contracts.Contracts, Rooms))
    ensures r.1 == Contracts.TeacherPayment(cs, rawId, requester, reference).1
    ensures !PayableBy(cs, rawId, requester, reference) ==>
      r == (Contracts.TeacherPayment(cs, rawId, requester, reference).0, cs, rooms)
    ensures PayableBy(cs, rawId, requester, reference) ==>
      var id := ParseObjectId(rawId).value;
      && (SchoolTeacherRoomId(id) !in rooms ==> r.0 == Contracts.BadRequest && r.2 == rooms)
      && (SchoolTeacherRoomId(id) in rooms ==>
            && r.0 == Contracts.TeacherPayment(cs, rawId, requester, reference).0
            && r.2 == ContractSaved(rooms, id, r.1[id]))
  {
    var (resp, cs2) := Contracts.TeacherPayment(cs, rawId, requester, reference);
    if resp.ContractOk? then
      match ContractSavedAsWritten(rooms, ParseObjectId(rawId).value, resp.contract)
      case None => (Contracts.BadRequest, cs2, rooms)
      case Some(rooms2) => (resp, cs2, rooms2)
    else (resp, cs2, rooms)
  }

  /** The payment view with the hook as it is evidently meant: the room
      refers to its contract by id, so opening it cannot fail. */
  function TeacherPaymentWithRoom(cs: Contracts.Contracts, rooms: Rooms, rawId: string, requester: string, reference: Option<string>)
    : (r: (Contracts.ContractResponse, Contracts.Contracts, Rooms))
    ensures (r.0, r.1) == Contracts.TeacherPayment(cs, rawId, requester, reference)
    ensures !r.0.ContractOk? ==> r.2 == rooms
  {
    var (resp, cs2) := Contracts.TeacherPayment(cs, rawId, requester, reference);
    if resp.ContractOk? then (resp, cs2, ContractSaved(rooms, ParseObjectId(rawId).value, resp.contract))
    else (resp, cs2, rooms)
  }

  /** As written, the first payment of a contract answers 400 although the
      contract is stored as paid, with the reference, and no room is
      opened; the teacher's retry then finds nothing (404). */
  lemma TeacherPaymentAsWrittenStrands(cs: Contracts.Contracts, rooms: Rooms, rawId: string, requester: string, reference: Option<string>)
    requires PayableBy(cs, rawId, requester, reference)
    requires SchoolTeacherRoomId(ParseObjectId(rawId).value) !in rooms
    ensures var r := TeacherPaymentAsWritten(cs, rooms, rawId, requester, reference);
      var id := ParseObjectId(rawId).value;
      && r.0 == Contracts.BadRequest
      && r.1[id].status == Contracts.ReadyForEnrollment && r.1[id].paymentReference == reference
      && r.2 == rooms
      && TeacherPaymentAsWritten(r.1, r.2, rawId, requester, reference).0 == Contracts.NotFound
  {
    Contracts.TeacherPaymentOnce(cs, rawId, requester, reference);
  }

  /** With the room keyed by the contract's id, a payment the guards allow
      succeeds and the school-teacher room holds both parties; every other
      room is as it was. */
  lemma TeacherPaymentWithRoomOpens(cs: Contracts.Contracts, rooms: Rooms, rawId: string, requester: string, reference: Option<string>)
    requires PayableBy(cs, rawId, requester, reference)
    ensures var r := TeacherPaymentWithRoom(cs, rooms, rawId, requester, reference);
      var id := ParseObjectId(rawId).value;
      var rid := SchoolTeacherRoomId(id);
      && r.0.ContractOk?
      && r.1[id].status == Contracts.ReadyForEnrollment
      && rid in r.2 && cs[id].teacher in r.2[rid].participants && cs[id].school in r.2[rid].participants
      && (forall k :: k in rooms && k != rid ==> k in r.2 && r.2[k] == rooms[k])
  {
  }

  /** The enrollment save hook as it is evidently meant: a new enrollment
      puts the course's teacher and the student in the course room, named
      after the course's object id. The room refers to its course by id
      rather than by a relation to the course database, so opening it
      cannot fail. */
  function EnrollmentSaved(rooms: Rooms, created: bool, courseId: string, teacher: string, student: string): (r: Rooms)
    ensures !created ==> r == rooms
    ensures created ==>
      var rid := CourseRoomId(courseId);
      && r.Keys == rooms.Keys + {rid}
      && (forall k :: k in rooms && k != rid ==> r[k] == rooms[k])
      && (rid in rooms ==> r[rid] == rooms[rid].(participants := rooms[rid].participants + {teacher, student}))
      && (rid !in rooms ==> r[rid] == Room(CourseRoom, Some(courseId), None, {teacher, student}))
  {
    if !created then rooms
    else
      var rid := CourseRoomId(courseId);
      var room := GetOrCreate(rooms, rid, Room(CourseRoom, Some(courseId), None, {}));
      var withTeacher := if teacher !in room.participants then AddParticipant(room, teacher) else room;
      rooms[rid := AddParticipant(withTeacher, student)]
  }

  /** Saving a ready contract again, or reporting the same new enrollment
      twice, leaves the rooms as the first time. */
  lemma HooksIdempotent(rooms: Rooms, id: Oid, c: Contracts.Contract, courseId: string, teacher: string, student: string)
    ensures ContractSaved(ContractSaved(rooms, id, c), id, c) == ContractSaved(rooms, id, c)
    ensures EnrollmentSaved(EnrollmentSaved(rooms, true, courseId, teacher, student), true, courseId, teacher, student)
      == EnrollmentSaved(rooms, true, courseId, teacher, student)
  {
    var r1 := ContractSaved(rooms, id, c);
    if c.status == Contracts.ReadyForEnrollment {
      var rid := SchoolTeacherRoomId(id);
      assert r1[rid].participants + {c.teacher, c.school} == r1[rid].participants;
    }
    var rid2 := CourseRoomId(courseId);
    var e1 := EnrollmentSaved(rooms, true, courseId, teacher, student);
    assert e1[rid2].participants + {teacher, student} == e1[rid2].participants;
  }
}

=== FILE: classrooms.dfy ===
/** Classrooms: GeoJSON point validation, creation, ownership and distance
    fields, and the detail view's read, availability update and delete
    guards, plus the fallback nearby search with distances abstracted. */
module Classrooms {
  import opened Wrappers
  import opened ObjectIds
  import Contracts
  import Chat
  import Courses
  import Sorting

  /** A parsed JSON value. A number with a fraction is `mantissa / 10^scale`. */
  datatype Json =
    | JNull
    | JBool(b: bool)
    | JInt(i: int)
    | JFloat(mantissa: int, scale: nat)
    | JString(s: string)
    | JArray(items: seq<Json>)
    | JObject(fields: map<string, Json>)

  /** `isinstance(x, (int, float))`; a boolean is an `int` in Python. */
  predicate IsNumber(x: Json) {
    x.JInt? || x.JFloat? || x.JBool?
  }

  /** What `validate_location` accepts: an object whose `type` is "Point"
      and whose `coordinates` is a list of exactly two numbers. */
  predicate ValidLocation(v: Json) {
    && v.JObject?
    && "type" in v.fields && v.fields["type"] == JString("Point")
    && "coordinates" in v.fields && v.fields["coordinates"].JArray?
    && |v.fields["coordinates"].items| == 2
    && IsNumber(v.fields["coordinates"].items[0])
    && IsNumber(v.fields["coordinates"].items[1])
  }

  datatype LocationError = NotAMapping | NotAPoint | BadCoordinates | NotNumbers

  /** `ClassroomCreateSerializer.validate_location`. */
  function ValidateLocation(v: Json): (r: Result<Json, LocationError>)
    ensures r.Ok? <==> ValidLocation(v)
    ensures r.Ok? ==> r.value == v
    ensures !v.JObject? ==> r == Err(NotAMapping)
  {
    if !v.JObject? then Err(NotAMapping)
    else if "type" !in v.fields || v.fields["type"] != JString("Point") then Err(NotAPoint)
    else if "coordinates" !in v.fields || !v.fields["coordinates"].JArray? || |v.fields["coordinates"].items| != 2 then Err(BadCoordinates)
    else if !IsNumber(v.fields["coordinates"].items[0]) || !IsNumber(v.fields["coordinates"].items[1]) then Err(NotNumbers)
    else Ok(v)
  }

  /** A GeoJSON Point per section 3.1.2 of RFC 7946: its coordinates are one
      position, which per section 3.1.1 has two or more numbers (JSON
      numbers only). */
  predicate RfcPoint(v: Json) {
    && v.JObject?
    && "type" in v.fields && v.fields["type"] == JString("Point")
    && "coordinates" in v.fields && v.fields["coordinates"].JArray?
    && |v.fields["coordinates"].items| >= 2
    && forall i :: 0 <= i < |v.fields["coordinates"].items| ==>
         v.fields["coordinates"].items[i].JInt? || v.fields["coordinates"].items[i].JFloat?
  }

  /** The validator is narrower than the RFC in one way (a position with an
      altitude is refused) and wider in another (booleans pass as numbers);
      on two-number positions without booleans the two agree. */
  lemma LocationVersusRfc(v: Json)
    ensures var withAltitude := JObject(map["type" := JString("Point"), "coordinates" := JArray([JInt(3), JInt(36), JInt(100)])]);
      RfcPoint(withAltitude) && !ValidLocation(withAltitude)
    ensures var booleans := JObject(map["type" := JString("Point"), "coordinates" := JArray([JBool(true), JBool(false)])]);
      !RfcPoint(booleans) && ValidLocation(booleans)
    ensures v.JObject? && "coordinates" in v.fields && v.fields["coordinates"].JArray?
      && |v.fields["coordinates"].items| == 2
      && !v.fields["coordinates"].items[0].JBool? && !v.fields["coordinates"].items[1].JBool?
      ==> (ValidLocation(v) <==> RfcPoint(v))
  {
    var booleans := JObject(map["type" := JString("Point"), "coordinates" := JArray([JBool(true), JBool(false)])]);
    assert !(booleans.fields["coordinates"].items[0].JInt? || booleans.fields["coordinates"].items[0].JFloat?);
  }

  /** A stored classroom (name, description, capacity, price, address and
      the list fields are not modelled). */
  datatype Classroom = Classroom(school: string, isAvailable: bool, location: Json)

  type Classrooms = map<Oid, Classroom>

  /** `ClassroomCreateSerializer.create`: an anonymous user or one without a
      school profile is refused; otherwise the requester owns the room. */
  function CreateClassroom(authenticated: bool, isSchool: bool, requester: string, location: Json): (r: Result<Classroom, string>)
    ensures r.Ok? <==> authenticated && isSchool
    ensures r.Ok? ==> r.value == Classroom(requester, true, location)
  {
    if !authenticated then Err("Authentication required")
    else if !isSchool then Err("Only schools can create classrooms")
    else Ok(Classroom(requester, true, location))
  }

  /** `get_is_owned`. */
  function IsOwned(authenticated: bool, requester: string, c: Classroom): (r: bool)
    ensures r <==> authenticated && c.school == requester
  {
    if authenticated then c.school == requester else false
  }

  /** `get_distance`: the distance the view attached, if any (rounding is
      not modelled). */
  function DistanceField(attached: Option<int>): (r: Option<int>)
    ensures r.None? <==> attached.None?
    ensures r == attached
  {
    attached
  }

  /** A created classroom belongs to its creator: `is_owned` holds for
      exactly the authenticated creator, who may view it through their
      school profile, and, being available, any teacher may view it. */
  lemma CreatedIsOwned(authenticated: bool, isSchool: bool, requester: string, location: Json,
                       viewerAuthenticated: bool, viewer: Requester)
    requires CreateClassroom(authenticated, isSchool, requester, location).Ok?
    ensures var c := CreateClassroom(authenticated, isSchool, requester, location).value;
      && (IsOwned(viewerAuthenticated, viewer.id, c) <==> viewerAuthenticated && viewer.id == requester)
      && (viewer.hasSchoolProfile && viewer.id == requester ==> MayView(viewer, c))
      && (viewer.role == "teacher" ==> MayView(viewer, c))
  {
  }

  /** `pk.rstrip('/')`. */
  function CleanPk(pk: string): (r: string)
    ensures r <= pk
    ensures |r| == 0 || r[|r| - 1] != '/'
    ensures forall i :: |r| <= i < |pk| ==> pk[i] == '/'
  {
    if |pk| == 0 || pk[|pk| - 1] != '/' then pk else CleanPk(pk[..|pk| - 1])
  }

  /** Cleaning is idempotent: a cleaned key has nothing left to strip. */
  lemma CleanPkIdempotent(pk: string)
    ensures CleanPk(CleanPk(pk)) == CleanPk(pk)
  {
  }

  /** `get_object`: any failure (a malformed id, a missing classroom) is
      reported as no classroom. */
  function GetObject(rooms: Classrooms, pk: string): (r: Option<Oid>)
    ensures r.Some? <==> ParseObjectId(CleanPk(pk)).Some? && ParseObjectId(CleanPk(pk)).value in rooms
    ensures r.Some? ==> r == ParseObjectId(CleanPk(pk))
  {
    match ParseObjectId(CleanPk(pk))
    case None => None
    case Some(id) => if id in rooms then Some(id) else None
  }

  datatype Requester = Requester(id: string, role: string, hasSchoolProfile: bool)

  datatype DetailResponse =
    | Shown(room: Classroom)
    | Done
    | Refused400
    | Missing404
    | Forbidden403

  /** Who may read a classroom. */
  predicate MayView(u: Requester, c: Classroom) {
    || (u.role == "teacher" && c.isAvailable)
    || u.role == "school"
    || (u.hasSchoolProfile && c.school == u.id)
  }

  /** `ClassroomDetailView.get`. */
  function DetailGet(rooms: Classrooms, pk: string, u: Requester): (r: DetailResponse)
    ensures GetObject(rooms, pk).None? <==> r == Missing404
    ensures r.Shown? <==> GetObject(rooms, pk).Some? && MayView(u, rooms[GetObject(rooms, pk).value])
    ensures r.Shown? ==> r.room == rooms[GetObject(rooms, pk).value]
    ensures r.Shown? || r == Missing404 || r == Forbidden403
  {
    match GetObject(rooms, pk)
    case None => Missing404
    case Some(id) => if MayView(u, rooms[id]) then Shown(rooms[id]) else Forbidden403
  }

  /** Python truthiness of a JSON value (`bool(x)`). */
  predicate Truthy(x: Json) {
    match x
    case JNull => false
    case JBool(b) => b
    case JInt(i) => i != 0
    case JFloat(m, _) => m != 0
    case JString(s) => s != ""
    case JArray(items) => items != []
    case JObject(fields) => fields != map[]
  }

  /** The statuses the availability guard filters on. */
  const GuardStatusNames: set<string> := {"active", "pending"}

  /** A contract of `id` that ends today or later and whose status is named
      in `statuses`. */
  predicate Blocking(cs: Contracts.Contracts, id: Oid, today: int, statuses: set<Contracts.ContractStatus>) {
    exists k :: k in cs && cs[k].classroom == id && cs[k].endDate >= today && cs[k].status in statuses
  }

  /** The contract statuses whose names are in `names`. */
  function StatusesNamed(names: set<string>): (r: set<Contracts.ContractStatus>)
    ensures forall s :: s in r <==> Contracts.StatusName(s) in names
  {
    set s: Contracts.ContractStatus | s in {Contracts.Processing, Contracts.PaymentPending, Contracts.ReadyForEnrollment,
                                          Contracts.Completed, Contracts.Rejected, Contracts.Cancelled}
                                    && Contracts.StatusName(s) in names
  }

  /** `ClassroomDetailView.put` with the guard's status list as a
      parameter. The body must be exactly `{is_available}`; its value is
      read by truthiness. */
  function PutWith(guard: set<Contracts.ContractStatus>, rooms: Classrooms, cs: Contracts.Contracts, pk: string,
                   body: map<string, Json>, u: Requester, today: int): (r: (DetailResponse, Classrooms))
    ensures r.0 != Done ==> r.1 == rooms
    ensures r.0 == Done <==>
      && body.Keys == {"is_available"}
      && GetObject(rooms, pk).Some?
      && u.hasSchoolProfile && rooms[GetObject(rooms, pk).value].school == u.id
      && (!Truthy(body["is_available"]) ==> !Blocking(cs, GetObject(rooms, pk).value, today, guard))
    ensures r.0 == Done ==>
      var id := GetObject(rooms, pk).value;
      r.1 == rooms[id := rooms[id].(isAvailable := Truthy(body["is_available"]))]
  {
    if "is_available" !in body || |body| > 1 then (Refused400, rooms)
    else
      OnlyKey(body, "is_available");
      var avail := Truthy(body["is_available"]);
      match GetObject(rooms, pk)
      case None => (Missing404, rooms)
      case Some(id) =>
        if !u.hasSchoolProfile || rooms[id].school != u.id then (Forbidden403, rooms)
        else if !avail && Blocking(cs, id, today, guard) then (Refused400, rooms)
        else (Done, rooms[id := rooms[id].(isAvailable := avail)])
  }

  /** A map holding `k` and at most one entry holds nothing else. */
  lemma OnlyKey<V>(m: map<string, V>, k: string)
    requires k in m && |m| <= 1
    ensures m.Keys == {k}
  {
    if j :| j in m && j != k {
      assert {k, j} <= m.Keys;
      assert |{k, j}| == 2;
      Chat.SubsetNotLarger({k, j}, m.Keys);
      assert false;
    }
  }

  /** The availability update as written: the guard names "active" and
      "pending". */
  function Put(rooms: Classrooms, cs: Contracts.Contracts, pk: string,
               body: map<string, Json>, u: Requester, today: int): (r: (DetailResponse, Classrooms))
  {
    PutWith(StatusesNamed(GuardStatusNames), rooms, cs, pk, body, u, today)
  }

  /** Neither name is a contract status, so the guard never blocks: an owner
      can withdraw a classroom that a contract still in progress relies on. */
  lemma PutIgnoresContracts(rooms: Classrooms, cs: Contracts.Contracts, pk: string,
                            body: map<string, Json>, u: Requester, today: int)
    ensures StatusesNamed(GuardStatusNames) == {}
    ensures Put(rooms, cs, pk, body, u, today).0 == Done <==>
      body.Keys == {"is_available"} && GetObject(rooms, pk).Some?
      && u.hasSchoolProfile && rooms[GetObject(rooms, pk).value].school == u.id
    ensures var id: Oid := seq(12, _ => 0);
      var room := map[id := Classroom("school-1", true, JNull)];
      var live := map[id := Contracts.Contract(id, "teacher-1", "school-1", 10, 20, 2, 20, 1000, None,
                                               Contracts.ReadyForEnrollment, None)];
      Put(room, live, ObjectIdString(id), map["is_available" := JBool(false)],
          Requester("school-1", "school", true), 15).0 == Done
  {
    var id: Oid := seq(12, _ => 0);
    ObjectIdRoundTrip(id);
    assert CleanPk(ObjectIdString(id)) == ObjectIdString(id);
  }

  /** Contract statuses under which the classroom is still promised. */
  const LiveStatuses: set<Contracts.ContractStatus> :=
    {Contracts.Processing, Contracts.PaymentPending, Contracts.ReadyForEnrollment}

  /** The availability update with the guard on the live statuses. */
  function PutChecked(rooms: Classrooms, cs: Contracts.Contracts, pk: string,
                      body: map<string, Json>, u: Requester, today: int): (r: (DetailResponse, Classrooms))
  {
    PutWith(LiveStatuses, rooms, cs, pk, body, u, today)
  }

  /** With the corrected guard, a classroom is withdrawn only when no live
      contract for it runs today or later, and nothing else changes. */
  lemma PutCheckedRespectsContracts(rooms: Classrooms, cs: Contracts.Contracts, pk: string,
                                    body: map<string, Json>, u: Requester, today: int)
    ensures var r := PutChecked(rooms, cs, pk, body, u, today);
      r.0 == Done && !r.1[GetObject(rooms, pk).value].isAvailable ==>
        forall k :: k in cs && cs[k].classroom == GetObject(rooms, pk).value && cs[k].status in LiveStatuses
          ==> cs[k].endDate < today
    ensures var r := PutChecked(rooms, cs, pk, body, u, today);
      forall id :: id in rooms && (r.0 != Done || id != GetObject(rooms, pk).value) ==> id in r.1 && r.1[id] == rooms[id]
  {
  }

  /** The stores a classroom deletion reaches: classrooms, contracts, chat
      rooms and courses. */
  datatype World = World(
    rooms: Classrooms,
    contracts: Contracts.Contracts,
    chatRooms: Chat.Rooms,
    courses: Courses.Courses)

  /** The contracts of classroom `id`. */
  function ContractsOf(cs: Contracts.Contracts, id: Oid): set<Oid> {
    set k | k in cs && cs[k].classroom == id
  }

  /** The chat room is tied to one of the contracts in `gone`. */
  predicate TiedTo(room: Chat.Room, gone: set<Oid>) {
    room.contract.Some? && room.contract.value in gone
  }

  /** Deleting classroom `id` through the ORM: its contracts go with it
      (`on_delete=CASCADE`), and courses that pointed at one of those
      contracts keep no contract (`SET_NULL`). The deletion collector reads
      related rows from the classroom's own database, so the chat rooms,
      which the router keeps in the default database, are not visited:
      they stay as they were, whatever contract they name. */
  function Cascade(w: World, id: Oid): (r: World)
    ensures r.rooms == w.rooms - {id}
    ensures forall k :: k in r.contracts <==> k in w.contracts && w.contracts[k].classroom != id
    ensures forall k :: k in r.contracts ==> r.contracts[k] == w.contracts[k]
    ensures r.chatRooms == w.chatRooms
    ensures r.courses.Keys == w.courses.Keys
    ensures forall c :: c in w.courses ==>
      if w.courses[c].contract.Some? && w.courses[c].contract.value in ContractsOf(w.contracts, id)
      then r.courses[c] == w.courses[c].(contract := None)
      else r.courses[c] == w.courses[c]
  {
    var gone := ContractsOf(w.contracts, id);
    World(
      w.rooms - {id},
      map k | k in w.contracts && k !in gone :: w.contracts[k],
      w.chatRooms,
      map c | c in w.courses ::
        if w.courses[c].contract.Some? && w.courses[c].contract.value in gone
        then w.courses[c].(contract := None) else w.courses[c])
  }

  /** Every link inside the course database points at a stored record:
      each contract's classroom and each course's contract. */
  predicate Linked(w: World) {
    && (forall k :: k in w.contracts ==> w.contracts[k].classroom in w.rooms)
    && (forall c :: c in w.courses && w.courses[c].contract.Some? ==> w.courses[c].contract.value in w.contracts)
  }

  /** The cascade leaves no dangling link inside the course database, and
      no contract refers to the removed classroom afterwards. A chat room
      that named one of the removed contracts still names it: that link,
      across the two databases, now dangles. */
  lemma CascadeKeepsLinks(w: World, id: Oid)
    requires Linked(w)
    ensures Linked(Cascade(w, id))
    ensures forall k :: k in Cascade(w, id).contracts ==> Cascade(w, id).contracts[k].classroom != id
    ensures forall n :: n in w.chatRooms && TiedTo(w.chatRooms[n], ContractsOf(w.contracts, id)) ==>
      n in Cascade(w, id).chatRooms && Cascade(w, id).chatRooms[n].contract.value !in Cascade(w, id).contracts
  {
  }

  /** `ClassroomDetailView.delete`: the guards, then the cascade (the
      database failure paths are not modelled). */
  function Delete(w: World, pk: string, u: Requester, today: int): (r: (DetailResponse, World))
    ensures ParseObjectId(CleanPk(pk)).None? ==> r == (Refused400, w)
    ensures r.0 != Done ==> r.1 == w
    ensures r.0 == Done <==>
      && ParseObjectId(CleanPk(pk)).Some?
      && ParseObjectId(CleanPk(pk)).value in w.rooms
      && u.hasSchoolProfile && w.rooms[ParseObjectId(CleanPk(pk)).value].school == u.id
      && forall k :: k in w.contracts && w.contracts[k].classroom == ParseObjectId(CleanPk(pk)).value ==> w.contracts[k].endDate < today
    ensures r.0 == Done ==> r.1 == Cascade(w, ParseObjectId(CleanPk(pk)).value)
  {
    match ParseObjectId(CleanPk(pk))
    case None => (Refused400, w)
    case Some(id) =>
      CleanPkIdempotent(pk);
      if GetObject(w.rooms, CleanPk(pk)).None? then (Missing404, w)
      else if !u.hasSchoolProfile || w.rooms[id].school != u.id then (Forbidden403, w)
      else if exists k :: k in w.contracts && w.contracts[k].classroom == id && w.contracts[k].endDate >= today then (Refused400, w)
      else (Done, Cascade(w, id))
  }

  /** A deletion removes exactly the requested classroom and only contracts
      that had already ended; every other classroom, every contract of
      another classroom and every chat room stay as they were, and the
      links inside the course database stay whole. */
  lemma DeleteKeepsOthers(w: World, pk: string, u: Requester, today: int)
    requires Linked(w)
    ensures var r := Delete(w, pk, u, today);
      r.0 == Done ==>
        var id := ParseObjectId(CleanPk(pk)).value;
        && Linked(r.1)
        && id !in r.1.rooms
        && (forall x :: x in w.rooms && x != id ==> x in r.1.rooms && r.1.rooms[x] == w.rooms[x])
        && (forall k :: k in w.contracts && k !in r.1.contracts ==> w.contracts[k].endDate < today)
        && (forall k :: k in w.contracts && w.contracts[k].classroom != id ==> k in r.1.contracts && r.1.contracts[k] == w.contracts[k])
        && r.1.chatRooms == w.chatRooms
  {
    var r := Delete(w, pk, u, today);
    if r.0 == Done {
      CascadeKeepsLinks(w, ParseObjectId(CleanPk(pk)).value);
    }
  }

  /** The detail view after a change: a classroom whose owner just set its
      availability is shown to that owner, and a deleted one is no longer
      found. */
  lemma DetailAfterChange(guard: set<Contracts.ContractStatus>, w: World, cs: Contracts.Contracts, pk: string,
                          body: map<string, Json>, u: Requester, today: int)
    ensures var p := PutWith(guard, w.rooms, cs, pk, body, u, today);
      p.0 == Done ==> DetailGet(p.1, pk, u) == Shown(p.1[GetObject(w.rooms, pk).value])
    ensures var d := Delete(w, pk, u, today);
      d.0 == Done ==> DetailGet(d.1.rooms, pk, u) == Missing404
  {
  }

  /** The fallback nearby search. Each classroom comes with the distance
      computed from its stored location, or `None` where reading the
      location failed (such classrooms are skipped). */
  function Within(rooms: seq<(Oid, Option<int>)>, radius: int): (r: seq<(Oid, int)>)
    ensures forall e :: e in r <==> exists i :: 0 <= i < |rooms| && rooms[i] == (e.0, Some(e.1)) && e.1 <= radius
    ensures forall e :: multiset(r)[e] == if e.1 <= radius then multiset(rooms)[(e.0, Some(e.1))] else 0
  {
    if |rooms| == 0 then []
    else
      var rest := Within(rooms[1..], radius);
      var r := WithinHead(rooms[0], radius) + rest;
      WithinCounts(rooms, radius, rest);
      CountsGiveMembers(rooms, radius, r);
      r
  }

  /** One classroom of the search: kept with its distance when that is
      readable and within the radius. */
  function WithinHead(room: (Oid, Option<int>), radius: int): seq<(Oid, int)> {
    match room.1
    case Some(d) => if d <= radius then [(room.0, d)] else []
    case None => []
  }

  /** Counting carries over from the tail of the classrooms to the whole. */
  lemma WithinCounts(rooms: seq<(Oid, Option<int>)>, radius: int, rest: seq<(Oid, int)>)
    requires |rooms| > 0
    requires forall e :: multiset(rest)[e] == if e.1 <= radius then multiset(rooms[1..])[(e.0, Some(e.1))] else 0
    ensures var r := WithinHead(rooms[0], radius) + rest;
      forall e :: multiset(r)[e] == if e.1 <= radius then multiset(rooms)[(e.0, Some(e.1))] else 0
  {
    assert rooms == [rooms[0]] + rooms[1..];
  }

  /** A room is kept exactly when it occurs with a readable distance
      within the radius, once the counts agree. */
  lemma CountsGiveMembers(rooms: seq<(Oid, Option<int>)>, radius: int, r: seq<(Oid, int)>)
    requires forall e :: multiset(r)[e] == if e.1 <= radius then multiset(rooms)[(e.0, Some(e.1))] else 0
    ensures forall e :: e in r <==> exists i :: 0 <= i < |rooms| && rooms[i] == (e.0, Some(e.1)) && e.1 <= radius
  {
    forall e ensures e in r <==> exists i :: 0 <= i < |rooms| && rooms[i] == (e.0, Some(e.1)) && e.1 <= radius {
      assert e in r <==> multiset(r)[e] > 0;
      assert (e.0, Some(e.1)) in rooms <==> multiset(rooms)[(e.0, Some(e.1))] > 0;
    }
  }

  predicate NearerOrEqual(a: (Oid, int), b: (Oid, int)) {
    a.1 <= b.1
  }

  /** `_fallback_distance_calculation`: the classrooms within the radius,
      nearest first (ties keep their stored order). */
  function Fallback(rooms: seq<(Oid, Option<int>)>, radius: int): (r: seq<(Oid, int)>)
  {
    Sorting.Sort(Within(rooms, radius), NearerOrEqual)
  }

  lemma FallbackSpec(rooms: seq<(Oid, Option<int>)>, radius: int)
    ensures var r := Fallback(rooms, radius);
      && (forall i, j :: 0 <= i < j < |r| ==> r[i].1 <= r[j].1)
      && (forall e :: e in r <==> exists i :: 0 <= i < |rooms| && rooms[i] == (e.0, Some(e.1)) && e.1 <= radius)
      && multiset(r) == multiset(Within(rooms, radius))
      && (forall e :: multiset(r)[e] == if e.1 <= radius then multiset(rooms)[(e.0, Some(e.1))] else 0)
  {
    var w := Within(rooms, radius);
    assert Sorting.TotalPreorder(NearerOrEqual);
    Sorting.SortSorted(w, NearerOrEqual);
    var r := Sorting.Sort(w, NearerOrEqual);
    CountsGiveMembers(rooms, radius, r);
  }

  /** The `results` of the fallback search as serialised: each classroom
      in the order found, with the distance field rendered from the
      distance the search attached. */
  function FallbackResults(rooms: seq<(Oid, Option<int>)>, radius: int): (r: seq<(Oid, Option<int>)>)
    ensures |r| == |Fallback(rooms, radius)|
    ensures forall i :: 0 <= i < |r| ==> r[i].0 == Fallback(rooms, radius)[i].0
  {
    var found := Fallback(rooms, radius);
    seq(|found|, i requires 0 <= i < |found| => (found[i].0, DistanceField(Some(found[i].1))))
  }

  /** Every listed classroom shows a distance, the one it was filtered by:
      the classroom occurs with that readable distance among those searched,
      the distance is within the radius, and the distances ascend. */
  lemma ListedDistances(rooms: seq<(Oid, Option<int>)>, radius: int)
    ensures var r := FallbackResults(rooms, radius);
      && (forall i :: 0 <= i < |r| ==> r[i].1.Some? && r[i].1.value <= radius && r[i] in rooms)
      && (forall i, j :: 0 <= i < j < |r| ==> r[i].1.value <= r[j].1.value)
  {
    var found := Fallback(rooms, radius);
    var r := FallbackResults(rooms, radius);
    FallbackSpec(rooms, radius);
    forall i | 0 <= i < |r|
      ensures r[i].1.Some? && r[i].1.value <= radius && r[i] in rooms
    {
      assert r[i] == (found[i].0, Some(found[i].1));
      assert found[i] in found;
      var k :| 0 <= k < |rooms| && rooms[k] == (found[i].0, Some(found[i].1)) && found[i].1 <= radius;
    }
  }
}

=== FILE: contracts.dfy ===
/** Teaching contracts between a teacher and a school's classroom: the
    record, its save-time price default, creation and the two status
    transitions exposed to schools and teachers. Money is in cents and
    dates are integer timestamps. */
module Contracts {
  import opened Wrappers
  import opened ObjectIds
  import opened CharFields

  datatype ContractStatus =
    | Processing
    | PaymentPending
    | ReadyForEnrollment
    | Completed
    | Rejected
    | Cancelled

  function StatusName(s: ContractStatus): string {
    match s
    case Processing => "processing"
    case PaymentPending => "payment_pending"
    case ReadyForEnrollment => "ready_for_enrollment"
    case Completed => "completed"
    case Rejected => "rejected"
    case Cancelled => "cancelled"
  }

  function ParseStatus(name: string): (r: Option<ContractStatus>)
    ensures r.Some? ==> StatusName(r.value) == name
  {
    if name == "processing" then Some(Processing)
    else if name == "payment_pending" then Some(PaymentPending)
    else if name == "ready_for_enrollment" then Some(ReadyForEnrollment)
    else if name == "completed" then Some(Completed)
    else if name == "rejected" then Some(Rejected)
    else if name == "cancelled" then Some(Cancelled)
    else None
  }

  /** The six names are the only ones accepted, each for its own status. */
  lemma StatusNameRoundTrip(s: ContractStatus)
    ensures ParseStatus(StatusName(s)) == Some(s)
  {
  }

  /** The status of a new contract. */
  const DefaultStatus := Processing

  /** A stored contract; the store is keyed by the contract's object id.
      `totalPrice` is `None` while unset. */
  datatype Contract = Contract(
    classroom: Oid,
    teacher: string,
    school: string,
    startDate: int,
    endDate: int,
    hoursPerWeek: int,
    totalHours: int,
    pricePerHour: int,
    totalPrice: Option<int>,
    status: ContractStatus,
    paymentReference: Option<string>)

  type Contracts = map<Oid, Contract>

  /** The field validators: at least one hour a week and in total. */
  predicate ValidHours(c: Contract) {
    c.hoursPerWeek >= 1 && c.totalHours >= 1
  }

  /** A falsy total price (unset or zero). */
  predicate PriceUnset(p: Option<int>) {
    p.None? || p.value == 0
  }

  /** `Contract.save`: an unset or zero total price becomes price per hour
      times total hours; nothing else changes. */
  function Save(c: Contract): (r: Contract)
    ensures r.(totalPrice := c.totalPrice) == c
    ensures PriceUnset(c.totalPrice) ==> r.totalPrice == Some(c.pricePerHour * c.totalHours)
    ensures !PriceUnset(c.totalPrice) ==> r.totalPrice == c.totalPrice
  {
    if PriceUnset(c.totalPrice) then c.(totalPrice := Some(c.pricePerHour * c.totalHours)) else c
  }

  /** Saving twice is saving once, and a saved contract always has a price. */
  lemma SaveIdempotent(c: Contract)
    ensures Save(Save(c)) == Save(c)
    ensures Save(c).totalPrice.Some?
  {
  }

  /** The create payload; `None` is a missing field. Money is in cents. */
  datatype ContractInput = ContractInput(
    classroomId: Option<string>,
    startDate: Option<int>,
    endDate: Option<int>,
    hoursPerWeek: Option<int>,
    totalHours: Option<int>,
    pricePerHour: Option<int>)

  datatype CreateError =
    | InvalidFields(fields: set<string>)
    | DatesOutOfOrder
    | InvalidClassroom

  /** The classroom id is present and passes its `CharField`. */
  predicate ClassroomGiven(i: ContractInput) {
    i.classroomId.Some? && CharField(i.classroomId.value).Ok?
  }

  /** The per-field errors: every field is required, the classroom id is a
      `CharField` (trimmed, not blank, no NUL), hours have a minimum of one
      and the hourly price a minimum of zero. */
  function FieldErrors(i: ContractInput): (r: set<string>)
    ensures r == {} <==>
      && ClassroomGiven(i)
      && i.startDate.Some? && i.endDate.Some?
      && i.hoursPerWeek.Some? && i.hoursPerWeek.value >= 1
      && i.totalHours.Some? && i.totalHours.value >= 1
      && i.pricePerHour.Some? && i.pricePerHour.value >= 0
  {
    (if !ClassroomGiven(i) then {"classroom_id"} else {})
    + (if i.startDate.None? then {"start_date"} else {})
    + (if i.endDate.None? then {"end_date"} else {})
    + (if i.hoursPerWeek.None? || i.hoursPerWeek.value < 1 then {"hours_per_week"} else {})
    + (if i.totalHours.None? || i.totalHours.value < 1 then {"total_hours"} else {})
    + (if i.pricePerHour.None? || i.pricePerHour.value < 0 then {"price_per_hour"} else {})
  }

  /** The classroom id as the serializer hands it to `create`. */
  function ClassroomText(i: ContractInput): string
    requires ClassroomGiven(i)
  {
    CharField(i.classroomId.value).value
  }

  /** `ContractCreateSerializer` validation then `create`. `classrooms` maps
      each classroom id to its owning school; `requester` is the teacher. */
  function Create(i: ContractInput, classrooms: map<Oid, string>, requester: string): (r: Result<Contract, CreateError>)
    ensures r.Err? && r.error.InvalidFields? ==> r.error.fields != {}
    ensures r.Ok? ==>
      && FieldErrors(i) == {}
      && i.startDate.value < i.endDate.value
      && ParseObjectId(ClassroomText(i)).Some?
      && var room := ParseObjectId(ClassroomText(i)).value;
      && room in classrooms
      && r.value == Contract(room, requester, classrooms[room], i.startDate.value, i.endDate.value,
                             i.hoursPerWeek.value, i.totalHours.value, i.pricePerHour.value,
                             Some(i.pricePerHour.value * i.totalHours.value), DefaultStatus, None)
    ensures r.Err? ==>
      || FieldErrors(i) != {}
      || i.startDate.value >= i.endDate.value
      || ParseObjectId(ClassroomText(i)).None?
      || ParseObjectId(ClassroomText(i)).value !in classrooms
  {
    var errs := FieldErrors(i);
    if errs != {} then Err(InvalidFields(errs))
    else CreateWith(i.(classroomId := None), ClassroomText(i), classrooms, requester)
  }

  /** `create` on fields that passed validation, with the classroom id as
      its field hands it on. */
  function CreateWith(i: ContractInput, text: string, classrooms: map<Oid, string>, requester: string): (r: Result<Contract, CreateError>)
    requires i.startDate.Some? && i.endDate.Some? && i.hoursPerWeek.Some? && i.totalHours.Some? && i.pricePerHour.Some?
    ensures r.Err? ==> !r.error.InvalidFields?
    ensures r.Ok? ==>
      && i.startDate.value < i.endDate.value
      && ParseObjectId(text).Some?
      && var room := ParseObjectId(text).value;
      && room in classrooms
      && r.value == Contract(room, requester, classrooms[room], i.startDate.value, i.endDate.value,
                             i.hoursPerWeek.value, i.totalHours.value, i.pricePerHour.value,
                             Some(i.pricePerHour.value * i.totalHours.value), DefaultStatus, None)
    ensures r.Err? ==>
      || i.startDate.value >= i.endDate.value
      || ParseObjectId(text).None?
      || ParseObjectId(text).value !in classrooms
  {
    if i.startDate.value >= i.endDate.value then Err(DatesOutOfOrder)
    else match ParseObjectId(text)
      case None => Err(InvalidClassroom)
      case Some(room) =>
        if room !in classrooms then Err(InvalidClassroom)
        else Ok(Save(Contract(room, requester, classrooms[room], i.startDate.value, i.endDate.value,
                              i.hoursPerWeek.value, i.totalHours.value, i.pricePerHour.value,
                              None, DefaultStatus, None)))
  }

  /** White space around the classroom id changes nothing. */
  lemma CreateIgnoresPadding(i: ContractInput, p: string, q: string, classrooms: map<Oid, string>, requester: string)
    requires i.classroomId.Some? && AllSpace(p) && AllSpace(q)
    ensures Create(i.(classroomId := Some(p + i.classroomId.value + q)), classrooms, requester)
         == Create(i, classrooms, requester)
  {
    FieldIgnoresPadding(p, i.classroomId.value, q);
    var j := i.(classroomId := Some(p + i.classroomId.value + q));
    assert FieldErrors(j) == FieldErrors(i);
    assert j.(classroomId := None) == i.(classroomId := None);
  }

  /** A classroom id sent with white space around it is accepted as the
      classroom it names. */
  lemma CreatePaddedId(i: ContractInput, room: Oid, p: string, q: string, classrooms: map<Oid, string>, requester: string)
    requires ValidOid(room) && AllSpace(p) && AllSpace(q)
    requires i.classroomId == Some(ObjectIdString(room))
    requires FieldErrors(i) == {} && i.startDate.value < i.endDate.value && room in classrooms
    ensures var padded := i.(classroomId := Some(p + ObjectIdString(room) + q));
      && Create(padded, classrooms, requester).Ok?
      && Create(padded, classrooms, requester).value.classroom == room
  {
    var padded := i.(classroomId := Some(p + ObjectIdString(room) + q));
    PaddedObjectId(p, room, q);
    assert ClassroomGiven(padded) && ClassroomText(padded) == ObjectIdString(room);
    CreateForRoom(padded, room, classrooms, requester);
  }

  /** Valid fields whose classroom id is the hex form of a known classroom
      create a contract for that classroom. */
  lemma CreateForRoom(i: ContractInput, room: Oid, classrooms: map<Oid, string>, requester: string)
    requires ValidOid(room) && ClassroomGiven(i) && ClassroomText(i) == ObjectIdString(room)
    requires FieldErrors(i) == {} && i.startDate.value < i.endDate.value && room in classrooms
    ensures Create(i, classrooms, requester).Ok? && Create(i, classrooms, requester).value.classroom == room
  {
    ObjectIdRoundTrip(room);
    assert Create(i, classrooms, requester) == CreateWith(i.(classroomId := None), ObjectIdString(room), classrooms, requester);
  }

  /** A created contract keeps the field validators and runs forward in time. */
  lemma CreateValid(i: ContractInput, classrooms: map<Oid, string>, requester: string)
    requires Create(i, classrooms, requester).Ok?
    ensures ValidHours(Create(i, classrooms, requester).value)
    ensures Create(i, classrooms, requester).value.startDate < Create(i, classrooms, requester).value.endDate
    ensures Create(i, classrooms, requester).value.pricePerHour >= 0
  {
  }

  /** The fields the contract serializer shows, and those it will not take
      from a client. */
  const SerializerFields: set<string> := {
    "_id", "id", "classroom", "teacher", "school", "start_date", "end_date",
    "hours_per_week", "total_hours", "price_per_hour", "total_price",
    "status", "payment_reference", "created_at", "updated_at"}

  const ReadOnlyFields: set<string> := {
    "_id", "id", "classroom", "teacher", "school", "total_price",
    "status", "payment_reference", "created_at", "updated_at"}

  /** The writable fields of the serializer. */
  function WritableFields(): (r: set<string>)
    ensures r <= SerializerFields
    ensures "total_price" !in r && "status" !in r && "payment_reference" !in r
  {
    SerializerFields - ReadOnlyFields
  }

  datatype ContractResponse =
    | ContractOk(contract: Contract)
    | BadRequest    // 400
    | NotFound      // 404
    | ServerError   // 500

  /** The statuses a school may set. */
  predicate SchoolSettable(name: string) {
    name == "processing" || name == "rejected" || name == "payment_pending"
  }

  /** `SchoolContractUpdateView.update`. A malformed id raises `InvalidId`,
      which the lookup does not catch, so the view's generic handler answers
      400; an id of another school's contract answers 404. The new status
      replaces the old whatever it was. */
  function SchoolUpdate(cs: Contracts, rawId: string, requester: string, newStatus: Option<string>): (r: (ContractResponse, Contracts))
    ensures ParseObjectId(rawId).None? ==> r == (BadRequest, cs)
    ensures ParseObjectId(rawId).Some? ==>
      var id := ParseObjectId(rawId).value;
      && (id !in cs || cs[id].school != requester ==> r == (NotFound, cs))
      && (id in cs && cs[id].school == requester ==>
            if newStatus.Some? && SchoolSettable(newStatus.value) then
              var c := cs[id].(status := ParseStatus(newStatus.value).value);
              r == (ContractOk(Save(c)), cs[id := c])
            else r == (BadRequest, cs))
  {
    match ParseObjectId(rawId)
    case None => (BadRequest, cs)
    case Some(id) =>
      if id !in cs || cs[id].school != requester then (NotFound, cs)
      else if newStatus.None? || !SchoolSettable(newStatus.value) then (BadRequest, cs)
      else
        var c := cs[id].(status := ParseStatus(newStatus.value).value);
        (ContractOk(Save(c)), cs[id := c])
  }

  /** A school's update touches one contract's status and nothing else, and
      the stored status is one of the three a school may set. */
  lemma SchoolUpdateOnlyStatus(cs: Contracts, rawId: string, requester: string, newStatus: Option<string>)
    ensures var r := SchoolUpdate(cs, rawId, requester, newStatus);
      && r.1.Keys == cs.Keys
      && (forall id :: id in cs ==> r.1[id].(status := cs[id].status) == cs[id])
      && (forall id :: id in cs && r.1[id] != cs[id] ==>
            r.1[id].status in {Processing, Rejected, PaymentPending} && cs[id].school == requester)
      && (r.0.ContractOk? ==> r.0.contract == Save(r.1[ParseObjectId(rawId).value]))
      && (!r.0.ContractOk? ==> r.1 == cs)
  {
  }

  /** `TeacherPaymentUpdateView.update`: only the teacher's own contract
      awaiting payment is found; an empty reference is refused. */
  function TeacherPayment(cs: Contracts, rawId: string, requester: string, reference: Option<string>): (r: (ContractResponse, Contracts))
    ensures ParseObjectId(rawId).None? ==> r == (BadRequest, cs)
    ensures ParseObjectId(rawId).Some? ==>
      var id := ParseObjectId(rawId).value;
      && (id !in cs || cs[id].teacher != requester || cs[id].status != PaymentPending ==> r == (NotFound, cs))
      && (id in cs && cs[id].teacher == requester && cs[id].status == PaymentPending ==>
            if reference.Some? && reference.value != "" then
              var c := cs[id].(status := ReadyForEnrollment, paymentReference := reference);
              r == (ContractOk(Save(c)), cs[id := c])
            else r == (BadRequest, cs))
  {
    match ParseObjectId(rawId)
    case None => (BadRequest, cs)
    case Some(id) =>
      if id !in cs || cs[id].teacher != requester || cs[id].status != PaymentPending then (NotFound, cs)
      else if reference.None? || reference.value == "" then (BadRequest, cs)
      else
        var c := cs[id].(status := ReadyForEnrollment, paymentReference := reference);
        (ContractOk(Save(c)), cs[id := c])
  }

  /** Paying is one-shot: once it succeeds the same request finds nothing,
      and the contract is ready for enrollment with the reference given. */
  lemma TeacherPaymentOnce(cs: Contracts, rawId: string, requester: string, reference: Option<string>)
    requires TeacherPayment(cs, rawId, requester, reference).0.ContractOk?
    ensures var after := TeacherPayment(cs, rawId, requester, reference).1;
      && var id := ParseObjectId(rawId).value;
      && cs[id].status == PaymentPending
      && after[id].status == ReadyForEnrollment
      && after[id].paymentReference == reference
      && after == cs[id := after[id]]
      && TeacherPayment(after, rawId, requester, reference) == (NotFound, after)
  {
  }

  /** The contract flow a school and a teacher drive together: the school
      asks for payment, the teacher pays, and the contract is ready. */
  lemma PaymentFlow(cs: Contracts, rawId: string, school: string, reference: string)
    requires ParseObjectId(rawId).Some?
    requires var id := ParseObjectId(rawId).value; id in cs && cs[id].school == school
    requires reference != ""
    ensures var s1 := SchoolUpdate(cs, rawId, school, Some("payment_pending")).1;
      && var id := ParseObjectId(rawId).value;
      && var s2 := TeacherPayment(s1, rawId, cs[id].teacher, Some(reference)).1;
      && s2[id] == cs[id].(status := ReadyForEnrollment, paymentReference := Some(reference))
  {
  }

  /** `ContractDetailView.get_object`: teachers see their own contracts,
      schools theirs, other users any. A malformed id is not caught (500). */
  function Detail(cs: Contracts, rawId: string, requester: string, isTeacher: bool, isSchool: bool): (r: ContractResponse)
    ensures ParseObjectId(rawId).None? <==> r == ServerError
    ensures r.ContractOk? ==>
      var id := ParseObjectId(rawId).value;
      && id in cs && r.contract == cs[id]
      && (isTeacher ==> cs[id].teacher == requester)
      && (!isTeacher && isSchool ==> cs[id].school == requester)
    ensures ParseObjectId(rawId).Some? && r == NotFound ==>
      var id := ParseObjectId(rawId).value;
      id !in cs || (isTeacher && cs[id].teacher != requester) || (!isTeacher && isSchool && cs[id].school != requester)
  {
    match ParseObjectId(rawId)
    case None => ServerError
    case Some(id) =>
      if id !in cs then NotFound
      else if isTeacher && cs[id].teacher != requester then NotFound
      else if !isTeacher && isSchool && cs[id].school != requester then NotFound
      else ContractOk(cs[id])
  }

  /** `ContractListView.get_queryset`: a teacher lists the contracts they
      teach, a school the contracts it signed, anyone else nothing. */
  function Listed(cs: Contracts, requester: string, isTeacher: bool, isSchool: bool): (r: set<Oid>)
    ensures r <= cs.Keys
    ensures !isTeacher && !isSchool ==> r == {}
  {
    if isTeacher then set id | id in cs && cs[id].teacher == requester
    else if isSchool then set id | id in cs && cs[id].school == requester
    else {}
  }

  /** For teachers and schools the detail view shows exactly the contracts
      the list shows them; any other user sees every contract in detail
      though the list shows them none. */
  lemma DetailAgreesWithList(cs: Contracts, id: Oid, requester: string, isTeacher: bool, isSchool: bool)
    requires ValidOid(id)
    ensures var r := Detail(cs, ObjectIdString(id), requester, isTeacher, isSchool);
      && (isTeacher || isSchool ==> (r.ContractOk? <==> id in Listed(cs, requester, isTeacher, isSchool)))
      && (!isTeacher && !isSchool ==> (r.ContractOk? <==> id in cs))
      && (r.ContractOk? ==> r.contract == cs[id])
      && (!r.ContractOk? ==> r == NotFound)
  {
    ObjectIdRoundTrip(id);
  }
}

=== FILE: courses.dfy ===
/** Courses and enrollments as records, `Course.clean`, the create
    serializer and view rule, and the attachment-access predicate. Prices
    are in cents. */
module Courses {
  import opened Wrappers
  import opened ObjectIds
  import opened CharFields
  import Contracts

  datatype CourseStatus =
    | Draft
    | PendingApproval
    | Published
    | InProcess
    | Ready
    | Completed
    | Cancelled

  const DefaultCourseStatus := Draft

  /** A stored course. Links are `None` when null. */
  datatype Course = Course(
    teacher: string,
    price: int,
    maxStudents: int,
    currentStudents: int,
    isOnline: bool,
    contract: Option<Oid>,
    status: CourseStatus,
    totalRatings: int,
    isFree: bool,
    materialsLink: Option<string>,
    meetingLink: Option<string>)

  /** A stored enrollment of one student in one course. */
  datatype Enrollment = Enrollment(
    student: string,
    course: Oid,
    isCompleted: bool,
    completionDate: Option<int>,
    rating: Option<int>,
    review: Option<string>,
    paymentReference: Option<string>,
    isPaid: bool)

  /** A new enrollment with the model's defaults. */
  function NewEnrollment(student: string, course: Oid, isPaid: bool, reference: Option<string>): (e: Enrollment)
    ensures !e.isCompleted && e.rating.None? && e.completionDate.None?
    ensures e.student == student && e.course == course && e.isPaid == isPaid && e.paymentReference == reference
  {
    Enrollment(student, course, false, None, None, None, reference, isPaid)
  }

  type Courses = map<Oid, Course>
  type Enrollments = map<Oid, Enrollment>

  /** The unique constraint on (student, course). */
  predicate UniqueEnrollments(es: Enrollments) {
    forall a, b :: a in es && b in es && a != b ==>
      es[a].student != es[b].student || es[a].course != es[b].course
  }

  predicate Enrolled(es: Enrollments, student: string, course: Oid) {
    exists id :: id in es && es[id].student == student && es[id].course == course
  }

  /** A link that is set and non-empty. */
  predicate Given(link: Option<string>) {
    link.Some? && link.value != ""
  }

  /** The contract a course points at, when it resolves. */
  function Linked(c: Course, cs: Contracts.Contracts): Option<Contracts.Contract> {
    if c.contract.Some? && c.contract.value in cs then Some(cs[c.contract.value]) else None
  }

  /** What a clean course is: a live online course has both links, and an
      offline course has a ready contract of its own teacher. */
  predicate CleanCourse(c: Course, cs: Contracts.Contracts) {
    && (c.isOnline && c.status in {Published, InProcess} ==> Given(c.materialsLink) && Given(c.meetingLink))
    && (!c.isOnline ==>
          && Linked(c, cs).Some?
          && Linked(c, cs).value.status == Contracts.ReadyForEnrollment
          && Linked(c, cs).value.teacher == c.teacher)
  }

  datatype CourseError =
    | MaterialsLinkRequired
    | MeetingLinkRequired
    | ContractRequired
    | ContractNotReady
    | ContractTeacherMismatch
    | ContractNotFound
    | ContractForOnline
    | ContractField(field: FieldError)
    | NotOwnContract

  /** `Course.clean`: the first failing check, `None` when clean. */
  function Clean(c: Course, cs: Contracts.Contracts): (r: Option<CourseError>)
    ensures r.None? <==> CleanCourse(c, cs)
    ensures r.Some? ==> r.value in {MaterialsLinkRequired, MeetingLinkRequired, ContractRequired, ContractNotReady, ContractTeacherMismatch}
  {
    if c.isOnline && c.status in {Published, InProcess} && !Given(c.materialsLink) then Some(MaterialsLinkRequired)
    else if c.isOnline && c.status in {Published, InProcess} && !Given(c.meetingLink) then Some(MeetingLinkRequired)
    else if !c.isOnline && Linked(c, cs).None? then Some(ContractRequired)
    else if !c.isOnline && Linked(c, cs).value.status != Contracts.ReadyForEnrollment then Some(ContractNotReady)
    else if !c.isOnline && Linked(c, cs).value.teacher != c.teacher then Some(ContractTeacherMismatch)
    else None
  }

  /** The create payload (title, description, dates and the list fields pass
      through unexamined and are not modelled). `None` is an absent key.
      There is no status: it is not a field of the serializer. */
  datatype CourseInput = CourseInput(
    isOnline: Option<bool>,
    contract: Option<string>,
    price: int,
    maxStudents: int,
    isFree: Option<bool>,
    materialsLink: Option<string>,
    meetingLink: Option<string>)

  datatype Validation =
    | Valid(data: CourseInput, contract: Option<Oid>)
    | Invalid(error: CourseError)
    | Crashed    // an uncaught exception: 500

  function IsOnline(d: CourseInput): bool {
    d.isOnline.GetOr(true)
  }

  /** The link check of the serializer: `(instance and instance.status !=
      'draft') or (not instance and data.get('status', 'draft') != 'draft')`.
      Without an instance `data` never holds a status, so the second half is
      always false. */
  function LinksRequired(instanceStatus: Option<CourseStatus>): (r: bool)
    ensures instanceStatus.None? ==> !r
  {
    instanceStatus.Some? && instanceStatus.value != Draft
  }

  /** The validated data: a free course costs nothing. */
  function Finish(d: CourseInput, contract: Option<Oid>): (r: Validation)
    ensures r.Valid? && r.contract == contract
    ensures d.isFree == Some(true) ==> r.data == d.(price := 0)
    ensures d.isFree != Some(true) ==> r.data == d
  {
    Valid(if d.isFree == Some(true) then d.(price := 0) else d, contract)
  }

  /** The declared `contract` field (`CharField`, null allowed): the
      trimmed text, `None` for null or absent, or the field's error. */
  function ContractText(d: CourseInput): (r: Result<Option<string>, FieldError>)
    ensures d.contract.None? ==> r == Ok(None)
    ensures d.contract.Some? ==> r.Ok? == CharField(d.contract.value).Ok?
    ensures d.contract.Some? && r.Ok? ==> r.value == Some(CharField(d.contract.value).value)
    ensures d.contract.Some? && r.Err? ==> r.error == CharField(d.contract.value).error
  {
    match d.contract
    case None => Ok(None)
    case Some(t) =>
      match CharField(t)
      case Ok(v) => Ok(Some(v))
      case Err(e) => Err(e)
  }

  /** `CourseCreateSerializer.validate`, after the field check of the
      contract id. A malformed contract id raises `InvalidId`, which nothing
      catches. */
  function Validate(d: CourseInput, instanceStatus: Option<CourseStatus>, cs: Contracts.Contracts): (r: Validation)
    ensures ContractText(d).Err? ==> r == Invalid(ContractField(ContractText(d).error))
    ensures r.Valid? ==>
      && ContractText(d).Ok?
      && var text := ContractText(d).value;
      && (IsOnline(d) ==> text.None? && r.contract.None?)
      && (IsOnline(d) && LinksRequired(instanceStatus) ==> Given(d.materialsLink) && Given(d.meetingLink))
      && (!IsOnline(d) ==>
            && text.Some?
            && r.contract == ParseObjectId(text.value)
            && r.contract.Some? && r.contract.value in cs
            && cs[r.contract.value].status == Contracts.ReadyForEnrollment)
      && r.data.(price := d.price) == d.(contract := text)
      && (d.isFree == Some(true) ==> r.data.price == 0)
    ensures r == Crashed <==>
      && !IsOnline(d) && ContractText(d).Ok? && ContractText(d).value.Some?
      && ParseObjectId(ContractText(d).value.value).None?
  {
    match ContractText(d)
    case Err(e) => Invalid(ContractField(e))
    case Ok(text) => ValidateCleaned(d.(contract := text), instanceStatus, cs)
  }

  /** The checks of `validate` on data whose contract id has passed its
      field. */
  function ValidateCleaned(d: CourseInput, instanceStatus: Option<CourseStatus>, cs: Contracts.Contracts): (r: Validation)
    ensures r.Valid? ==>
      && (IsOnline(d) ==> d.contract.None? && r.contract.None?)
      && (IsOnline(d) && LinksRequired(instanceStatus) ==> Given(d.materialsLink) && Given(d.meetingLink))
      && (!IsOnline(d) ==>
            && d.contract.Some?
            && r.contract == ParseObjectId(d.contract.value)
            && r.contract.Some? && r.contract.value in cs
            && cs[r.contract.value].status == Contracts.ReadyForEnrollment)
      && r.data.(price := d.price) == d
      && (d.isFree == Some(true) ==> r.data.price == 0)
    ensures r == Crashed <==> !IsOnline(d) && d.contract.Some? && ParseObjectId(d.contract.value).None?
  {
    if !IsOnline(d) then
      if d.contract.None? then Invalid(ContractRequired)
      else match ParseObjectId(d.contract.value)
        case None => Crashed
        case Some(id) =>
          if id !in cs then Invalid(ContractNotFound)
          else if cs[id].status != Contracts.ReadyForEnrollment then Invalid(ContractNotReady)
          else Finish(d, Some(id))
    else if d.contract.Some? then Invalid(ContractForOnline)
    else if LinksRequired(instanceStatus) && !Given(d.materialsLink) then Invalid(MaterialsLinkRequired)
    else if LinksRequired(instanceStatus) && !Given(d.meetingLink) then Invalid(MeetingLinkRequired)
    else Finish(d, None)
  }

  /** White space around the contract id changes nothing, and a contract id
      that is only white space is refused as blank rather than crashing. */
  lemma ValidateIgnoresPadding(d: CourseInput, p: string, q: string, instanceStatus: Option<CourseStatus>, cs: Contracts.Contracts)
    requires d.contract.Some? && AllSpace(p) && AllSpace(q)
    ensures Validate(d.(contract := Some(p + d.contract.value + q)), instanceStatus, cs) == Validate(d, instanceStatus, cs)
    ensures AllSpace(d.contract.value) ==> Validate(d, instanceStatus, cs) == Invalid(ContractField(Blank))
  {
    FieldIgnoresPadding(p, d.contract.value, q);
    var padded := d.(contract := Some(p + d.contract.value + q));
    assert ContractText(padded) == ContractText(d);
    ValidateByText(padded, d, instanceStatus, cs);
  }

  /** Validation sees the contract id only through its field. */
  lemma ValidateByText(d1: CourseInput, d2: CourseInput, instanceStatus: Option<CourseStatus>, cs: Contracts.Contracts)
    requires ContractText(d1) == ContractText(d2) && d1.(contract := None) == d2.(contract := None)
    ensures Validate(d1, instanceStatus, cs) == Validate(d2, instanceStatus, cs)
  {
    if ContractText(d1).Ok? {
      var text := ContractText(d1).value;
      assert d1.(contract := text) == d2.(contract := text);
    }
  }

  datatype CreateOutcome =
    | Created(course: Course)
    | Refused(error: CourseError)   // 400
    | Failed                        // 500

  /** The status `perform_create` gives a new course. */
  function InitialStatus(online: bool, contract: Option<Contracts.Contract>): (s: CourseStatus)
    ensures s == Published <==> online || (contract.Some? && contract.value.status == Contracts.ReadyForEnrollment)
    ensures s != Published ==> s == PendingApproval
  {
    if online then Published
    else if contract.Some? && contract.value.status == Contracts.ReadyForEnrollment then Published
    else PendingApproval
  }

  /** The course `create` stores for validated data. */
  function NewCourse(v: CourseInput, contract: Option<Oid>, requester: string, status: CourseStatus): Course {
    Course(requester, v.price, v.maxStudents, 0, IsOnline(v), contract, status, 0,
           v.isFree.GetOr(false), v.materialsLink, v.meetingLink)
  }

  /** A new course request as written: validation (400 or an uncaught 500),
      then `perform_create` refuses a non-teacher with an uncaught
      `PermissionError` (500), the serializer's `create` refuses another
      teacher's contract (400), and the view sets the status. */
  function CreateCourse(d: CourseInput, cs: Contracts.Contracts, requester: string, isTeacher: bool): (r: CreateOutcome)
    ensures r.Created? ==> isTeacher && r.course.teacher == requester && r.course.currentStudents == 0
  {
    match Validate(d, None, cs)
    case Crashed => Failed
    case Invalid(e) => Refused(e)
    case Valid(v, contract) =>
      if !isTeacher then Failed
      else if !IsOnline(v) && contract.Some? && cs[contract.value].teacher != requester then Refused(NotOwnContract)
      else
        var linked := if contract.Some? then Some(cs[contract.value]) else None;
        Created(NewCourse(v, contract, requester, InitialStatus(IsOnline(v), linked)))
  }

  /** Every course created through the endpoint is published: an offline
      one could only pass validation with a ready contract, which is its
      own teacher's. */
  lemma CreatedIsPublished(d: CourseInput, cs: Contracts.Contracts, requester: string, isTeacher: bool)
    requires CreateCourse(d, cs, requester, isTeacher).Created?
    ensures var c := CreateCourse(d, cs, requester, isTeacher).course;
      && c.status == Published
      && (!c.isOnline ==> Linked(c, cs).Some? && Linked(c, cs).value.teacher == requester)
      && (d.isFree == Some(true) ==> c.price == 0)
  {
  }

  /** As written, an online course sent without links is created, published
      and not clean: `Course.clean` would reject it. */
  lemma CreateSkipsLinkCheck(cs: Contracts.Contracts)
    ensures var d := CourseInput(None, None, 1000, 10, None, None, None);
      && CreateCourse(d, cs, "t", true).Created?
      && CreateCourse(d, cs, "t", true).course.status == Published
      && !CleanCourse(CreateCourse(d, cs, "t", true).course, cs)
  {
  }

  /** The create request with the link check applied to the status the view
      is about to set: a course created online is published, so it needs
      both links. */
  function CreateCourseChecked(d: CourseInput, cs: Contracts.Contracts, requester: string, isTeacher: bool): (r: CreateOutcome)
    ensures r.Created? ==> isTeacher && r.course.teacher == requester && r.course.currentStudents == 0
    ensures CreateCourse(d, cs, requester, isTeacher).Created? && r.Created? ==> r == CreateCourse(d, cs, requester, isTeacher)
    ensures IsOnline(d) && d.contract.None? && isTeacher && !(Given(d.materialsLink) && Given(d.meetingLink)) ==> r.Refused?
  {
    match Validate(d, Some(Published), cs)
    case Crashed => Failed
    case Invalid(e) => Refused(e)
    case Valid(v, contract) =>
      if !isTeacher then Failed
      else if !IsOnline(v) && contract.Some? && cs[contract.value].teacher != requester then Refused(NotOwnContract)
      else
        var linked := if contract.Some? then Some(cs[contract.value]) else None;
        Created(NewCourse(v, contract, requester, InitialStatus(IsOnline(v), linked)))
  }

  /** With the link check applied, every created course is clean. */
  lemma CheckedCreateIsClean(d: CourseInput, cs: Contracts.Contracts, requester: string, isTeacher: bool)
    requires CreateCourseChecked(d, cs, requester, isTeacher).Created?
    ensures CleanCourse(CreateCourseChecked(d, cs, requester, isTeacher).course, cs)
  {
  }

  /** `Enrollment.has_access_to_attachments`. */
  function EnrollmentAccess(e: Enrollment, c: Course): (r: bool)
    ensures r <==> c.isFree || e.isPaid
  {
    c.isFree || e.isPaid
  }

  /** `CourseSerializer.get_has_access_to_attachments`: `own` is the
      requester's enrollment in the course, if any. */
  function HasAccess(authenticated: bool, c: Course, own: Option<Enrollment>): (r: bool)
    ensures !authenticated ==> !r
    ensures authenticated && c.isFree ==> r
    ensures authenticated && !c.isFree ==> (r <==> own.Some? && own.value.isPaid)
  {
    if !authenticated then false
    else if c.isFree then true
    else match own
      case None => false
      case Some(e) => e.isPaid
  }

  /** `get_attachments`: the two links, or null without access. */
  function Attachments(authenticated: bool, c: Course, own: Option<Enrollment>): (r: Option<(Option<string>, Option<string>)>)
    ensures r.Some? <==> HasAccess(authenticated, c, own)
    ensures r.Some? ==> r.value == (c.materialsLink, c.meetingLink)
  {
    if HasAccess(authenticated, c, own) then Some((c.materialsLink, c.meetingLink)) else None
  }

  /** For an enrolled, authenticated student the serializer and the model
      agree on access; without an enrollment only a free course gives it. */
  lemma AccessAgrees(c: Course, own: Option<Enrollment>)
    ensures own.Some? ==> (HasAccess(true, c, own) <==> EnrollmentAccess(own.value, c))
    ensures own.None? ==> (HasAccess(true, c, own) <==> c.isFree)
  {
  }
}

=== FILE: db_router.dfy ===
/** `MongoDBRouter`: which database each app's models live in, which
    cross-model relations are allowed and where migrations run. */
module DbRouter {
  import opened Wrappers

  const MongoApps: set<string> := {"classrooms", "courses", "leaderboard", "contracts"}

  /** The identity a model carries: its app label and model name. */
  datatype Meta = Meta(appLabel: string, modelName: string)

  function DbForRead(m: Meta): (r: string)
    ensures r == "mongodb" <==> m.appLabel in MongoApps
    ensures r == "mongodb" || r == "default"
  {
    if m.appLabel in MongoApps then "mongodb" else "default"
  }

  /** Writes of a model always go to the database its reads go to. */
  function DbForWrite(m: Meta): (r: string)
    ensures r == DbForRead(m)
    ensures r == "mongodb" <==> m.appLabel in MongoApps
  {
    if m.appLabel in MongoApps then "mongodb" else "default"
  }

  /** `allow_relation`: `Some(true)` allows, `None` leaves the decision to
      other routers; it never forbids. */
  function AllowRelation(a: Meta, b: Meta): (r: Option<bool>)
    ensures r != Some(false)
    ensures r == Some(true) <==>
      || (a.modelName == "user" && b.appLabel in MongoApps)
      || (b.modelName == "user" && a.appLabel in MongoApps)
      || (a.appLabel in MongoApps <==> b.appLabel in MongoApps)
  {
    if (a.modelName == "user" && b.appLabel in MongoApps) || (b.modelName == "user" && a.appLabel in MongoApps) then Some(true)
    else if a.appLabel in MongoApps && b.appLabel in MongoApps then Some(true)
    else if a.appLabel !in MongoApps && b.appLabel !in MongoApps then Some(true)
    else None
  }

  /** Relations follow the routing: two models stored in the same database
      may always be related, and across databases only the user model may
      be related to a document model. */
  lemma RelationsFollowRouting(a: Meta, b: Meta)
    ensures DbForRead(a) == DbForRead(b) ==> AllowRelation(a, b) == Some(true)
    ensures DbForRead(a) != DbForRead(b) && a.modelName != "user" && b.modelName != "user" ==> AllowRelation(a, b).None?
  {
  }

  /** `allow_migrate`. */
  function AllowMigrate(db: string, appLabel: string): (r: bool)
    ensures r <==> appLabel !in MongoApps && db == "default"
  {
    if appLabel in MongoApps then false else db == "default"
  }

  /** Migrations only ever run where the app's models are written. */
  lemma MigrationsFollowRouting(db: string, m: Meta)
    ensures AllowMigrate(db, m.appLabel) ==> db == DbForWrite(m)
  {
  }
}

=== FILE: enrollments.dfy ===
/** The enrollment endpoints: joining a course, completing it and rating
    it, with the points they award. */
module EnrollmentViews {
  import opened Wrappers
  import opened ObjectIds
  import opened CharFields
  import opened Courses
  import opened RatingText
  import Chat

  /** The enrollments of one course. */
  function EnrolledIn(es: Enrollments, course: Oid): set<Oid> {
    set id | id in es && es[id].course == course
  }

  /** Every course's counter equals its number of enrollments. */
  predicate CountsMatch(courses: Courses, es: Enrollments) {
    forall c :: c in courses ==> courses[c].currentStudents == |EnrolledIn(es, c)|
  }

  datatype EnrollError = CourseField(field: FieldError) | InvalidCourse | CourseFull | AlreadyEnrolled | NotAvailable

  datatype EnrollResponse =
    | Joined(id: Oid)                 // 201
    | EnrollRefused(error: EnrollError)  // 400
    | EnrollFailed                       // 500

  /** The course named by the request's `course` field: a `CharField`
      (trimmed, not blank, no NUL) that must then read as an object id. */
  function CourseIdOf(rawCourseId: string): (r: Option<Oid>)
    ensures r.Some? <==> CharField(rawCourseId).Ok? && ParseObjectId(CharField(rawCourseId).value).Some?
    ensures r.Some? ==> r == ParseObjectId(CharField(rawCourseId).value)
  {
    match CharField(rawCourseId)
    case Err(_) => None
    case Ok(t) => ParseObjectId(t)
  }

  /** The course can take this student: it exists, has a free place, does
      not already hold them and is published. */
  predicate CanJoin(courses: Courses, es: Enrollments, student: string, id: Oid) {
    && id in courses
    && courses[id].currentStudents < courses[id].maxStudents
    && !Enrolled(es, student, id)
    && courses[id].status == Published
  }

  /** The state after `student` joins course `id` under `freshId`. */
  function Joining(courses: Courses, es: Enrollments, student: string, id: Oid, freshId: Oid): (Courses, Enrollments)
    requires id in courses
  {
    (courses[id := courses[id].(currentStudents := courses[id].currentStudents + 1)],
     es[freshId := NewEnrollment(student, id, courses[id].isFree, None)])
  }

  /** `EnrollmentCreateSerializer.validate` then `EnrollmentListView.post`.
      Every refusal is a 400 and changes nothing. `freshId` is the identity
      the store gives the new record. */
  function Enroll(courses: Courses, es: Enrollments, rawCourseId: string, student: string, freshId: Oid): (r: (EnrollResponse, Courses, Enrollments))
    requires freshId !in es
    ensures !r.0.EnrollFailed?
    ensures r.0.EnrollRefused? ==> r.1 == courses && r.2 == es
    ensures CharField(rawCourseId).Err? ==> r.0 == EnrollRefused(CourseField(CharField(rawCourseId).error))
    ensures r.0.Joined? <==> CourseIdOf(rawCourseId).Some? && CanJoin(courses, es, student, CourseIdOf(rawCourseId).value)
    ensures r.0.Joined? ==>
      && r.0.id == freshId
      && (r.1, r.2) == Joining(courses, es, student, CourseIdOf(rawCourseId).value, freshId)
  {
    match CharField(rawCourseId)
    case Err(e) => (EnrollRefused(CourseField(e)), courses, es)
    case Ok(text) => Join(courses, es, ParseObjectId(text), student, freshId)
  }

  /** `Enroll` once the `course` field has been read as an object id. */
  function Join(courses: Courses, es: Enrollments, course: Option<Oid>, student: string, freshId: Oid): (r: (EnrollResponse, Courses, Enrollments))
    ensures !r.0.EnrollFailed?
    ensures r.0.EnrollRefused? ==> r.1 == courses && r.2 == es && !r.0.error.CourseField?
    ensures r.0.Joined? <==> course.Some? && CanJoin(courses, es, student, course.value)
    ensures r.0.Joined? ==> r.0.id == freshId && (r.1, r.2) == Joining(courses, es, student, course.value, freshId)
  {
    match course
    case None => (EnrollRefused(InvalidCourse), courses, es)
    case Some(id) =>
      if id !in courses then (EnrollRefused(InvalidCourse), courses, es)
      else
        var c := courses[id];
        // the serializer's checks
        if c.currentStudents >= c.maxStudents then (EnrollRefused(CourseFull), courses, es)
        else if Enrolled(es, student, id) then (EnrollRefused(AlreadyEnrolled), courses, es)
        // the view's checks under the lock
        else if c.status != Published then (EnrollRefused(NotAvailable), courses, es)
        else (Joined(freshId), Joining(courses, es, student, id, freshId).0, Joining(courses, es, student, id, freshId).1)
  }

  /** A course id sent with white space around it joins the same course. */
  lemma EnrollIgnoresPadding(courses: Courses, es: Enrollments, rawCourseId: string, p: string, q: string, student: string, freshId: Oid)
    requires freshId !in es && AllSpace(p) && AllSpace(q)
    ensures Enroll(courses, es, p + rawCourseId + q, student, freshId) == Enroll(courses, es, rawCourseId, student, freshId)
  {
    FieldIgnoresPadding(p, rawCourseId, q);
  }

  /** A fresh record for a pair not yet enrolled keeps pairs unique. */
  lemma AddKeepsUnique(es: Enrollments, freshId: Oid, e: Enrollment)
    requires freshId !in es && UniqueEnrollments(es)
    requires !Enrolled(es, e.student, e.course)
    ensures UniqueEnrollments(es[freshId := e])
  {
    var es2 := es[freshId := e];
    forall a, b | a in es2 && b in es2 && a != b
      ensures es2[a].student != es2[b].student || es2[a].course != es2[b].course
    {
      if a == freshId {
        assert !(es[b].student == e.student && es[b].course == e.course);
      } else if b == freshId {
        assert !(es[a].student == e.student && es[a].course == e.course);
      }
    }
  }

  /** Joining keeps (student, course) unique. */
  lemma EnrollKeepsUnique(courses: Courses, es: Enrollments, rawCourseId: string, student: string, freshId: Oid)
    requires freshId !in es
    requires UniqueEnrollments(es)
    ensures UniqueEnrollments(Enroll(courses, es, rawCourseId, student, freshId).2)
  {
    var r := Enroll(courses, es, rawCourseId, student, freshId);
    if r.0.Joined? {
      var id := CourseIdOf(rawCourseId).value;
      assert r.2 == es[freshId := NewEnrollment(student, id, courses[id].isFree, None)];
      AddKeepsUnique(es, freshId, NewEnrollment(student, id, courses[id].isFree, None));
    }
  }

  /** Adding a fresh enrollment adds one to its own course's count. */
  lemma EnrolledInAdd(es: Enrollments, freshId: Oid, e: Enrollment, c: Oid)
    requires freshId !in es
    ensures e.course == c ==> |EnrolledIn(es[freshId := e], c)| == |EnrolledIn(es, c)| + 1
    ensures e.course != c ==> EnrolledIn(es[freshId := e], c) == EnrolledIn(es, c)
  {
    if e.course == c {
      assert EnrolledIn(es[freshId := e], c) == EnrolledIn(es, c) + {freshId};
    } else {
      assert EnrolledIn(es[freshId := e], c) == EnrolledIn(es, c);
    }
  }

  /** Adding one enrollment to a course and one to its counter keeps
      every counter right. */
  lemma AddKeepsCounts(courses: Courses, es: Enrollments, freshId: Oid, e: Enrollment)
    requires freshId !in es && e.course in courses
    requires CountsMatch(courses, es)
    ensures CountsMatch(courses[e.course := courses[e.course].(currentStudents := courses[e.course].currentStudents + 1)],
                        es[freshId := e])
  {
    var cs2 := courses[e.course := courses[e.course].(currentStudents := courses[e.course].currentStudents + 1)];
    forall c | c in cs2 ensures cs2[c].currentStudents == |EnrolledIn(es[freshId := e], c)| {
      EnrolledInAdd(es, freshId, e, c);
    }
  }

  /** A join on a parsed course id keeps every counter right. */
  lemma JoinKeepsCounts(courses: Courses, es: Enrollments, course: Option<Oid>, student: string, freshId: Oid)
    requires freshId !in es
    requires CountsMatch(courses, es)
    ensures var r := Join(courses, es, course, student, freshId);
      CountsMatch(r.1, r.2)
  {
    if course.Some? && CanJoin(courses, es, student, course.value) {
      var id := course.value;
      AddKeepsCounts(courses, es, freshId, NewEnrollment(student, id, courses[id].isFree, None));
    }
  }

  /** Joining keeps every counter equal to the number of enrollments it
      counts. */
  lemma EnrollKeepsCounts(courses: Courses, es: Enrollments, rawCourseId: string, student: string, freshId: Oid)
    requires freshId !in es
    requires CountsMatch(courses, es)
    ensures var r := Enroll(courses, es, rawCourseId, student, freshId);
      CountsMatch(r.1, r.2)
  {
    if CharField(rawCourseId).Ok? {
      JoinKeepsCounts(courses, es, ParseObjectId(CharField(rawCourseId).value), student, freshId);
    }
  }

  /** The enrollment save hook as written names the course room after
      `course.id`. A course's primary key is its `_id` and, unlike a
      contract, it defines no `id` property, so the hook raises right after
      the enrollment document is inserted. The view's atomic block covers
      the default database, not the one holding courses and enrollments, so
      the inserted enrollment stays, the counter update never runs and the
      view answers 500. */
  function EnrollAsWritten(courses: Courses, es: Enrollments, rawCourseId: string, student: string, freshId: Oid): (r: (EnrollResponse, Courses, Enrollments))
    requires freshId !in es
    ensures !r.0.Joined?
    ensures r.0 == EnrollFailed <==> CourseIdOf(rawCourseId).Some? && CanJoin(courses, es, student, CourseIdOf(rawCourseId).value)
    ensures r.0 == EnrollFailed ==>
      && r.1 == courses
      && r.2 == es[freshId := NewEnrollment(student, CourseIdOf(rawCourseId).value, courses[CourseIdOf(rawCourseId).value].isFree, None)]
    ensures r.0 != EnrollFailed ==> r == Enroll(courses, es, rawCourseId, student, freshId)
  {
    var j := Enroll(courses, es, rawCourseId, student, freshId);
    if j.0.Joined? then (EnrollFailed, courses, j.2) else j
  }

  /** An enrollment added without its counter breaks the counts. */
  lemma UncountedBreaksCounts(courses: Courses, es: Enrollments, freshId: Oid, e: Enrollment)
    requires freshId !in es && e.course in courses
    requires CountsMatch(courses, es)
    ensures !CountsMatch(courses, es[freshId := e])
  {
    EnrolledInAdd(es, freshId, e, e.course);
  }

  /** A course id that reads as an object id goes straight to the join. */
  lemma EnrollIsJoin(courses: Courses, es: Enrollments, rawCourseId: string, student: string, freshId: Oid)
    requires freshId !in es
    requires CourseIdOf(rawCourseId).Some?
    ensures Enroll(courses, es, rawCourseId, student, freshId) == Join(courses, es, CourseIdOf(rawCourseId), student, freshId)
  {
    assert CharField(rawCourseId).Ok?;
  }

  /** A student already enrolled in a course with room is refused as
      already enrolled. */
  lemma RetryRefused(courses: Courses, es: Enrollments, rawCourseId: string, student: string, retryId: Oid)
    requires retryId !in es
    requires CourseIdOf(rawCourseId).Some? && CourseIdOf(rawCourseId).value in courses
    requires courses[CourseIdOf(rawCourseId).value].currentStudents < courses[CourseIdOf(rawCourseId).value].maxStudents
    requires Enrolled(es, student, CourseIdOf(rawCourseId).value)
    ensures Enroll(courses, es, rawCourseId, student, retryId).0 == EnrollRefused(AlreadyEnrolled)
  {
    EnrollIsJoin(courses, es, rawCourseId, student, retryId);
    JoinRefusesEnrolled(courses, es, CourseIdOf(rawCourseId).value, student, retryId);
  }

  lemma JoinRefusesEnrolled(courses: Courses, es: Enrollments, id: Oid, student: string, retryId: Oid)
    requires id in courses && courses[id].currentStudents < courses[id].maxStudents
    requires Enrolled(es, student, id)
    ensures Join(courses, es, Some(id), student, retryId).0 == EnrollRefused(AlreadyEnrolled)
  {
  }

  /** As written, a join that should succeed fails with 500 yet leaves the
      student enrolled: the course's counter no longer matches its
      enrollments, and a retry is refused as already enrolled. */
  lemma EnrollAsWrittenStrands(courses: Courses, es: Enrollments, rawCourseId: string, student: string, freshId: Oid, retryId: Oid)
    requires freshId !in es && retryId != freshId && retryId !in es
    requires CountsMatch(courses, es)
    requires CourseIdOf(rawCourseId).Some? && CanJoin(courses, es, student, CourseIdOf(rawCourseId).value)
    ensures var r := EnrollAsWritten(courses, es, rawCourseId, student, freshId);
      && r.0 == EnrollFailed
      && !CountsMatch(r.1, r.2)
      && Enroll(r.1, r.2, rawCourseId, student, retryId).0 == EnrollRefused(AlreadyEnrolled)
  {
    var r := EnrollAsWritten(courses, es, rawCourseId, student, freshId);
    var id := CourseIdOf(rawCourseId).value;
    var e := NewEnrollment(student, id, courses[id].isFree, None);
    assert r.1 == courses && r.2 == es[freshId := e];
    UncountedBreaksCounts(courses, es, freshId, e);
    assert Enrolled(r.2, student, id) by {
      assert r.2[freshId].student == student && r.2[freshId].course == id;
    }
    RetryRefused(r.1, r.2, rawCourseId, student, retryId);
  }

  /** The room `rid` holds `teacher` and `student`, and every other room
      is as it was. */
  predicate RoomJoined(after: Chat.Rooms, before: Chat.Rooms, rid: string, teacher: string, student: string) {
    && rid in after
    && teacher in after[rid].participants && student in after[rid].participants
    && forall k :: k in before && k != rid ==> k in after && after[k] == before[k]
  }

  /** The join with the corrected hook: the course room is keyed by the
      course's object id in hex and refers to its course by that id, so no
      relation crosses from the chat rooms to the course database. */
  function JoinWithRoom(courses: Courses, es: Enrollments, rooms: Chat.Rooms, course: Option<Oid>, student: string, freshId: Oid): (r: (EnrollResponse, Courses, Enrollments, Chat.Rooms))
    ensures (r.0, r.1, r.2) == Join(courses, es, course, student, freshId)
    ensures r.0.Joined? ==>
      && course.Some? && course.value in courses
      && RoomJoined(r.3, rooms, Chat.CourseRoomId(ObjectIdString(course.value)), courses[course.value].teacher, student)
    ensures !r.0.Joined? ==> r.3 == rooms
  {
    var j := Join(courses, es, course, student, freshId);
    if j.0.Joined? then
      var id := course.value;
      var rid := Chat.CourseRoomId(ObjectIdString(id));
      var rooms2 := Chat.EnrollmentSaved(rooms, true, ObjectIdString(id), courses[id].teacher, student);
      assert RoomJoined(rooms2, rooms, rid, courses[id].teacher, student);
      (j.0, j.1, j.2, rooms2)
    else (j.0, j.1, j.2, rooms)
  }

  /** With the room keyed by the course's id, a join that the guards allow
      succeeds, keeps every counter right and puts the teacher and the
      student in the course's room. */
  lemma JoinWithRoomJoins(courses: Courses, es: Enrollments, rooms: Chat.Rooms, course: Option<Oid>, student: string, freshId: Oid)
    requires freshId !in es
    requires CountsMatch(courses, es)
    requires course.Some? && CanJoin(courses, es, student, course.value)
    ensures var r := JoinWithRoom(courses, es, rooms, course, student, freshId);
      && r.0 == Joined(freshId)
      && CountsMatch(r.1, r.2)
      && RoomJoined(r.3, rooms, Chat.CourseRoomId(ObjectIdString(course.value)), courses[course.value].teacher, student)
  {
    JoinKeepsCounts(courses, es, course, student, freshId);
  }

  /** The requester's enrollment named by a path id. A malformed id is
      retried as a plain string, which no object id equals. */
  function OwnEnrollment(es: Enrollments, rawId: string, requester: string): (r: Option<Oid>)
    ensures r.Some? <==>
      ParseObjectId(rawId).Some? && ParseObjectId(rawId).value in es && es[ParseObjectId(rawId).value].student == requester
    ensures r.Some? ==> r.value == ParseObjectId(rawId).value
  {
    match ParseObjectId(rawId)
    case None => None
    case Some(id) => if id in es && es[id].student == requester then Some(id) else None
  }

  const CompletionPoints := 10
  const RatingPoints := 5

  datatype StepResponse = StepOk | StepBadRequest | StepNotFound | StepForbidden

  /** `EnrollmentCompleteView.update`: `studentPoints` is the requester's
      student profile points, `None` without one. */
  function Complete(es: Enrollments, rawId: string, requester: string, studentPoints: Option<int>, now: int): (r: (StepResponse, Enrollments, Option<int>))
    ensures OwnEnrollment(es, rawId, requester).None? ==> r == (StepNotFound, es, studentPoints)
    ensures OwnEnrollment(es, rawId, requester).Some? ==>
      var id := OwnEnrollment(es, rawId, requester).value;
      if es[id].isCompleted then r == (StepBadRequest, es, studentPoints)
      else
        && r.0 == StepOk
        && r.1 == es[id := es[id].(isCompleted := true, completionDate := Some(now))]
        && (studentPoints.Some? ==> r.2 == Some(studentPoints.value + CompletionPoints))
        && (studentPoints.None? ==> r.2.None?)
  {
    match OwnEnrollment(es, rawId, requester)
    case None => (StepNotFound, es, studentPoints)
    case Some(id) =>
      if es[id].isCompleted then (StepBadRequest, es, studentPoints)
      else
        var points := if studentPoints.Some? then Some(studentPoints.value + CompletionPoints) else None;
        (StepOk, es[id := es[id].(isCompleted := true, completionDate := Some(now))], points)
  }

  /** Completing is one-shot: a repeated request is refused and changes
      nothing, so a course earns its student at most ten points. */
  lemma CompleteOnce(es: Enrollments, rawId: string, requester: string, points: int, t1: int, t2: int)
    requires Complete(es, rawId, requester, Some(points), t1).0 == StepOk
    ensures var r1 := Complete(es, rawId, requester, Some(points), t1);
      && r1.2 == Some(points + CompletionPoints)
      && Complete(r1.1, rawId, requester, r1.2, t2) == (StepBadRequest, r1.1, r1.2)
  {
    var r1 := Complete(es, rawId, requester, Some(points), t1);
    var id := OwnEnrollment(es, rawId, requester).value;
    assert OwnEnrollment(r1.1, rawId, requester) == Some(id);
  }

  /** The JSON value sent as the rating. A number with a fraction is
      `mantissa / 10^scale`; text is kept as written. */
  datatype RatingInput =
    | RNull
    | RBool(b: bool)
    | RInt(i: int)
    | RFloat(mantissa: int, scale: nat)
    | RText(s: string)
    | ROther

  function Pow10(n: nat): (r: nat)
    ensures r >= 1
  {
    if n == 0 then 1 else 10 * Pow10(n - 1)
  }

  /** Python's `int()` on a number: the quotient truncated toward zero
      (Dafny's own division floors for a positive divisor). */
  function TruncDiv(n: int, d: int): (q: int)
    requires d > 0
    ensures n >= 0 ==> q >= 0 && q * d <= n < q * d + d
    ensures n < 0 ==> q <= 0 && n <= q * d < n + d
  {
    if n >= 0 then n / d else -((-n) / d)
  }

  /** The rating as an integer, or `None` for a `TypeError`/`ValueError`.
      A boolean is an integer in Python. */
  function RatingValue(x: RatingInput): (r: Option<int>)
    ensures x.RInt? ==> r == Some(x.i)
    ensures x.RBool? ==> r == Some(if x.b then 1 else 0)
    ensures x.RNull? || x.ROther? ==> r.None?
    ensures x.RFloat? ==> r.Some? && TruncDiv(x.mantissa, Pow10(x.scale)) == r.value
  {
    match x
    case RNull => None
    case RBool(b) => Some(if b then 1 else 0)
    case RInt(i) => Some(i)
    case RFloat(m, k) => Some(TruncDiv(m, Pow10(k)))
    case RText(s) => ParseRatingText(s)
    case ROther => None
  }

  /** A few ratings as the endpoint reads them. */
  lemma RatingExamples()
    ensures RatingValue(RFloat(55, 1)) == Some(5)
    ensures RatingValue(RFloat(-5, 1)) == Some(0)
    ensures RatingValue(RBool(true)) == Some(1)
    ensures RatingValue(RText("five")).None?
  {
    StripTrimmed("five");
    assert !IsDigit("five"[0]) && "five"[0] != '.';
  }

  /** The enrollments of `course` that carry a rating. */
  function Rated(es: Enrollments, course: Oid): set<Oid> {
    set id | id in es && es[id].course == course && es[id].rating.Some?
  }

  /** `EnrollmentRateView.update`. The range is checked before completion;
      the stored review defaults to the empty string; the course's count of
      ratings is recomputed and its teacher earns five points (the average
      rating is not modelled). */
  function Rate(courses: Courses, es: Enrollments, rawId: string, requester: string, rating: RatingInput,
                review: Option<string>, teacherPoints: Option<int>): (r: (StepResponse, Courses, Enrollments, Option<int>))
    ensures r.0 != StepOk ==> r.1 == courses && r.2 == es && r.3 == teacherPoints
    ensures r.0 == StepNotFound <==> OwnEnrollment(es, rawId, requester).None?
    ensures r.0 == StepOk <==>
      && OwnEnrollment(es, rawId, requester).Some?
      && RatingValue(rating).Some? && 1 <= RatingValue(rating).value <= 5
      && es[OwnEnrollment(es, rawId, requester).value].isCompleted
    ensures r.0 == StepOk ==>
      var id := OwnEnrollment(es, rawId, requester).value;
      var course := es[id].course;
      && r.2 == es[id := es[id].(rating := RatingValue(rating), review := Some(review.GetOr("")))]
      && (course in courses ==> r.1 == courses[course := courses[course].(totalRatings := |Rated(r.2, course)|)])
      && (course !in courses ==> r.1 == courses)
      && (teacherPoints.Some? ==> r.3 == Some(teacherPoints.value + RatingPoints))
  {
    match OwnEnrollment(es, rawId, requester)
    case None => (StepNotFound, courses, es, teacherPoints)
    case Some(id) =>
      var v := RatingValue(rating);
      if v.None? || !(1 <= v.value <= 5) then (StepBadRequest, courses, es, teacherPoints)
      else if !es[id].isCompleted then (StepBadRequest, courses, es, teacherPoints)
      else
        var es2 := es[id := es[id].(rating := v, review := Some(review.GetOr("")))];
        var course := es[id].course;
        var courses2 := if course in courses then courses[course := courses[course].(totalRatings := |Rated(es2, course)|)] else courses;
        var points := if teacherPoints.Some? then Some(teacherPoints.value + RatingPoints) else None;
        (StepOk, courses2, es2, points)
  }

  /** Rating again replaces the stored rating: the course's count of
      ratings goes up by one on a first rating and stays put on a re-rating,
      while the teacher earns five points each time. */
  lemma RateCounts(courses: Courses, es: Enrollments, rawId: string, requester: string, rating: RatingInput,
                   review: Option<string>, points: int)
    requires Rate(courses, es, rawId, requester, rating, review, Some(points)).0 == StepOk
    ensures var r := Rate(courses, es, rawId, requester, rating, review, Some(points));
      && var id := OwnEnrollment(es, rawId, requester).value;
      && var course := es[id].course;
      && r.3 == Some(points + RatingPoints)
      && (es[id].rating.None? ==> |Rated(r.2, course)| == |Rated(es, course)| + 1)
      && (es[id].rating.Some? ==> |Rated(r.2, course)| == |Rated(es, course)|)
  {
    var r := Rate(courses, es, rawId, requester, rating, review, Some(points));
    var id := OwnEnrollment(es, rawId, requester).value;
    var course := es[id].course;
    RatedAfterRating(es, id, RatingValue(rating), Some(review.GetOr("")));
    if es[id].rating.None? {
      assert id !in Rated(es, course);
    } else {
      assert Rated(es, course) + {id} == Rated(es, course);
    }
  }

  /** Giving an enrollment a rating adds it to its course's rated set and
      changes no other member. */
  lemma RatedAfterRating(es: Enrollments, id: Oid, v: Option<int>, review: Option<string>)
    requires id in es && v.Some?
    ensures Rated(es[id := es[id].(rating := v, review := review)], es[id].course) == Rated(es, es[id].course) + {id}
  {
  }
}

=== FILE: leaderboard_badges.dfy ===
/** Badge awarding on a profile: `check_and_assign_badges`. */
module BadgeAssignment {
  import opened Wrappers
  import opened LeaderboardModels

  /** One element of a profile's `badges` list. */
  datatype EarnedBadge = EarnedBadge(name: string, description: string, earnedAt: int)

  /** The names a profile already holds. */
  function HeldNames(bs: seq<EarnedBadge>): (r: set<string>)
    ensures forall i :: 0 <= i < |bs| ==> bs[i].name in r
    ensures forall n :: n in r ==> exists i :: 0 <= i < |bs| && bs[i].name == n
  {
    set i | 0 <= i < |bs| :: bs[i].name
  }

  /** The record appended for a catalogue badge. */
  function Award(b: Badge, now: int): EarnedBadge {
    EarnedBadge(b.name, b.description, now)
  }

  /** The point-badge filter: a threshold that is set and reached, the
      profile's role (a badge without a role never matches), and a name
      not yet held. Activity is not consulted. */
  predicate EarnsByPoints(b: Badge, points: int, role: Role, held: set<string>) {
    && b.pointsRequired.Some?
    && b.pointsRequired.value <= points
    && b.roleSpecific == Some(role)
    && b.name !in held
  }

  /** `x` is the award of a catalogue badge earned by points. */
  predicate PointAward(x: EarnedBadge, catalog: seq<Badge>, points: int, role: Role, held: set<string>, now: int) {
    exists b :: b in catalog && EarnsByPoints(b, points, role, held) && x == Award(b, now)
  }

  /** The point badges awarded, in catalogue order. */
  function PointBadges(catalog: seq<Badge>, points: int, role: Role, held: set<string>, now: int): (r: seq<EarnedBadge>)
    ensures |r| <= |catalog|
    ensures forall x :: x in r ==> PointAward(x, catalog, points, role, held, now)
    ensures forall b :: b in catalog && EarnsByPoints(b, points, role, held) ==> Award(b, now) in r
  {
    if |catalog| == 0 then []
    else
      assert forall b :: b in catalog ==> b == catalog[0] || b in catalog[1..];
      (if EarnsByPoints(catalog[0], points, role, held) then [Award(catalog[0], now)] else [])
      + PointBadges(catalog[1..], points, role, held, now)
  }

  /** `sub` occurs in `s` (Django's `__contains`). */
  predicate HasInfix(s: string, sub: string) {
    exists i :: 0 <= i <= |s| && sub <= s[i..]
  }

  /** The registration filter. */
  predicate IsRegistration(b: Badge, role: Role) {
    HasInfix(b.name, "Registration") && b.roleSpecific == Some(role)
  }

  /** `x` is the award of a catalogue registration badge for `role`. */
  predicate RegistrationAward(x: EarnedBadge, catalog: seq<Badge>, role: Role, now: int) {
    exists b :: b in catalog && IsRegistration(b, role) && x == Award(b, now)
  }

  /** The position of the first registration badge for `role`, or `|catalog|`. */
  function RegistrationIndex(catalog: seq<Badge>, role: Role): (p: nat)
    ensures p <= |catalog|
    ensures p < |catalog| ==> IsRegistration(catalog[p], role)
    ensures forall j :: 0 <= j < p ==> !IsRegistration(catalog[j], role)
  {
    if |catalog| == 0 then 0
    else if IsRegistration(catalog[0], role) then 0
    else 1 + RegistrationIndex(catalog[1..], role)
  }

  /** `check_and_assign_badges(user, points, role)`. `profile` is the
      badge list of the user's profile for that role, `None` when the user
      has none (the source logs the failure); `catalog` is the badge table
      in its default order. The result is the list saved, `None` when
      nothing is saved. */
  function AssignBadges(profile: Option<seq<EarnedBadge>>, catalog: seq<Badge>, points: int, roleName: string, now: int): (r: Option<seq<EarnedBadge>>)
    ensures r.Some? <==> ParseRole(roleName).Some? && profile.Some?
    ensures r.Some? ==> profile.value <= r.value
    ensures r.Some? ==>
      var role := ParseRole(roleName).value;
      forall b :: b in catalog && EarnsByPoints(b, points, role, HeldNames(profile.value)) ==> Award(b, now) in r.value
    ensures r.Some? ==>
      var role := ParseRole(roleName).value;
      forall i :: |profile.value| <= i < |r.value| ==>
        || PointAward(r.value[i], catalog, points, role, HeldNames(profile.value), now)
        || (RegistrationAward(r.value[i], catalog, role, now) && profile.value == [] && |r.value| == 1)
    ensures r.Some? ==>
      var role := ParseRole(roleName).value;
      var earned := profile.value + PointBadges(catalog, points, role, HeldNames(profile.value), now);
      && (|earned| > 0 ==> r.value == earned)
      && (earned == [] && RegistrationIndex(catalog, role) < |catalog| ==>
            r.value == [Award(catalog[RegistrationIndex(catalog, role)], now)])
      && (earned == [] && RegistrationIndex(catalog, role) == |catalog| ==> r.value == [])
  {
    match ParseRole(roleName)
    case None => None
    case Some(role) =>
      if profile.None? then None
      else
        var held := profile.value;
        var pb := PointBadges(catalog, points, role, HeldNames(held), now);
        var earned := held + pb;
        assert forall i :: |held| <= i < |earned| ==> earned[i] == pb[i - |held|];
        if |earned| == 0 then
          var p := RegistrationIndex(catalog, role);
          if p < |catalog| then
            assert catalog[p] in catalog;
            Some([Award(catalog[p], now)])
          else Some([])
        else Some(earned)
  }

  /** Names in a list are pairwise different. */
  predicate DistinctNames(bs: seq<EarnedBadge>) {
    forall i, j :: 0 <= i < j < |bs| ==> bs[i].name != bs[j].name
  }

  /** Badge names are unique in the catalogue (the model's `unique=True`). */
  predicate UniqueCatalog(catalog: seq<Badge>) {
    forall i, j :: 0 <= i < j < |catalog| ==> catalog[i].name != catalog[j].name
  }

  lemma {:induction false} PointBadgesDistinct(catalog: seq<Badge>, points: int, role: Role, held: set<string>, now: int)
    requires UniqueCatalog(catalog)
    ensures DistinctNames(PointBadges(catalog, points, role, held, now))
    decreases |catalog|
  {
    if |catalog| > 0 {
      var tail := PointBadges(catalog[1..], points, role, held, now);
      PointBadgesDistinct(catalog[1..], points, role, held, now);
      forall x | x in tail ensures x.name != catalog[0].name {
        assert PointAward(x, catalog[1..], points, role, held, now);
        var b :| b in catalog[1..] && EarnsByPoints(b, points, role, held) && x == Award(b, now);
        var k :| 0 <= k < |catalog[1..]| && catalog[1..][k] == b;
        assert catalog[k + 1] == b;
      }
      var head := if EarnsByPoints(catalog[0], points, role, held) then [Award(catalog[0], now)] else [];
      var r := head + tail;
      forall i, j | 0 <= i < j < |r| ensures r[i].name != r[j].name {
        if |head| == 1 && i == 0 {
          assert r[j] == tail[j - 1];
          assert r[j] in tail;
        } else {
          assert r[i] == tail[i - |head|] && r[j] == tail[j - |head|];
        }
      }
    }
  }

  lemma {:induction false} PointBadgesNone(catalog: seq<Badge>, points: int, role: Role, held: set<string>, now: int)
    requires forall b :: b in catalog ==> !EarnsByPoints(b, points, role, held)
    ensures PointBadges(catalog, points, role, held, now) == []
    decreases |catalog|
  {
    if |catalog| > 0 {
      assert catalog[0] in catalog;
      assert forall b :: b in catalog[1..] ==> b in catalog;
      PointBadgesNone(catalog[1..], points, role, held, now);
    }
  }

  /** No badge is ever held twice: a profile whose names are distinct keeps
      them distinct. */
  lemma AssignBadgesNoDuplicates(profile: seq<EarnedBadge>, catalog: seq<Badge>, points: int, roleName: string, now: int)
    requires UniqueCatalog(catalog)
    requires DistinctNames(profile)
    requires ParseRole(roleName).Some?
    ensures DistinctNames(AssignBadges(Some(profile), catalog, points, roleName, now).value)
  {
    var role := ParseRole(roleName).value;
    var held := HeldNames(profile);
    var pb := PointBadges(catalog, points, role, held, now);
    PointBadgesDistinct(catalog, points, role, held, now);
    var earned := profile + pb;
    if |earned| > 0 {
      forall i, j | 0 <= i < j < |earned| ensures earned[i].name != earned[j].name {
        if j >= |profile| {
          assert earned[j] == pb[j - |profile|];
          if i >= |profile| {
            assert earned[i] == pb[i - |profile|];
          } else {
            assert earned[j] in pb;
            assert earned[i].name in held;
          }
        }
      }
    }
  }

  /** Assigning again with the same points changes nothing, whatever the
      time: everything earnable is held after the first call. */
  lemma {:induction false} AssignBadgesStable(profile: seq<EarnedBadge>, catalog: seq<Badge>, points: int, roleName: string, now1: int, now2: int)
    requires ParseRole(roleName).Some?
    ensures var r1 := AssignBadges(Some(profile), catalog, points, roleName, now1).value;
      AssignBadges(Some(r1), catalog, points, roleName, now2) == Some(r1)
  {
    var role := ParseRole(roleName).value;
    var r1 := AssignBadges(Some(profile), catalog, points, roleName, now1).value;
    var pb1 := PointBadges(catalog, points, role, HeldNames(profile), now1);
    var pb2 := PointBadges(catalog, points, role, HeldNames(r1), now2);
    // Whatever earns against r1's names earned against the profile's.
    forall b | b in catalog && EarnsByPoints(b, points, role, HeldNames(r1))
      ensures EarnsByPoints(b, points, role, HeldNames(profile))
    {
      forall i | 0 <= i < |profile| ensures profile[i].name in HeldNames(r1) {
        assert r1[i] == profile[i];
      }
    }
    forall b | b in catalog ensures !EarnsByPoints(b, points, role, HeldNames(r1)) {
      if EarnsByPoints(b, points, role, HeldNames(profile)) {
        var k :| 0 <= k < |r1| && r1[k] == Award(b, now1);
        assert b.name in HeldNames(r1);
      }
    }
    PointBadgesNone(catalog, points, role, HeldNames(r1), now2);
    assert r1 + pb2 == r1;
    if |profile + pb1| == 0 {
      assert pb1 == [];
      var p := RegistrationIndex(catalog, role);
      if p == |catalog| {
        assert r1 == [];
      }
    }
  }

  /** `Badge.clean` and the point filter agree: a badge earned by points
      has a threshold and so passes `clean`, and a catalogue of badges
      that `clean` would refuse awards no point badge at all. */
  lemma CleanBadgeGatesPoints(catalog: seq<Badge>, points: int, role: Role, held: set<string>, now: int)
    ensures forall b :: EarnsByPoints(b, points, role, held) ==> CleanBadge(b) == Ok(b)
    ensures (forall b :: b in catalog ==> CleanBadge(b).Err?) ==> PointBadges(catalog, points, role, held, now) == []
  {
    if forall b :: b in catalog ==> CleanBadge(b).Err? {
      PointBadgesNone(catalog, points, role, held, now);
    }
  }
}

=== FILE: leaderboard_board.dfy ===
/** The read path: the top-100 view per role with medals
    (`get_leaderboard_data` / `process_entries`), its 60-second cache
    (`get_cached_leaderboard`) and the public `LeaderboardView`. */
module Board {
  import opened Wrappers
  import opened LeaderboardModels
  import opened Ranking
  import Sorting

  /** Each role's list is cut to this many entries. */
  const TopLimit: nat := 100

  /** Seconds a computed leaderboard stays in the cache. */
  const CacheTtl: int := 60

  datatype Medal = Gold | Silver | Bronze

  /** The medal of the entry at 0-based position `index`. */
  function MedalAt(index: nat): (m: Option<Medal>)
    ensures m == Some(Gold) <==> index == 0
    ensures m == Some(Silver) <==> index == 1
    ensures m == Some(Bronze) <==> index == 2
    ensures m.None? <==> index >= 3
  {
    if index == 0 then Some(Gold)
    else if index == 1 then Some(Silver)
    else if index == 2 then Some(Bronze)
    else None
  }

  /** One entry of the public leaderboard payload. */
  datatype Row = Row(
    id: nat,
    userId: string,
    userName: string,
    points: int,
    rank: nat,
    lastUpdated: int,
    medal: Option<Medal>)

  /** `process_entries`: positional ranks and medals for an ordered list. */
  function ProcessEntries(es: seq<Entry>): (r: seq<Row>)
    ensures |r| == |es|
    ensures forall i :: 0 <= i < |r| ==>
      && r[i].rank == i + 1
      && r[i].medal == MedalAt(i)
      && r[i].id == es[i].id && r[i].userId == es[i].userId && r[i].userName == es[i].userName
      && r[i].points == es[i].points && r[i].lastUpdated == es[i].lastUpdated
  {
    seq(|es|, i requires 0 <= i < |es| =>
      Row(es[i].id, es[i].userId, es[i].userName, es[i].points, i + 1, es[i].lastUpdated, MedalAt(i)))
  }

  /** The role's first 100 entries in (points desc, last_updated asc). */
  function TopEntries(s: Store, role: Role): (r: seq<Entry>)
    ensures |r| == if |RoleEntries(s, role)| < TopLimit then |RoleEntries(s, role)| else TopLimit
  {
    var o := Ordered(s, role);
    if |o| <= TopLimit then o else o[..TopLimit]
  }

  /** The top view holds the role's best entries: at most 100, each a
      document of the role, none twice, in ranking order, and no document
      left out sorts strictly before one shown. */
  lemma TopEntriesSpec(s: Store, role: Role)
    requires UniqueKeys(s)
    ensures var t := TopEntries(s, role);
      && |t| <= TopLimit
      && Sorting.SortedBy(t, Before)
      && Sorting.Distinct(t)
      && (forall i :: 0 <= i < |t| ==> t[i] in s && t[i].role == role)
      && (forall e :: e in s && e.role == role && e !in t ==>
            forall i :: 0 <= i < |t| ==> Before(t[i], e))
  {
    var o := Ordered(s, role);
    OrderedFacts(s, role);
    var t := TopEntries(s, role);
    assert forall i :: 0 <= i < |t| ==> t[i] == o[i];
    forall e | e in s && e.role == role && e !in t
      ensures forall i :: 0 <= i < |t| ==> Before(t[i], e)
    {
      assert e in o;
      var q :| 0 <= q < |o| && o[q] == e;
      assert q >= |t|;
    }
  }

  /** The rank the top view shows for an entry is the rank
      `recalculate_ranks` stores for the same document. */
  lemma TopRankMatchesStoredRank(s: Store, role: Role, p: int, i: int)
    requires UniqueKeys(s)
    requires 0 <= p < |TopEntries(s, role)|
    requires 0 <= i < |s| && KeyOf(s[i]) == KeyOf(TopEntries(s, role)[p])
    ensures Some(ProcessEntries(TopEntries(s, role))[p].rank) == Recalculate(s, role)[i].rank
  {
    TopPosition(s, role, p, i);
    RecalculatedAt(s, role, i);
  }

  /** The document behind the top view's `p`-th entry is of the role and
      sits at position `p` of the ranking order. */
  lemma TopPosition(s: Store, role: Role, p: int, i: int)
    requires UniqueKeys(s)
    requires 0 <= p < |TopEntries(s, role)|
    requires 0 <= i < |s| && KeyOf(s[i]) == KeyOf(TopEntries(s, role)[p])
    ensures s[i].role == role && Find(Ordered(s, role), KeyOf(s[i])) == p
    ensures Reranked(s[i], role, Ordered(s, role)).rank == Some(p + 1)
  {
    var o := Ordered(s, role);
    OrderedFacts(s, role);
    assert TopEntries(s, role)[p] == o[p];
    assert o[p] in s;
    var j :| 0 <= j < |s| && s[j] == o[p];
    assert s[j] == s[i];
    FindStored(s, role, i);
    var f := Find(o, KeyOf(s[i]));
    assert o[f] == o[p];
  }

  /** The three lists of the public payload. */
  datatype Leaderboard = Leaderboard(students: seq<Row>, teachers: seq<Row>, schools: seq<Row>)

  /** What `get_leaderboard_data` returns, and whether it launched the
      background sweep (it always does, before reading). */
  datatype Fetch = Fetch(board: Leaderboard, sweepLaunched: bool)

  /** `get_leaderboard_data`: the top view of each role, or three empty
      lists when the store read fails. */
  function LeaderboardData(s: Store, readFails: bool): (r: Fetch)
    ensures r.sweepLaunched
    ensures readFails ==> r.board == Leaderboard([], [], [])
    ensures !readFails ==>
      && r.board.students == ProcessEntries(TopEntries(s, Student))
      && r.board.teachers == ProcessEntries(TopEntries(s, Teacher))
      && r.board.schools == ProcessEntries(TopEntries(s, School))
    ensures |r.board.students| <= TopLimit && |r.board.teachers| <= TopLimit && |r.board.schools| <= TopLimit
  {
    if readFails then Fetch(Leaderboard([], [], []), true)
    else
      Fetch(Leaderboard(
        ProcessEntries(TopEntries(s, Student)),
        ProcessEntries(TopEntries(s, Teacher)),
        ProcessEntries(TopEntries(s, School))), true)
  }

  /** The cache slot: a stored payload and the time it expires. */
  datatype Cache = Cache(value: Option<Leaderboard>, expiry: int)

  predicate Hit(c: Cache, now: int) {
    c.value.Some? && now < c.expiry
  }

  /** The result of a cached read: the payload, the new cache slot and
      whether a sweep was launched. */
  datatype Read = Read(board: Leaderboard, cache: Cache, sweepLaunched: bool)

  /** `get_cached_leaderboard` at time `now`: a hit returns the stored
      payload untouched; a miss computes fresh data and stores it for 60
      seconds. */
  function CachedLeaderboard(c: Cache, now: int, s: Store, readFails: bool): (r: Read)
    ensures Hit(c, now) ==> r.board == c.value.value && r.cache == c && !r.sweepLaunched
    ensures !Hit(c, now) ==>
      && r.board == LeaderboardData(s, readFails).board
      && r.cache == Cache(Some(r.board), now + CacheTtl)
      && r.sweepLaunched
  {
    if Hit(c, now) then Read(c.value.value, c, false)
    else
      var f := LeaderboardData(s, readFails);
      Read(f.board, Cache(Some(f.board), now + CacheTtl), f.sweepLaunched)
  }

  /** Within 60 seconds of a miss, a second read returns the same payload
      even if the store changed in between. */
  lemma StaleWithinTtl(c: Cache, t1: int, s1: Store, f1: bool, t2: int, s2: Store, f2: bool)
    requires !Hit(c, t1)
    requires t1 <= t2 < t1 + CacheTtl
    ensures var first := CachedLeaderboard(c, t1, s1, f1);
      CachedLeaderboard(first.cache, t2, s2, f2).board == first.board
  {
    var first := CachedLeaderboard(c, t1, s1, f1);
    assert first.cache == Cache(Some(first.board), t1 + CacheTtl);
    assert Hit(first.cache, t2);
  }

  /** The answer of the public leaderboard endpoint. */
  datatype BoardResponse = BoardOk(board: Leaderboard) | BoardError(status: int)

  /** `LeaderboardView.get`: 200 with the cached payload, or 500 when the
      cache itself fails. */
  function LeaderboardGet(c: Cache, now: int, s: Store, readFails: bool, cacheFails: bool): (r: (BoardResponse, Cache))
    ensures cacheFails ==> r.0 == BoardError(500) && r.1 == c
    ensures !cacheFails ==> r.0 == BoardOk(CachedLeaderboard(c, now, s, readFails).board)
    ensures !cacheFails ==> r.1 == CachedLeaderboard(c, now, s, readFails).cache
    ensures !cacheFails && Hit(c, now) ==> r == (BoardOk(c.value.value), c)
    ensures !cacheFails && !Hit(c, now) ==> r.1 == Cache(Some(r.0.board), now + CacheTtl)
  {
    if cacheFails then (BoardError(500), c)
    else
      var read := CachedLeaderboard(c, now, s, readFails);
      (BoardOk(read.board), read.cache)
  }
}

=== FILE: leaderboard_models.dfy ===
/** The leaderboard's persistent records: a ranking entry per (user, role)
    and the badge catalog, with the clamps and validation the Django models
    apply on write. */
module LeaderboardModels {
  import opened Wrappers

  /** The three ranking partitions. */
  datatype Role = Student | Teacher | School

  /** The role as stored in documents and passed between components. */
  function RoleName(r: Role): string {
    match r
    case Student => "student"
    case Teacher => "teacher"
    case School => "school"
  }

  /** Reads a role name; any other text is not a role. */
  function ParseRole(s: string): (r: Option<Role>)
    ensures r.Some? <==> s == "student" || s == "teacher" || s == "school"
    ensures r.Some? ==> RoleName(r.value) == s
  {
    if s == "student" then Some(Student)
    else if s == "teacher" then Some(Teacher)
    else if s == "school" then Some(School)
    else None
  }

  lemma RoleNameRoundTrip(r: Role)
    ensures ParseRole(RoleName(r)) == Some(r)
  {
  }

  /** One leaderboard document. `rank` is `None` while the document has no
      rank field: the upsert that creates a document writes none, and the
      first recalculation of its role sets one. `lastVerified` is absent
      until the first reconciliation sweep looks at the entry. Timestamps
      are integers. */
  datatype Entry = Entry(
    id: nat,
    userId: string,
    userName: string,
    role: Role,
    points: int,
    rank: Option<int>,
    lastUpdated: int,
    lastVerified: Option<int>)

  /** The field validators: points at least 0 and a rank of at least 1. */
  predicate ValidEntry(e: Entry) {
    e.points >= 0 && e.rank.Some? && e.rank.value >= 1
  }

  /** `Leaderboard.save`: clamps points up to 0 and rank up to 1 before
      persisting, and `last_updated` (`auto_now`) takes the time of the save
      `now`; nothing else is touched. A document loaded without a rank
      field carries a null rank, which the clamp cannot compare with 1, so
      the save raises (`None`). */
  function Save(e: Entry, now: int): (r: Option<Entry>)
    ensures r.None? <==> e.rank.None?
    ensures r.Some? ==> ValidEntry(r.value)
    ensures r.Some? ==> r.value == e.(points := r.value.points, rank := r.value.rank, lastUpdated := now)
    ensures r.Some? ==> r.value.points == if e.points < 0 then 0 else e.points
    ensures r.Some? ==> r.value.rank.value == if e.rank.value < 1 then 1 else e.rank.value
  {
    match e.rank
    case None => None
    case Some(k) =>
      Some(e.(points := if e.points < 0 then 0 else e.points,
              rank := Some(if k < 1 then 1 else k),
              lastUpdated := now))
  }

  /** Apart from the save time, saving changes an entry exactly when it
      breaks a validator, so a second save changes the time alone. */
  lemma SaveFixesOnlyInvalid(e: Entry, now: int, later: int)
    ensures Save(e, now) == Some(e.(lastUpdated := now)) <==> ValidEntry(e)
    ensures Save(e, now).Some? ==> Save(Save(e, now).value, later) == Some(Save(e, now).value.(lastUpdated := later))
  {
  }

  /** One badge definition of the catalog. A null `pointsRequired`,
      `rankRequired` or `roleSpecific` is `None`. */
  datatype Badge = Badge(
    name: string,
    description: string,
    iconUrl: string,
    pointsRequired: Option<int>,
    roleSpecific: Option<Role>,
    rankRequired: Option<int>,
    isActive: bool)

  /** The field validators of a badge: a set threshold is at least 0
      points or at least rank 1. */
  predicate ValidBadgeFields(b: Badge) {
    && (b.pointsRequired.Some? ==> b.pointsRequired.value >= 0)
    && (b.rankRequired.Some? ==> b.rankRequired.value >= 1)
  }

  /** `Badge.clean`: a badge needs at least one threshold. */
  function CleanBadge(b: Badge): (r: Result<Badge, string>)
    ensures r.Err? <==> b.pointsRequired.None? && b.rankRequired.None?
    ensures r.Ok? ==> r.value == b
  {
    if b.pointsRequired.None? && b.rankRequired.None? then
      Err("Either points_required or rank_required must be set")
    else
      Ok(b)
  }

  /** Position of a role in the alphabetical order of role names, which is
      how the default ordering compares the `role` column. */
  function RoleSortKey(r: Role): nat {
    match r
    case School => 0
    case Student => 1
    case Teacher => 2
  }

  /** How the database compares two rank fields in an ascending sort: a
      document without one sorts before every ranked document. */
  predicate RankLe(a: Option<int>, b: Option<int>) {
    a.None? || (b.Some? && a.value <= b.value)
  }

  /** The model's default ordering: by role, then by rank. */
  predicate DefaultOrderLe(a: Entry, b: Entry) {
    RoleSortKey(a.role) < RoleSortKey(b.role)
    || (a.role == b.role && RankLe(a.rank, b.rank))
  }

  /** The default ordering is total, groups each role together and, inside
      a role, lists unranked documents first and ranked ones by rank. */
  lemma DefaultOrderGroupsRoles(a: Entry, b: Entry)
    ensures a.role != b.role ==> (DefaultOrderLe(a, b) <==> !DefaultOrderLe(b, a))
    ensures a.role == b.role && a.rank.None? ==> DefaultOrderLe(a, b)
    ensures a.role == b.role && a.rank.Some? && b.rank.None? ==> !DefaultOrderLe(a, b)
    ensures a.role == b.role && a.rank.Some? && b.rank.Some? ==>
      (DefaultOrderLe(a, b) <==> a.rank.value <= b.rank.value)
    ensures DefaultOrderLe(a, b) || DefaultOrderLe(b, a)
  {
    if a.role != b.role {
      assert RoleSortKey(a.role) != RoleSortKey(b.role);
    }
  }
}

=== FILE: leaderboard_ranking.dfy ===
/** The ranking store and the rank recalculation engine
    (`update_leaderboard` and `recalculate_ranks`).

    The store is the leaderboard collection as a sequence of documents in
    storage order. The source's sort key is (points descending,
    last_updated ascending); documents equal on both keep their storage
    order here, where the database leaves their order unspecified. */
module Ranking {
  import opened Wrappers
  import opened LeaderboardModels
  import opened CharFields
  import Sorting

  type Store = seq<Entry>

  /** The unique index of the collection. */
  datatype Key = Key(userId: string, role: Role)

  function KeyOf(e: Entry): Key {
    Key(e.userId, e.role)
  }

  /** At most one document per (user_id, role). */
  predicate UniqueKeys(s: Store) {
    forall i, j :: 0 <= i < |s| && 0 <= j < |s| && i != j ==> KeyOf(s[i]) != KeyOf(s[j])
  }

  /** `a` sorts no later than `b`: more points first, then the earlier
      update first. */
  predicate Before(a: Entry, b: Entry) {
    a.points > b.points || (a.points == b.points && a.lastUpdated <= b.lastUpdated)
  }

  lemma BeforeIsTotalPreorder()
    ensures Sorting.TotalPreorder(Before)
  {
  }

  /** The index of the first document with key `k`, or `|s|` if none. */
  function Find(s: seq<Entry>, k: Key): (p: nat)
    ensures p <= |s|
    ensures p < |s| ==> KeyOf(s[p]) == k
    ensures forall j :: 0 <= j < p ==> KeyOf(s[j]) != k
  {
    if |s| == 0 then 0
    else if KeyOf(s[0]) == k then 0
    else 1 + Find(s[1..], k)
  }

  /** The documents of one role, in storage order (the `find({"role": role})`
      query). */
  function RoleEntries(s: Store, role: Role): (r: seq<Entry>)
    ensures forall e :: e in r <==> e in s && e.role == role
    ensures |r| <= |s|
  {
    if |s| == 0 then []
    else
      assert s == [s[0]] + s[1..];
      (if s[0].role == role then [s[0]] else []) + RoleEntries(s[1..], role)
  }

  lemma {:induction false} RoleEntriesDistinct(s: Store, role: Role)
    requires Sorting.Distinct(s)
    ensures Sorting.Distinct(RoleEntries(s, role))
  {
    if |s| > 0 {
      var t := s[1..];
      assert Sorting.Distinct(t) by {
        forall i, j | 0 <= i < |t| && 0 <= j < |t| && i != j ensures t[i] != t[j] {
          assert t[i] == s[i + 1] && t[j] == s[j + 1];
        }
      }
      RoleEntriesDistinct(t, role);
      var u := RoleEntries(t, role);
      if s[0].role == role {
        assert s[0] !in u by {
          forall k | 0 <= k < |t| ensures t[k] != s[0] {
            assert t[k] == s[k + 1];
          }
        }
        var r := [s[0]] + u;
        forall i, j | 0 <= i < |r| && 0 <= j < |r| && i != j
          ensures r[i] != r[j]
        {
          if i == 0 {
            assert r[j] == u[j - 1] && r[j] in u;
          } else if j == 0 {
            assert r[i] == u[i - 1] && r[i] in u;
          } else {
            assert r[i] == u[i - 1] && r[j] == u[j - 1];
          }
        }
      } else {
        assert RoleEntries(s, role) == u;
      }
    }
  }

  /** The role's documents in ranking order. */
  function Ordered(s: Store, role: Role): (r: seq<Entry>)
    ensures |r| == |RoleEntries(s, role)|
    ensures multiset(r) == multiset(RoleEntries(s, role))
  {
    Sorting.Sort(RoleEntries(s, role), Before)
  }

  /** What the ranking order says about a store with the unique index:
      it is sorted, repeats nothing and holds exactly the role's documents. */
  lemma OrderedFacts(s: Store, role: Role)
    requires UniqueKeys(s)
    ensures Sorting.SortedBy(Ordered(s, role), Before)
    ensures Sorting.Distinct(Ordered(s, role))
    ensures forall e :: e in Ordered(s, role) <==> e in s && e.role == role
  {
    BeforeIsTotalPreorder();
    Sorting.SortSorted(RoleEntries(s, role), Before);
    assert Sorting.Distinct(s) by {
      forall i, j | 0 <= i < |s| && 0 <= j < |s| && i != j ensures s[i] != s[j] {
        assert KeyOf(s[i]) != KeyOf(s[j]);
      }
    }
    RoleEntriesDistinct(s, role);
    Sorting.SortDistinct(RoleEntries(s, role), Before);
    forall e ensures e in Ordered(s, role) <==> e in s && e.role == role {
      assert e in Ordered(s, role) <==> e in multiset(Ordered(s, role));
      assert e in RoleEntries(s, role) <==> e in multiset(RoleEntries(s, role));
    }
  }

  /** A document's new rank: one more than its position in the ranking
      order; documents of other roles keep theirs. */
  function Reranked(e: Entry, role: Role, order: seq<Entry>): Entry {
    if e.role == role then e.(rank := Some(Find(order, KeyOf(e)) + 1)) else e
  }

  /** `recalculate_ranks(role)`: every document of `role` gets rank
      index + 1 of its place in the ranking order; one update per document
      of the role, none for other roles. */
  function Recalculate(s: Store, role: Role): (r: Store)
    ensures |r| == |s|
    ensures forall i :: 0 <= i < |s| ==> r[i] == s[i].(rank := r[i].rank)
    ensures forall i :: 0 <= i < |s| && s[i].role != role ==> r[i] == s[i]
    ensures forall i :: 0 <= i < |s| && s[i].role == role ==> r[i].rank.Some? && r[i].rank.value >= 1
  {
    var order := Ordered(s, role);
    seq(|s|, i requires 0 <= i < |s| => Reranked(s[i], role, order))
  }

  /** The document at `i` after re-ranking is `Reranked` of the one before. */
  lemma RecalculatedAt(s: Store, role: Role, i: int)
    requires 0 <= i < |s|
    ensures Recalculate(s, role)[i] == Reranked(s[i], role, Ordered(s, role))
  {
  }

  /** A role with no documents issues no writes. */
  lemma RecalculateEmptyRole(s: Store, role: Role)
    requires |RoleEntries(s, role)| == 0
    ensures Recalculate(s, role) == s
  {
    var r := Recalculate(s, role);
    forall i | 0 <= i < |s| ensures r[i] == s[i] {
      assert s[i] in s && s[i] !in RoleEntries(s, role);
    }
  }

  /** Recalculation keeps every document's key, so the unique index holds
      afterwards. */
  lemma RecalculateKeepsKeys(s: Store, role: Role)
    requires UniqueKeys(s)
    ensures UniqueKeys(Recalculate(s, role))
    ensures forall i :: 0 <= i < |s| ==> KeyOf(Recalculate(s, role)[i]) == KeyOf(s[i])
  {
  }

  /** A document of the role sits in the ranking order exactly where its
      key is first found. */
  lemma FindStored(s: Store, role: Role, i: int)
    requires UniqueKeys(s)
    requires 0 <= i < |s| && s[i].role == role
    ensures Find(Ordered(s, role), KeyOf(s[i])) < |Ordered(s, role)|
    ensures Ordered(s, role)[Find(Ordered(s, role), KeyOf(s[i]))] == s[i]
  {
    var o := Ordered(s, role);
    OrderedFacts(s, role);
    assert s[i] in o;
    var q :| 0 <= q < |o| && o[q] == s[i];
    var p := Find(o, KeyOf(s[i]));
    assert KeyOf(o[q]) == KeyOf(s[i]);
    assert p <= q;
    assert o[p] in o;
    var j :| 0 <= j < |s| && s[j] == o[p];
    assert KeyOf(s[j]) == KeyOf(s[i]);
  }

  /** The ranks 1..n. */
  function RankRange(n: int): (r: set<Option<int>>)
    ensures forall k :: k in r <==> k.Some? && 1 <= k.value <= n
  {
    if n <= 0 then {} else RankRange(n - 1) + {Some(n)}
  }

  /** The ranks held by the documents of `role`. */
  function RanksOf(r: Store, role: Role): set<Option<int>> {
    set i | 0 <= i < |r| && r[i].role == role :: r[i].rank
  }

  /** After `recalculate_ranks(role)` the role's ranks are exactly 1..N,
      where N is the number of the role's documents. */
  lemma {:induction false} RecalculateRankRange(s: Store, role: Role)
    requires UniqueKeys(s)
    ensures RanksOf(Recalculate(s, role), role) == RankRange(|RoleEntries(s, role)|)
  {
    var r := Recalculate(s, role);
    forall x | x in RanksOf(r, role)
      ensures x.Some? && 1 <= x.value <= |RoleEntries(s, role)|
    {
      var i :| 0 <= i < |r| && r[i].role == role && r[i].rank == x;
      RankedAt(s, role, i);
    }
    forall n | 1 <= n <= |RoleEntries(s, role)|
      ensures Some(n) in RanksOf(r, role)
    {
      var i := RankTaken(s, role, n);
      assert r[i].role == role;
    }
  }

  /** Every rank 1..N goes to some document of the role. */
  lemma RankTaken(s: Store, role: Role, n: int) returns (i: int)
    requires UniqueKeys(s)
    requires 1 <= n <= |RoleEntries(s, role)|
    ensures 0 <= i < |s| && s[i].role == role && Recalculate(s, role)[i].rank == Some(n)
  {
    i := OrderedAt(s, role, n - 1);
    RecalculatedAt(s, role, i);
  }

  /** The document at place `q` of the ranking order is a document of the
      role, and its key is first found at `q`. */
  lemma OrderedAt(s: Store, role: Role, q: int) returns (i: int)
    requires UniqueKeys(s)
    requires 0 <= q < |Ordered(s, role)|
    ensures 0 <= i < |s| && s[i].role == role && s[i] == Ordered(s, role)[q]
    ensures Find(Ordered(s, role), KeyOf(s[i])) == q
  {
    var o := Ordered(s, role);
    OrderedFacts(s, role);
    assert o[q] in o;
    i :| 0 <= i < |s| && s[i] == o[q];
    FindStored(s, role, i);
    var p := Find(o, KeyOf(s[i]));
    assert o[p] == o[q];
  }

  /** Two stores with the same roles position by position hold equally
      many documents of each role. */
  lemma {:induction false} RoleCountSameRoles(a: Store, b: Store, role: Role)
    requires |a| == |b|
    requires forall i :: 0 <= i < |a| ==> a[i].role == b[i].role
    ensures |RoleEntries(a, role)| == |RoleEntries(b, role)|
  {
    if |a| > 0 {
      RoleCountSameRoles(a[1..], b[1..], role);
    }
  }

  /** After `recalculate_ranks(role)` the role's ranks are exactly 1..N for
      the N documents of the role it leaves behind. */
  lemma RecalculateDense(s: Store, role: Role)
    requires UniqueKeys(s)
    ensures var r := Recalculate(s, role);
      RanksOf(r, role) == RankRange(|RoleEntries(r, role)|)
  {
    RecalculateRankRange(s, role);
    RoleCountSameRoles(s, Recalculate(s, role), role);
  }

  /** After `recalculate_ranks(role)` no two documents of the role share a
      rank. */
  lemma {:induction false} RecalculateRanksDistinct(s: Store, role: Role)
    requires UniqueKeys(s)
    ensures var r := Recalculate(s, role);
      forall i, j :: 0 <= i < |r| && 0 <= j < |r| && i != j && r[i].role == role && r[j].role == role
        ==> r[i].rank != r[j].rank
  {
    var r := Recalculate(s, role);
    OrderedFacts(s, role);
    forall i, j | 0 <= i < |r| && 0 <= j < |r| && i != j && r[i].role == role && r[j].role == role
      ensures r[i].rank != r[j].rank
    {
      FindStored(s, role, i);
      FindStored(s, role, j);
    }
  }

  /** After `recalculate_ranks(role)` a smaller rank means sorting no later
      in (points desc, last_updated asc), and an entry that sorts strictly
      before another gets the smaller rank. */
  lemma {:induction false} RecalculateOrdered(s: Store, role: Role)
    requires UniqueKeys(s)
    ensures var r := Recalculate(s, role);
      forall i, j ::
        (0 <= i < |r| && 0 <= j < |r| && r[i].role == role && r[j].role == role
         && r[i].rank.value < r[j].rank.value)
        ==> Before(r[i], r[j])
    ensures var r := Recalculate(s, role);
      forall i, j ::
        (0 <= i < |r| && 0 <= j < |r| && r[i].role == role && r[j].role == role
         && Before(r[i], r[j]) && !Before(r[j], r[i]))
        ==> r[i].rank.value < r[j].rank.value
  {
    var r := Recalculate(s, role);
    forall i, j | 0 <= i < |r| && 0 <= j < |r| && r[i].role == role && r[j].role == role
      ensures r[i].rank.value < r[j].rank.value ==> Before(r[i], r[j])
      ensures Before(r[i], r[j]) && !Before(r[j], r[i]) ==> r[i].rank.value < r[j].rank.value
    {
      RankedPair(s, role, i, j);
    }
  }

  /** `RecalculateOrdered` for one pair of documents of the role. */
  lemma RankedPair(s: Store, role: Role, i: int, j: int)
    requires UniqueKeys(s)
    requires 0 <= i < |s| && s[i].role == role && 0 <= j < |s| && s[j].role == role
    ensures var r := Recalculate(s, role);
      && r[i].rank.Some? && r[j].rank.Some?
      && (r[i].rank.value < r[j].rank.value ==> Before(r[i], r[j]))
      && (Before(r[i], r[j]) && !Before(r[j], r[i]) ==> r[i].rank.value < r[j].rank.value)
  {
    OrderedFacts(s, role);
    RankedAt(s, role, i);
    RankedAt(s, role, j);
  }

  /** A document of the role gets one more than its place in the ranking
      order, and nothing else about it changes. */
  lemma RankedAt(s: Store, role: Role, i: int)
    requires UniqueKeys(s)
    requires 0 <= i < |s| && s[i].role == role
    ensures var o := Ordered(s, role); var p := Find(o, KeyOf(s[i]));
      && p < |o| && o[p] == s[i]
      && Recalculate(s, role)[i] == s[i].(rank := Some(p + 1))
  {
    FindStored(s, role, i);
    RecalculatedAt(s, role, i);
  }

  /** The document with key `k` already holds `points`. */
  predicate HoldsPoints(s: Store, k: Key, points: int) {
    Find(s, k) < |s| && s[Find(s, k)].points == points
  }

  /** `AbstractUser.get_full_name`: first and last name joined by a
      space, stripped. The user model adds its own `full_name` column but
      does not override this method. */
  function GetFullName(firstName: string, lastName: string): (r: string)
    ensures Trimmed(r)
    ensures r == [] <==> AllSpace(firstName) && AllSpace(lastName)
  {
    SpaceJoined(firstName, lastName);
    Strip(firstName + " " + lastName)
  }

  /** Text joined around a space is all white space exactly when both
      parts are. */
  lemma SpaceJoined(a: string, b: string)
    ensures AllSpace(a + " " + b) <==> AllSpace(a) && AllSpace(b)
  {
    var s := a + " " + b;
    assert forall i :: 0 <= i < |a| ==> s[i] == a[i];
    assert forall i :: 0 <= i < |b| ==> s[|a| + 1 + i] == b[i];
    if AllSpace(a) && AllSpace(b) {
      forall i | 0 <= i < |s| ensures IsSpace(s[i]) {
        if i > |a| {
          assert s[i] == b[i - |a| - 1];
        }
      }
    }
  }

  /** The name the source stores and reports:
      `user.get_full_name() or user.username`. */
  function DisplayNameAsWritten(firstName: string, lastName: string, username: string): (r: string)
    ensures GetFullName(firstName, lastName) != [] ==> r == GetFullName(firstName, lastName)
    ensures GetFullName(firstName, lastName) == [] ==> r == username
  {
    var full := GetFullName(firstName, lastName);
    if full != [] then full else username
  }

  /** The name evidently meant: the `full_name` column that registration
      fills, or the username when it is empty. */
  function DisplayName(fullName: string, username: string): (r: string)
    ensures fullName != [] ==> r == fullName
    ensures fullName == [] ==> r == username
  {
    if fullName != [] then fullName else username
  }

  /** The upsert of one document: an existing one gets the new name, points
      and update time; a missing one is inserted with a fresh identity, no
      rank yet and no verification time. */
  function Write(s: Store, k: Key, userName: string, points: int, now: int, freshId: nat): Store {
    var p := Find(s, k);
    if p < |s| then s[p := s[p].(userName := userName, points := points, lastUpdated := now)]
    else s + [Entry(freshId, k.userId, userName, k.role, points, None, now, None)]
  }

  /** Where the store fails, if it does: the lookup, the upsert or the
      recalculation. */
  datatype Fault = NoFault | ReadFault | WriteFault | RankFault

  /** What `update_leaderboard` reports and the store it leaves behind. */
  datatype Outcome = Outcome(ok: bool, store: Store)

  /** `update_leaderboard(user, points, role)`. */
  function Update(s: Store, k: Key, userName: string, points: int, now: int, freshId: nat, fault: Fault): (r: Outcome)
    ensures fault == ReadFault ==> !r.ok && r.store == s
    ensures fault != ReadFault && HoldsPoints(s, k, points) ==> r.ok && r.store == s
    ensures fault != ReadFault && !HoldsPoints(s, k, points) ==> (r.ok <==> fault == NoFault)
    ensures fault == WriteFault ==> r.store == s
    ensures fault == RankFault && !HoldsPoints(s, k, points) ==> r.store == Write(s, k, userName, points, now, freshId)
    ensures fault == NoFault && !HoldsPoints(s, k, points) ==>
      r.store == Recalculate(Write(s, k, userName, points, now, freshId), k.role)
  {
    if fault == ReadFault then Outcome(false, s)
    else if HoldsPoints(s, k, points) then Outcome(true, s)
    else if fault == WriteFault then Outcome(false, s)
    else
      var written := Write(s, k, userName, points, now, freshId);
      if fault == RankFault then Outcome(false, written)
      else
        assert fault == NoFault;
        Outcome(true, Recalculate(written, k.role))
  }

  /** The upsert keeps the unique index, leaves exactly one document with
      the key, holding the new name, points and update time, and touches no
      other document's fields. */
  lemma {:induction false} WriteSpec(s: Store, k: Key, userName: string, points: int, now: int, freshId: nat)
    requires UniqueKeys(s)
    ensures var w := Write(s, k, userName, points, now, freshId);
      && UniqueKeys(w)
      && |s| <= |w| <= |s| + 1
      && Find(w, k) < |w|
      && w[Find(w, k)].userName == userName
      && w[Find(w, k)].points == points
      && w[Find(w, k)].lastUpdated == now
      && (forall i :: 0 <= i < |s| && KeyOf(s[i]) != k ==> w[i] == s[i])
  {
    var w := Write(s, k, userName, points, now, freshId);
    var p := Find(s, k);
    if p < |s| {
      assert KeyOf(w[p]) == k;
      assert forall i :: 0 <= i < |w| && i != p ==> w[i] == s[i];
      assert Find(w, k) == p;
    } else {
      assert forall i :: 0 <= i < |s| ==> KeyOf(s[i]) != k;
      assert KeyOf(w[|s|]) == k;
      assert Find(w, k) == |s|;
    }
  }

  /** An existing document keeps its place, identity, rank and
      verification time; a missing one is appended with the fresh identity,
      no rank field and no verification time. */
  lemma {:induction false} WriteShape(s: Store, k: Key, userName: string, points: int, now: int, freshId: nat)
    ensures var w := Write(s, k, userName, points, now, freshId);
      Find(s, k) < |s| ==>
        && |w| == |s|
        && Find(w, k) == Find(s, k)
        && w[Find(w, k)].id == s[Find(s, k)].id
        && w[Find(w, k)].rank == s[Find(s, k)].rank
        && w[Find(w, k)].lastVerified == s[Find(s, k)].lastVerified
    ensures var w := Write(s, k, userName, points, now, freshId);
      Find(s, k) == |s| ==>
        && |w| == |s| + 1
        && Find(w, k) == |s|
        && w[|s|] == Entry(freshId, k.userId, userName, k.role, points, None, now, None)
  {
    var w := Write(s, k, userName, points, now, freshId);
    var p := Find(s, k);
    if p < |s| {
      assert KeyOf(w[p]) == k;
      assert forall j :: 0 <= j < p ==> w[j] == s[j];
      assert Find(w, k) == p;
    } else {
      assert forall j :: 0 <= j < |s| ==> w[j] == s[j];
      assert KeyOf(w[|s|]) == k;
      assert Find(w, k) == |s|;
    }
  }

  /** Where a key is first found depends only on the keys. */
  lemma FindSameKeys(a: Store, b: Store, k: Key)
    requires |a| == |b|
    requires forall i :: 0 <= i < |a| ==> KeyOf(a[i]) == KeyOf(b[i])
    ensures Find(a, k) == Find(b, k)
  {
  }

  /** A successful, non-trivial `update_leaderboard` leaves one document for
      the key with the new points, keeps the unique index, leaves other
      roles' documents exactly as they were and re-ranks the role densely. */
  lemma UpdateSpec(s: Store, k: Key, userName: string, points: int, now: int, freshId: nat)
    requires UniqueKeys(s)
    requires !HoldsPoints(s, k, points)
    ensures var r := Update(s, k, userName, points, now, freshId, NoFault).store;
      && UniqueKeys(r)
      && Find(r, k) < |r|
      && r[Find(r, k)].points == points
      && r[Find(r, k)].userName == userName
      && r[Find(r, k)].lastUpdated == now
      && (forall i :: 0 <= i < |s| && s[i].role != k.role ==> r[i] == s[i])
      && RanksOf(r, k.role) == RankRange(|RoleEntries(Write(s, k, userName, points, now, freshId), k.role)|)
  {
    var w := Write(s, k, userName, points, now, freshId);
    WriteSpec(s, k, userName, points, now, freshId);
    RecalculateKeepsKeys(w, k.role);
    RecalculateRankRange(w, k.role);
    FindSameKeys(w, Recalculate(w, k.role), k);
  }
}

=== FILE: leaderboard_signals.dfy ===
/** The profile save hooks that keep the leaderboard in step with profile
    points: `check_points_change` (pre-save) and
    `update_leaderboard_on_points_change` (post-save). */
module Signals {
  import opened Wrappers
  import opened LeaderboardModels
  import opened Ranking

  /** A profile row as the hooks see it. `className` is the saving model's
      class name; `userId` is the linked user, if any; `pointsChanged` is
      the transient flag the pre-save hook sets on the instance. */
  datatype Instance = Instance(
    pk: Option<string>,
    className: string,
    userId: Option<string>,
    points: int,
    pointsChanged: bool)

  /** Pre-save. `stored` is the points of the stored row with the same
      primary key, `None` when there is none. The flag is only ever set. */
  function PreSave(inst: Instance, stored: Option<int>): (r: Instance)
    ensures r.(pointsChanged := inst.pointsChanged) == inst
    ensures r.pointsChanged <==>
      inst.pointsChanged || (inst.pk.Some? && stored.Some? && stored.value != inst.points)
  {
    if inst.pk.None? then inst
    else match stored
      case None => inst
      case Some(prior) => if prior != inst.points then inst.(pointsChanged := true) else inst
  }

  /** The role named by the profile's class. */
  function RoleOfClass(className: string): (r: Option<Role>)
    ensures r == Some(Student) <==> className == "Student"
    ensures r == Some(Teacher) <==> className == "Teacher"
    ensures r == Some(School) <==> className == "School"
  {
    if className == "Student" then Some(Student)
    else if className == "Teacher" then Some(Teacher)
    else if className == "School" then Some(School)
    else None
  }

  /** The deferred update scheduled by post-save, if any. */
  datatype Scheduled = Scheduled(key: Key, points: int)

  /** Post-save: schedule an update when the flag is set or the row was
      just created, a user is linked and the class names a role. */
  function PostSave(inst: Instance, created: bool): (r: Option<Scheduled>)
    ensures r.Some? <==>
      (inst.pointsChanged || created) && inst.userId.Some? && RoleOfClass(inst.className).Some?
    ensures r.Some? ==>
      r.value == Scheduled(Key(inst.userId.value, RoleOfClass(inst.className).value), inst.points)
  {
    if !(inst.pointsChanged || created) then None
    else if inst.userId.None? then None
    else match RoleOfClass(inst.className)
      case None => None
      case Some(role) => Some(Scheduled(Key(inst.userId.value, role), inst.points))
  }

  /** The on-commit callback: run the update; its failures are logged, not
      raised. A failing lookup or upsert, or a board that already holds the
      points, leaves the store as it was. */
  function OnCommit(s: Store, job: Option<Scheduled>, userName: string, now: int, freshId: nat, fault: Fault): (r: Store)
    ensures job.None? ==> r == s
    ensures job.Some? && (fault == ReadFault || fault == WriteFault || HoldsPoints(s, job.value.key, job.value.points))
      ==> r == s
  {
    match job
    case None => s
    case Some(j) => Update(s, j.key, userName, j.points, now, freshId, fault).store
  }

  /** What a committed update leaves behind. The unique index always
      holds. Unless the lookup or upsert failed, the board holds the new
      points. A clean run re-ranks the role densely; a failing re-ranking
      leaves the new points written but the ranks as they were: every other
      document is unchanged, an existing document keeps its old rank and a
      new one has none. */
  lemma {:induction false} OnCommitSpec(s: Store, j: Scheduled, userName: string, now: int, freshId: nat, fault: Fault)
    requires UniqueKeys(s)
    ensures var r := OnCommit(s, Some(j), userName, now, freshId, fault);
      && UniqueKeys(r)
      && ((fault == NoFault || fault == RankFault) ==> HoldsPoints(r, j.key, j.points))
    ensures var r := OnCommit(s, Some(j), userName, now, freshId, fault);
      fault == NoFault && !HoldsPoints(s, j.key, j.points) ==>
        RanksOf(r, j.key.role) == RankRange(|RoleEntries(r, j.key.role)|)
    ensures var r := OnCommit(s, Some(j), userName, now, freshId, fault);
      fault == RankFault && !HoldsPoints(s, j.key, j.points) ==>
        && (forall i :: 0 <= i < |s| && KeyOf(s[i]) != j.key ==> r[i] == s[i])
        && (Find(s, j.key) < |s| ==> r[Find(r, j.key)].rank == s[Find(s, j.key)].rank)
        && (Find(s, j.key) == |s| ==> r[Find(r, j.key)].rank.None?)
  {
    var k := j.key;
    if !HoldsPoints(s, k, j.points) && (fault == NoFault || fault == RankFault) {
      WriteSpec(s, k, userName, j.points, now, freshId);
      WriteShape(s, k, userName, j.points, now, freshId);
      if fault == NoFault {
        UpdateSpec(s, k, userName, j.points, now, freshId);
        RecalculateDense(Write(s, k, userName, j.points, now, freshId), k.role);
      }
    }
  }

  /** Saving a profile with a points change, then committing without a
      fault, leaves the leaderboard holding the new points. When the board
      did not already hold them the role is re-ranked densely; when it did,
      nothing is written. */
  lemma SaveReachesBoard(s: Store, inst: Instance, stored: int, userName: string, now: int, freshId: nat)
    requires UniqueKeys(s)
    requires inst.pk.Some? && inst.userId.Some? && RoleOfClass(inst.className).Some?
    requires stored != inst.points
    ensures var job := PostSave(PreSave(inst, Some(stored)), false);
      && job.Some?
      && var r := OnCommit(s, job, userName, now, freshId, NoFault);
      && UniqueKeys(r)
      && HoldsPoints(r, job.value.key, inst.points)
      && (HoldsPoints(s, job.value.key, inst.points) ==> r == s)
      && (!HoldsPoints(s, job.value.key, inst.points) ==>
            RanksOf(r, job.value.key.role) == RankRange(|RoleEntries(r, job.value.key.role)|))
  {
    var job := PostSave(PreSave(inst, Some(stored)), false);
    OnCommitSpec(s, job.value, userName, now, freshId, NoFault);
  }

  /** The flag is never cleared, so a later save of the same instance
      schedules an update again; it is harmless because the update is a
      no-op when the board already holds the points. */
  lemma StaleFlagHarmless(s: Store, inst: Instance, userName: string, now: int, freshId: nat, fault: Fault)
    requires inst.pointsChanged && inst.userId.Some? && RoleOfClass(inst.className).Some?
    requires HoldsPoints(s, Key(inst.userId.value, RoleOfClass(inst.className).value), inst.points)
    requires fault != ReadFault
    ensures PostSave(PreSave(inst, Some(inst.points)), false).Some?
    ensures OnCommit(s, PostSave(PreSave(inst, Some(inst.points)), false), userName, now, freshId, fault) == s
  {
  }
}

=== FILE: leaderboard_status.dfy ===
/** A user's own leaderboard status: `get_user_leaderboard_status` and the
    authenticated `UserLeaderboardStatusView`. */
module StatusView {
  import opened Wrappers
  import opened LeaderboardModels
  import opened Ranking
  import Registration
  import CharFields

  /** The on-board payload. */
  datatype UserStatus = UserStatus(
    userId: string,
    userName: string,
    points: int,
    rank: Option<int>,
    role: Role,
    isOnLeaderboard: bool)

  /** Where the lookup fails: opening the database handle (outside the
      source's try block, so it propagates), the forced re-ranking, or the
      read of the user's document after a re-ranking that went through
      (both inside the try block). */
  datatype StatusFault = NoStatusFault | HandleFault | RerankFault | QueryFault

  /** `Raised` is an exception escaping the helper; otherwise the status
      found (if any) and the store after the forced re-ranking. */
  datatype Lookup = Raised | Looked(status: Option<UserStatus>, store: Store)

  /** `get_user_leaderboard_status(user, role)`: re-rank the role, then
      read the user's entry. */
  function UserLeaderboardStatus(s: Store, userId: string, role: Role, fault: StatusFault): (r: Lookup)
    ensures r.Raised? <==> fault == HandleFault
    ensures fault == RerankFault ==> r == Looked(None, s)
    ensures fault == QueryFault ==> r == Looked(None, Recalculate(s, role))
    ensures fault == NoStatusFault ==> r.Looked? && r.store == Recalculate(s, role)
    ensures r.Looked? && r.status.Some? ==>
      && fault == NoStatusFault
      && Find(r.store, Key(userId, role)) < |r.store|
      && r.status.value.isOnLeaderboard
      && r.status.value.role == role
      && r.status.value.userId == userId
      && r.status.value.points == r.store[Find(r.store, Key(userId, role))].points
      && r.status.value.rank == r.store[Find(r.store, Key(userId, role))].rank
    ensures fault == NoStatusFault && r.status.None? ==> Find(r.store, Key(userId, role)) == |r.store|
  {
    if fault == HandleFault then Raised
    else if fault == RerankFault then Looked(None, s)
    else
      var t := Recalculate(s, role);
      if fault == QueryFault then Looked(None, t) else
      var p := Find(t, Key(userId, role));
      if p < |t| then
        assert fault == NoStatusFault && KeyOf(t[p]) == Key(userId, role);
        Looked(Some(UserStatus(t[p].userId, t[p].userName, t[p].points, t[p].rank, role, true)), t)
      else
        Looked(None, t)
  }

  /** The requesting user: identity, the first and last name that
      `get_full_name` joins, the `full_name` column, the username, and, for
      each role, the point total of that profile when the user has one. */
  datatype Account = Account(
    id: string,
    firstName: string,
    lastName: string,
    fullName: string,
    username: string,
    studentPoints: Option<int>,
    teacherPoints: Option<int>,
    schoolPoints: Option<int>)

  /** The role the view reports: the first profile present in the order
      student, teacher, school. */
  function ViewRole(a: Account): (r: Option<Role>)
    ensures r == Some(Student) <==> a.studentPoints.Some?
    ensures r == Some(Teacher) <==> a.studentPoints.None? && a.teacherPoints.Some?
    ensures r == Some(School) <==> a.studentPoints.None? && a.teacherPoints.None? && a.schoolPoints.Some?
  {
    if a.studentPoints.Some? then Some(Student)
    else if a.teacherPoints.Some? then Some(Teacher)
    else if a.schoolPoints.Some? then Some(School)
    else None
  }

  /** The points of the profile for `role`. */
  function ProfilePoints(a: Account, role: Role): Option<int> {
    match role
    case Student => a.studentPoints
    case Teacher => a.teacherPoints
    case School => a.schoolPoints
  }

  datatype StatusResponse =
    | NoProfile                 // 400
    | Failed                    // 500
    | OnBoard(status: UserStatus)
    | OffBoard(userId: string, userName: string, role: Role, points: int)

  /** `UserLeaderboardStatusView.get`; the off-board name is the one the
      view builds, `get_full_name() or username`. */
  function StatusGet(s: Store, a: Account, fault: StatusFault): (r: (StatusResponse, Store))
    ensures ViewRole(a).None? ==> r == (NoProfile, s)
    ensures ViewRole(a).Some? && fault == HandleFault ==> r == (Failed, s)
    ensures r.0.OnBoard? ==>
      && r.0.status.isOnLeaderboard
      && r.0.status.userId == a.id
      && Some(r.0.status.role) == ViewRole(a)
    ensures r.0.OffBoard? ==>
      && ViewRole(a).Some? && r.0.role == ViewRole(a).value
      && r.0.userId == a.id
      && r.0.userName == DisplayNameAsWritten(a.firstName, a.lastName, a.username)
      && Some(r.0.points) == ProfilePoints(a, r.0.role)
  {
    match ViewRole(a)
    case None => (NoProfile, s)
    case Some(role) =>
      match UserLeaderboardStatus(s, a.id, role, fault)
      case Raised => (Failed, s)
      case Looked(st, t) =>
        if st.Some? then (OnBoard(st.value), t)
        else (OffBoard(a.id, DisplayNameAsWritten(a.firstName, a.lastName, a.username), role, ProfilePoints(a, role).value), t)
  }

  /** A user with an entry sees it with a fresh dense rank; a user without
      one sees the not-on-board payload with the profile's current points.
      A failing re-ranking or query also shows the not-on-board payload;
      the re-ranking's writes stay when only the query failed. */
  lemma StatusGetSpec(s: Store, a: Account, role: Role)
    requires UniqueKeys(s)
    requires ViewRole(a) == Some(role)
    ensures var r := StatusGet(s, a, NoStatusFault);
      Find(s, Key(a.id, role)) < |s| ==>
        && r.0.OnBoard?
        && r.0.status.points == s[Find(s, Key(a.id, role))].points
        && r.0.status.rank.Some?
        && 1 <= r.0.status.rank.value <= |RoleEntries(s, role)|
    ensures Find(s, Key(a.id, role)) == |s| ==>
      StatusGet(s, a, NoStatusFault).0 == OffBoard(a.id, DisplayNameAsWritten(a.firstName, a.lastName, a.username), role, ProfilePoints(a, role).value)
    ensures Find(s, Key(a.id, role)) == |s| && CharFields.AllSpace(a.firstName) && CharFields.AllSpace(a.lastName) ==>
      StatusGet(s, a, NoStatusFault).0.userName == a.username
  {
    var t := Recalculate(s, role);
    var k := Key(a.id, role);
    RecalculateKeepsKeys(s, role);
    FindSameKeys(s, t, k);
    var p := Find(s, k);
    if p < |s| {
      RankedAt(s, role, p);
    }
  }

  /** A failing re-ranking or query is not reported as an error: the user
      sees the not-on-board payload, and only a failing re-ranking leaves
      the store untouched. */
  lemma StatusGetFaults(s: Store, a: Account, role: Role)
    requires ViewRole(a) == Some(role)
    ensures StatusGet(s, a, RerankFault) ==
      (OffBoard(a.id, DisplayNameAsWritten(a.firstName, a.lastName, a.username), role, ProfilePoints(a, role).value), s)
    ensures StatusGet(s, a, QueryFault) ==
      (OffBoard(a.id, DisplayNameAsWritten(a.firstName, a.lastName, a.username), role, ProfilePoints(a, role).value), Recalculate(s, role))
  {
    assert UserLeaderboardStatus(s, a.id, role, RerankFault) == Looked(None, s);
    assert UserLeaderboardStatus(s, a.id, role, QueryFault) == Looked(None, Recalculate(s, role));
  }

  /** Registration fills the `full_name` column and neither first nor last
      name, so the name the source shows for a new account is its username
      (the e-mail unless one was given), while the corrected name is the
      full name the user typed. */
  lemma RegisteredName(data: Registration.Fields)
    requires Registration.Register(data).Ok?
    ensures var u := Registration.Register(data).value.0;
      && DisplayNameAsWritten("", "", u.username) == u.username
      && DisplayName(u.fullName, u.username) == u.fullName
      && u.fullName != []
  {
    var u := Registration.Register(data).value.0;
    assert CharFields.AllSpace("");
  }
}

=== FILE: leaderboard_sweep.dfy ===
/** The reconciliation sweep (`fast_verify_leaderboard`): compares cached
    points with the authoritative profile store and heals drift. */
module Sweep {
  import opened Wrappers
  import opened LeaderboardModels
  import opened Ranking

  /** Entries verified within this many seconds are skipped (5 minutes). */
  const StaleWindow: int := 300

  /** The authoritative point totals, by (user_id, role). A key that is
      absent is a profile lookup that fails. */
  type Profiles = map<Key, int>

  /** The profile lookup the sweep evidently means for one entry: the
      profile model resolved through Django's app registry
      (`django.apps.apps.get_model`), then the profile of `user_id`. */
  function Lookup(profiles: Profiles, k: Key): (r: Option<int>)
    ensures r.Some? <==> k in profiles
    ensures r.Some? ==> r.value == profiles[k]
  {
    if k in profiles then Some(profiles[k]) else None
  }

  /** The selection query: never verified, or verified before now - 5 min. */
  predicate NeedsVerification(e: Entry, now: int) {
    e.lastVerified.None? || e.lastVerified.value < now - StaleWindow
  }

  /** The entry is selected, its lookup succeeds and the cached points
      differ from the authoritative ones. */
  predicate Drifted(e: Entry, profiles: Profiles, now: int) {
    NeedsVerification(e, now) && KeyOf(e) in profiles && e.points != profiles[KeyOf(e)]
  }

  /** The reference outcome for one entry, one entry at a time and without
      any memoisation. */
  function Verified(e: Entry, profiles: Profiles, now: int): (r: Entry)
    ensures r == e.(points := r.points, lastUpdated := r.lastUpdated, lastVerified := r.lastVerified)
    ensures r != e ==> NeedsVerification(e, now) && KeyOf(e) in profiles
    ensures NeedsVerification(e, now) && KeyOf(e) in profiles ==>
      r.points == profiles[KeyOf(e)] && r.lastVerified == Some(now)
    ensures r.lastUpdated != e.lastUpdated <==> Drifted(e, profiles, now) && e.lastUpdated != now
    ensures Drifted(e, profiles, now) ==> r.lastUpdated == now
  {
    if !NeedsVerification(e, now) then e
    else match Lookup(profiles, KeyOf(e))
      case None => e
      case Some(p) =>
        if e.points != p then e.(points := p, lastUpdated := now, lastVerified := Some(now))
        else e.(lastVerified := Some(now))
  }

  /** How many entries of `s` the sweep corrects. */
  function CountDrifted(s: seq<Entry>, profiles: Profiles, now: int): (n: nat)
    ensures n <= |s|
  {
    if |s| == 0 then 0
    else CountDrifted(s[..|s| - 1], profiles, now) + (if Drifted(s[|s| - 1], profiles, now) then 1 else 0)
  }

  /** `fast_verify_leaderboard` at time `now`, with the profile lookup
      evidently meant: one pass over the store with a per-(user_id, role)
      memo of looked-up points, building one update per selected entry whose
      lookup succeeds. Returns the healed store and the number of
      corrections. */
  method Reconcile(s: Store, profiles: Profiles, now: int) returns (r: Store, corrections: nat)
    ensures |r| == |s|
    ensures forall i :: 0 <= i < |s| ==> r[i] == Verified(s[i], profiles, now)
    ensures corrections == CountDrifted(s, profiles, now)
  {
    var memo: map<Key, int> := map[];
    r := [];
    corrections := 0;
    var i := 0;
    while i < |s|
      invariant 0 <= i <= |s|
      invariant |r| == i
      invariant forall j :: 0 <= j < i ==> r[j] == Verified(s[j], profiles, now)
      invariant corrections == CountDrifted(s[..i], profiles, now)
      invariant forall k :: k in memo ==> k in profiles && memo[k] == profiles[k]
    {
      var e := s[i];
      var next := e;
      if NeedsVerification(e, now) {
        var k := KeyOf(e);
        var source: Option<int>;
        if k in memo {
          source := Some(memo[k]);
        } else {
          source := Lookup(profiles, k);
          if source.Some? {
            memo := memo[k := source.value];
          }
        }
        if source.Some? {
          if e.points != source.value {
            next := e.(points := source.value, lastUpdated := now, lastVerified := Some(now));
            corrections := corrections + 1;
          } else {
            next := e.(lastVerified := Some(now));
          }
        }
      }
      assert s[..i + 1][..i] == s[..i];
      r := r + [next];
      i := i + 1;
    }
    assert s[..|s|] == s;
  }

  /** When no entry is due for verification the sweep corrects nothing and
      changes nothing. */
  lemma {:induction false} NothingDue(s: seq<Entry>, profiles: Profiles, now: int)
    requires forall i :: 0 <= i < |s| ==> !NeedsVerification(s[i], now)
    ensures CountDrifted(s, profiles, now) == 0
    ensures forall i :: 0 <= i < |s| ==> Verified(s[i], profiles, now) == s[i]
  {
    if |s| > 0 {
      NothingDue(s[..|s| - 1], profiles, now);
    }
  }

  /** The correction count is the number of entries whose points the sweep
      actually changes. */
  lemma {:induction false} CountIsChangedPoints(s: seq<Entry>, profiles: Profiles, now: int)
    ensures CountDrifted(s, profiles, now) == |set i | 0 <= i < |s| && Verified(s[i], profiles, now).points != s[i].points|
  {
    var changed := set i | 0 <= i < |s| && Verified(s[i], profiles, now).points != s[i].points;
    if |s| == 0 {
      assert changed == {};
    } else {
      var t := s[..|s| - 1];
      CountIsChangedPoints(t, profiles, now);
      var before := set i | 0 <= i < |t| && Verified(t[i], profiles, now).points != t[i].points;
      var last := |s| - 1;
      ChangedUpTo(s, profiles, now);
      if Drifted(s[last], profiles, now) {
        assert last !in before;
      } else {
        assert before + {} == before;
      }
    }
  }

  /** The changed positions of `s` are those of its prefix without the
      last entry, plus the last when it drifted. */
  lemma ChangedUpTo(s: seq<Entry>, profiles: Profiles, now: int)
    requires |s| > 0
    ensures var t := s[..|s| - 1];
      (set i | 0 <= i < |s| && Verified(s[i], profiles, now).points != s[i].points)
      == (set i | 0 <= i < |t| && Verified(t[i], profiles, now).points != t[i].points)
         + (if Drifted(s[|s| - 1], profiles, now) then {|s| - 1} else {})
  {
    var t := s[..|s| - 1];
    assert forall i :: 0 <= i < |t| ==> t[i] == s[i];
  }

  /** A second sweep at the same time changes nothing: every entry the
      first sweep looked up is no longer due. Overlapping sweeps therefore
      agree. */
  lemma VerifiedIdempotent(e: Entry, profiles: Profiles, now: int)
    ensures Verified(Verified(e, profiles, now), profiles, now) == Verified(e, profiles, now)
  {
  }

  /** After a sweep each entry is verified now, was not due, or its lookup
      failed; the sweep never re-ranks. */
  lemma SweepOutcome(e: Entry, profiles: Profiles, now: int)
    ensures var r := Verified(e, profiles, now);
      r.lastVerified == Some(now) || !NeedsVerification(e, now) || KeyOf(e) !in profiles
    ensures Verified(e, profiles, now).rank == e.rank
  {
  }

  /** `fast_verify_leaderboard` as written. The name `apps` it calls
      `get_model` on is the module `backend.apps.authentication.apps`, which
      defines only the app config class, so every lookup raises
      AttributeError; the per-entry handler skips the entry. The sweep thus
      sees no profile at all, writes nothing and returns 0, whatever the
      profile store holds. */
  method ReconcileAsWritten(s: Store, profiles: Profiles, now: int) returns (r: Store, corrections: nat)
    ensures r == s
    ensures corrections == 0
  {
    r, corrections := Reconcile(s, map[], now);
    NoProfileChangesNothing(s, now);
  }

  /** A sweep that finds no profile corrects nothing and changes nothing. */
  lemma {:induction false} NoProfileChangesNothing(s: seq<Entry>, now: int)
    ensures CountDrifted(s, map[], now) == 0
    ensures forall i :: 0 <= i < |s| ==> Verified(s[i], map[], now) == s[i]
  {
    if |s| > 0 {
      NoProfileChangesNothing(s[..|s| - 1], now);
    }
  }

  /** A never-verified entry whose cached points differ from its profile:
      the sweep with the intended lookup corrects it, the sweep as written
      leaves it stale and reports no correction. */
  lemma AsWrittenMissesDrift(e: Entry, now: int)
    requires e.lastVerified.None? && e.points != 7
    ensures var profiles := map[KeyOf(e) := 7];
      CountDrifted([e], profiles, now) == 1
      && Verified(e, profiles, now).points == 7
      && Verified(e, map[], now) == e
  {
  }
}

=== FILE: object_id.dfy ===
/** MongoDB object ids as the views handle them: twelve bytes, written as
    24 lower-case hexadecimal digits (`str(ObjectId)`), and parsed back from
    24 hexadecimal digits of either case (`ObjectId(s)`). */
module ObjectIds {
  import opened Wrappers

  type Byte = x: int | 0 <= x < 256

  /** An object id's bytes; valid ids have twelve. */
  type Oid = seq<Byte>

  predicate ValidOid(b: Oid) {
    |b| == 12
  }

  function HexDigit(n: int): (c: char)
    requires 0 <= n < 16
    ensures '0' <= c <= '9' || 'a' <= c <= 'f'
  {
    if n < 10 then ('0' as int + n) as char else ('a' as int + n - 10) as char
  }

  /** The value of a hexadecimal digit of either case. */
  function HexValue(c: char): (r: Option<int>)
    ensures r.Some? <==> ('0' <= c <= '9' || 'a' <= c <= 'f' || 'A' <= c <= 'F')
    ensures r.Some? ==> 0 <= r.value < 16
  {
    if '0' <= c <= '9' then Some(c as int - '0' as int)
    else if 'a' <= c <= 'f' then Some(c as int - 'a' as int + 10)
    else if 'A' <= c <= 'F' then Some(c as int - 'A' as int + 10)
    else None
  }

  /** ASCII lower-casing of one character. */
  function LowerChar(c: char): char {
    if 'A' <= c <= 'Z' then (c as int - 'A' as int + 'a' as int) as char else c
  }

  function Lower(s: string): (r: string)
    ensures |r| == |s|
    ensures forall i :: 0 <= i < |s| ==> r[i] == LowerChar(s[i])
  {
    seq(|s|, i requires 0 <= i < |s| => LowerChar(s[i]))
  }

  /** Hexadecimal text of a byte string, two lower-case digits per byte. */
  function Hex(b: seq<Byte>): (s: string)
    ensures |s| == 2 * |b|
    ensures forall i :: 0 <= i < |s| ==> '0' <= s[i] <= '9' || 'a' <= s[i] <= 'f'
  {
    if |b| == 0 then ""
    else [HexDigit(b[0] / 16), HexDigit(b[0] % 16)] + Hex(b[1..])
  }

  /** `bytes.fromhex` restricted to digit pairs. */
  function ParseHex(s: string): (r: Option<seq<Byte>>)
    ensures r.Some? ==> 2 * |r.value| == |s|
  {
    if |s| == 0 then Some([])
    else if |s| == 1 then None
    else match (HexValue(s[0]), HexValue(s[1]), ParseHex(s[2..]))
      case (Some(hi), Some(lo), Some(rest)) => Some([hi * 16 + lo] + rest)
      case _ => None
  }

  /** `ObjectId(s)` for a string argument: `None` is `InvalidId`. */
  function ParseObjectId(s: string): (r: Option<Oid>)
    ensures r.Some? ==> ValidOid(r.value) && |s| == 24
  {
    if |s| == 24 then ParseHex(s) else None
  }

  /** `str(oid)`. */
  function ObjectIdString(b: Oid): (s: string)
    ensures ValidOid(b) ==> |s| == 24
  {
    Hex(b)
  }

  lemma DigitValue(n: int)
    requires 0 <= n < 16
    ensures HexValue(HexDigit(n)) == Some(n)
  {
  }

  lemma ValueDigit(c: char)
    requires HexValue(c).Some?
    ensures HexDigit(HexValue(c).value) == LowerChar(c)
  {
  }

  lemma {:induction false} HexRoundTrip(b: seq<Byte>)
    ensures ParseHex(Hex(b)) == Some(b)
  {
    if |b| > 0 {
      var s := Hex(b);
      DigitValue(b[0] / 16);
      DigitValue(b[0] % 16);
      assert s[2..] == Hex(b[1..]);
      HexRoundTrip(b[1..]);
      assert b == [b[0] / 16 * 16 + b[0] % 16] + b[1..];
    }
  }

  lemma {:induction false} ParseHexLower(s: string, b: seq<Byte>)
    requires ParseHex(s) == Some(b)
    ensures Hex(b) == Lower(s)
    decreases |s|
  {
    if |s| > 0 {
      var hi := HexValue(s[0]).value;
      var lo := HexValue(s[1]).value;
      var rest := ParseHex(s[2..]).value;
      assert b == [hi * 16 + lo] + rest;
      ParseHexLower(s[2..], rest);
      ValueDigit(s[0]);
      ValueDigit(s[1]);
      assert (hi * 16 + lo) / 16 == hi && (hi * 16 + lo) % 16 == lo;
      assert Lower(s) == [LowerChar(s[0]), LowerChar(s[1])] + Lower(s[2..]);
    }
  }

  /** Printing then parsing an id gives it back. */
  lemma ObjectIdRoundTrip(b: Oid)
    requires ValidOid(b)
    ensures ParseObjectId(ObjectIdString(b)) == Some(b)
  {
    HexRoundTrip(b);
  }

  /** A parsed id prints as the lower-cased input, so two spellings name the
      same id exactly when they agree up to case. */
  lemma ParseObjectIdCanonical(s: string, b: Oid)
    requires ParseObjectId(s) == Some(b)
    ensures ObjectIdString(b) == Lower(s)
  {
    ParseHexLower(s, b);
  }
}

=== FILE: payment_requests.dfy ===
/** `InitiatePaymentAPI.post`: validating a payment request and creating
    the pending payment with its fee split. */
module PaymentRequests {
  import opened Wrappers
  import opened Payments

  /** The request body as the view reads it. `keys` is the set of keys
      present (a key with a null value is present); `amountCents` is
      `Decimal(str(amount))` in cents, `None` when it does not parse. */
  datatype PaymentRequest = PaymentRequest(
    txType: Option<string>,
    keys: set<string>,
    amountCents: Option<int>)

  datatype RequestError =
    | InvalidType
    | MissingField(name: string)
    | InvalidAmount
    | NonPositiveAmount
    | RecipientNotFound
    | UnexpectedKeyword   // the model constructor's TypeError
    | RelationNotFound
    | InvoiceFailed

  datatype PaymentResponse =
    | PaymentCreated(gross: int, fee: int, net: int, status: PayStatus)   // 201
    | PaymentRefused(error: RequestError)                                 // 400

  predicate KnownType(t: Option<string>) {
    t == Some("student_teacher") || t == Some("teacher_school")
  }

  /** The required keys in the order they are checked. */
  function RequiredFields(t: string): (r: seq<string>)
    ensures |r| == 4 && r[..3] == ["recipient_id", "amount", "payment_method"]
    ensures t == "student_teacher" ==> r[3] == "course_id"
    ensures t != "student_teacher" ==> r[3] == "contract_id"
  {
    ["recipient_id", "amount", "payment_method"] + [if t == "student_teacher" then "course_id" else "contract_id"]
  }

  /** The position of the first required key missing from `keys`, or `|fields|`. */
  function FirstMissing(fields: seq<string>, keys: set<string>): (p: nat)
    ensures p <= |fields|
    ensures p < |fields| ==> fields[p] !in keys
    ensures forall i :: 0 <= i < p ==> fields[i] in keys
  {
    if |fields| == 0 then 0
    else if fields[0] !in keys then 0
    else 1 + FirstMissing(fields[1..], keys)
  }

  /** The guards before any model object is built: the transaction type,
      then the required keys in order, then the amount. */
  function Precheck(req: PaymentRequest): (r: Result<int, RequestError>)
    ensures !KnownType(req.txType) ==> r == Err(InvalidType)
    ensures r.Ok? <==>
      && KnownType(req.txType)
      && (forall f :: f in RequiredFields(req.txType.value) ==> f in req.keys)
      && req.amountCents.Some? && req.amountCents.value > 0
    ensures r.Ok? ==> r.value == req.amountCents.value
    ensures r.Err? && r.error.MissingField? ==>
      && KnownType(req.txType)
      && r.error.name in RequiredFields(req.txType.value)
      && r.error.name !in req.keys
  {
    if !KnownType(req.txType) then Err(InvalidType)
    else
      var fields := RequiredFields(req.txType.value);
      var p := FirstMissing(fields, req.keys);
      if p < |fields| then Err(MissingField(fields[p]))
      else match req.amountCents
        case None => Err(InvalidAmount)
        case Some(a) => if a <= 0 then Err(NonPositiveAmount) else Ok(a)
  }

  /** The view as written. Building the payment passes a `metadata`
      keyword the model does not have, so the constructor raises a
      `TypeError`, which the view's handler turns into a 400. */
  function InitiatePayment(req: PaymentRequest, recipientFound: bool): (r: PaymentResponse)
    ensures Precheck(req).Err? ==> r == PaymentRefused(Precheck(req).error)
    ensures Precheck(req).Ok? && !recipientFound ==> r == PaymentRefused(RecipientNotFound)
  {
    match Precheck(req)
    case Err(e) => PaymentRefused(e)
    case Ok(_) =>
      if !recipientFound then PaymentRefused(RecipientNotFound)
      else PaymentRefused(UnexpectedKeyword)
  }

  /** As written, no request creates a payment: even a complete, valid
      request for an existing recipient is refused. */
  lemma InitiatePaymentNeverCreates(req: PaymentRequest, recipientFound: bool)
    ensures InitiatePayment(req, recipientFound).PaymentRefused?
    ensures Precheck(req).Ok? && recipientFound ==> InitiatePayment(req, recipientFound) == PaymentRefused(UnexpectedKeyword)
  {
  }

  lemma ValidRequestRefused()
    ensures var req := PaymentRequest(Some("student_teacher"), {"recipient_id", "amount", "payment_method", "course_id"}, Some(150000));
      && Precheck(req) == Ok(150000)
      && InitiatePayment(req, true) == PaymentRefused(UnexpectedKeyword)
  {
    var req := PaymentRequest(Some("student_teacher"), {"recipient_id", "amount", "payment_method", "course_id"}, Some(150000));
    var fields := RequiredFields("student_teacher");
    assert fields == ["recipient_id", "amount", "payment_method", "course_id"];
    assert FirstMissing(fields, req.keys) == 4;
  }

  /** The view without the stray keyword: the payment is built, linked to
      its course or to the requester's own contract (`relationFound`),
      its fees are calculated, and the provider's invoice is requested
      (`invoiceOk`; a failure raises and is answered with a 400). */
  function InitiatePaymentFixed(req: PaymentRequest, recipientFound: bool, relationFound: bool, invoiceOk: bool): (r: PaymentResponse)
    ensures r.PaymentCreated? <==> Precheck(req).Ok? && recipientFound && relationFound && invoiceOk
    ensures r.PaymentCreated? ==>
      && r.gross == Precheck(req).value
      && r.fee == Fee(r.gross)
      && r.net == r.gross - r.fee
      && r.status == Pending
    ensures r.PaymentRefused? && Precheck(req).Err? ==> r.error == Precheck(req).error
  {
    match Precheck(req)
    case Err(e) => PaymentRefused(e)
    case Ok(gross) =>
      if !recipientFound then PaymentRefused(RecipientNotFound)
      else if !relationFound then PaymentRefused(RelationNotFound)
      else if !invoiceOk then PaymentRefused(InvoiceFailed)
      else PaymentCreated(gross, Fee(gross), gross - Fee(gross), Pending)
  }

  /** A created payment reports a split that adds up, with a fee and a net
      amount within the gross amount. */
  lemma CreatedSplit(req: PaymentRequest, recipientFound: bool, relationFound: bool, invoiceOk: bool)
    requires InitiatePaymentFixed(req, recipientFound, relationFound, invoiceOk).PaymentCreated?
    ensures var r := InitiatePaymentFixed(req, recipientFound, relationFound, invoiceOk);
      && r.gross > 0
      && r.fee + r.net == r.gross
      && 0 <= r.fee <= r.gross
      && 0 <= r.net <= r.gross
  {
    FeeBounds(Precheck(req).value);
  }
}

=== FILE: payments.dfy ===
/** Payments between users: the 5% platform fee, completion and what it
    updates, the one-shot fee transfer and the wallet movements. Money is
    in integer cents. */
module Payments {
  import opened Wrappers
  import opened ObjectIds
  import Contracts
  import Courses

  /** `n / 100` rounded to the nearest integer, ties to the even
      neighbour: quantizing a value in hundredths of a cent to whole cents
      under Python's default `ROUND_HALF_EVEN`. */
  function QuantizeCents(n: int): (q: int)
    ensures -100 <= 2 * (n - 100 * q) <= 100
    ensures 2 * (n - 100 * q) == 100 || 2 * (n - 100 * q) == -100 ==> q % 2 == 0
  {
    var q := n / 100;
    var rem := n % 100;
    if 2 * rem < 100 then q
    else if 2 * rem > 100 then q + 1
    else if q % 2 == 0 then q
    else q + 1
  }

  /** The rounding is determined by its two properties: any integer as
      near to `n / 100`, breaking ties to even, is the same one. */
  lemma QuantizeCentsUnique(n: int, q: int)
    requires -100 <= 2 * (n - 100 * q) <= 100
    requires 2 * (n - 100 * q) == 100 || 2 * (n - 100 * q) == -100 ==> q % 2 == 0
    ensures q == QuantizeCents(n)
  {
  }

  /** `(gross * Decimal('0.05')).quantize(Decimal('0.01'))` in cents: the
      exact product is `5 * grossCents` hundredths of a cent. */
  function Fee(grossCents: int): (fee: int)
    ensures -100 <= 2 * (5 * grossCents - 100 * fee) <= 100
  {
    QuantizeCents(5 * grossCents)
  }

  /** The fee never exceeds the gross amount and is never negative for a
      non-negative amount, so the net amount is non-negative too. */
  lemma FeeBounds(grossCents: int)
    requires grossCents >= 0
    ensures 0 <= Fee(grossCents) <= grossCents
    ensures 0 <= grossCents - Fee(grossCents) <= grossCents
  {
  }

  /** Half a cent rounds to the even neighbour. */
  lemma FeeExamples()
    ensures Fee(10) == 0        // 0.10 -> 0.005 -> 0.00
    ensures Fee(30) == 2        // 0.30 -> 0.015 -> 0.02
    ensures Fee(50) == 2        // 0.50 -> 0.025 -> 0.02
    ensures Fee(100000) == 5000
  {
  }

  datatype TxType = StudentTeacher | TeacherSchool

  datatype PayStatus = Pending | Completed | Failed | Refunded

  datatype Payment = Payment(
    id: nat,
    sender: string,
    recipient: string,
    gross: int,
    fee: int,
    net: int,
    feeTransferred: bool,
    feeTransferId: Option<string>,
    feeTransferredAt: Option<int>,
    txType: TxType,
    status: PayStatus,
    chargilyId: Option<string>,
    invoiceNumber: Option<string>,
    completedAt: Option<int>,
    contract: Option<Oid>,
    course: Option<Oid>)

  /** `calculate_fees`. */
  function CalculateFees(p: Payment): (r: Payment)
    ensures r.(fee := p.fee, net := p.net) == p
    ensures r.fee == Fee(p.gross)
    ensures r.fee + r.net == p.gross
  {
    p.(fee := Fee(p.gross), net := p.gross - Fee(p.gross))
  }

  /** The platform's answer to a fee transfer. */
  datatype TransferReply = TransferFailed | Transferred(transferId: Option<string>)

  /** `_transfer_platform_fee`: skipped for a non-positive fee or one
      already transferred; a failure is logged and changes nothing. */
  function TransferFee(p: Payment, reply: TransferReply, now: int): (r: Payment)
    ensures p.fee <= 0 || p.feeTransferred ==> r == p
    ensures reply.TransferFailed? ==> r == p
    ensures p.fee > 0 && !p.feeTransferred && reply.Transferred? ==>
      r == p.(feeTransferId := reply.transferId, feeTransferred := true, feeTransferredAt := Some(now))
  {
    if p.fee <= 0 || p.feeTransferred then p
    else match reply
      case TransferFailed => p
      case Transferred(tid) => p.(feeTransferId := tid, feeTransferred := true, feeTransferredAt := Some(now))
  }

  /** The fee leaves at most once: after a transfer succeeds, any later
      attempt is a no-op, and the flag is never cleared. */
  lemma TransferOnce(p: Payment, r1: TransferReply, t1: int, r2: TransferReply, t2: int)
    ensures var once := TransferFee(p, r1, t1);
      && (p.feeTransferred ==> once.feeTransferred)
      && (once.feeTransferred ==> TransferFee(once, r2, t2) == once)
  {
  }

  type Wallets = map<string, int>

  /** The summed balance of the wallets of `users`. */
  ghost function SumOver(m: Wallets, users: set<string>): int
    requires users <= m.Keys
    decreases users
  {
    if users == {} then 0
    else
      var u :| u in users;
      m[u] + SumOver(m, users - {u})
  }

  /** The summed balance of all wallets. */
  ghost function Total(m: Wallets): int {
    SumOver(m, m.Keys)
  }

  lemma {:induction false} SumOverRemove(m: Wallets, users: set<string>, k: string)
    requires users <= m.Keys && k in users
    ensures SumOver(m, users) == m[k] + SumOver(m, users - {k})
    decreases users
  {
    var u :| u in users && SumOver(m, users) == m[u] + SumOver(m, users - {u});
    if u != k {
      SumOverRemove(m, users - {u}, k);
      SumOverRemove(m, users - {k}, u);
      assert users - {u} - {k} == users - {k} - {u};
    }
  }

  lemma {:induction false} SumOverAgree(m: Wallets, m2: Wallets, users: set<string>)
    requires users <= m.Keys && users <= m2.Keys
    requires forall u :: u in users ==> m[u] == m2[u]
    ensures SumOver(m, users) == SumOver(m2, users)
    decreases users
  {
    if users != {} {
      var u :| u in users && SumOver(m, users) == m[u] + SumOver(m, users - {u});
      SumOverRemove(m2, users, u);
      SumOverAgree(m, m2, users - {u});
    }
  }

  lemma TotalAdd(m: Wallets, k: string, d: int)
    requires k in m
    ensures Total(m[k := m[k] + d]) == Total(m) + d
  {
    var m2 := m[k := m[k] + d];
    assert m2.Keys == m.Keys;
    SumOverRemove(m, m.Keys, k);
    SumOverRemove(m2, m.Keys, k);
    SumOverAgree(m, m2, m.Keys - {k});
  }

  /** `Wallet.objects.filter(user=u).update(balance=F('balance') + d)`: a
      user without a wallet is left alone. */
  function Credit(m: Wallets, user: string, d: int): (r: Wallets)
    ensures r.Keys == m.Keys
    ensures user in m ==> r[user] == m[user] + d
    ensures forall u :: u in m && u != user ==> r[u] == m[u]
  {
    if user in m then m[user := m[user] + d] else m
  }

  /** `_update_wallet_balances`: the sender pays the gross amount and the
      recipient receives the net amount. */
  function MoveFunds(m: Wallets, p: Payment): Wallets {
    Credit(Credit(m, p.sender, -p.gross), p.recipient, p.net)
  }

  /** With both wallets present the platform's fee is the only money that
      leaves the wallets; a missing wallet breaks the balance by the amount
      it would have moved. */
  lemma MoveFundsTotal(m: Wallets, p: Payment)
    requires p.fee + p.net == p.gross
    ensures p.sender in m && p.recipient in m ==> Total(MoveFunds(m, p)) == Total(m) - p.fee
    ensures p.sender !in m && p.recipient in m ==> Total(MoveFunds(m, p)) == Total(m) + p.net
    ensures p.sender in m && p.recipient !in m ==> Total(MoveFunds(m, p)) == Total(m) - p.gross
    ensures p.sender !in m && p.recipient !in m ==> MoveFunds(m, p) == m
  {
    if p.sender in m {
      TotalAdd(m, p.sender, -p.gross);
    }
    var m1 := Credit(m, p.sender, -p.gross);
    if p.recipient in m1 {
      TotalAdd(m1, p.recipient, p.net);
    }
  }

  /** What completion touches besides the payment: contracts, enrollments,
      wallets and the platform-fee records (keyed by payment id). */
  datatype Ledger = Ledger(
    contracts: Contracts.Contracts,
    enrollments: Courses.Enrollments,
    wallets: Wallets,
    feeRecords: map<nat, int>)

  /** `_update_contract_status`, including the save-time price default. */
  function ContractPaid(c: Contracts.Contract, invoice: Option<string>): (r: Contracts.Contract)
    ensures r.status == Contracts.ReadyForEnrollment && r.paymentReference == invoice
  {
    Contracts.Save(c.(status := Contracts.ReadyForEnrollment, paymentReference := invoice))
  }

  /** `mark_as_completed` under its transaction: `None` when the transaction
      rolls back, which happens when the payment already has a fee record
      (one-to-one) or when the student is already enrolled in the course
      (unique together). `invoice` and `chargilyId` come from the provider's
      data; `enrollmentId` is the identity of a created enrollment. */
  function MarkAsCompleted(p: Payment, w: Ledger, chargilyId: Option<string>, invoice: Option<string>,
                           now: int, enrollmentId: Oid, reply: TransferReply): (r: Option<(Payment, Ledger)>)
    requires enrollmentId !in w.enrollments
    ensures r.None? <==>
      || p.id in w.feeRecords
      || (p.txType == StudentTeacher && p.course.Some? && Courses.Enrolled(w.enrollments, p.sender, p.course.value))
    ensures r.Some? ==>
      var (q, l) := r.value;
      && q.status == Completed
      && q.invoiceNumber == invoice && q.chargilyId == chargilyId && q.completedAt == Some(now)
      && l.feeRecords == w.feeRecords[p.id := p.fee]
      && l.wallets == MoveFunds(w.wallets, p)
      && q == TransferFee(p.(status := Completed, chargilyId := chargilyId, invoiceNumber := invoice, completedAt := Some(now)), reply, now)
    ensures r.Some? && p.txType == TeacherSchool && p.contract.Some? && p.contract.value in w.contracts ==>
      r.value.1.contracts == w.contracts[p.contract.value := ContractPaid(w.contracts[p.contract.value], invoice)]
    ensures r.Some? && !(p.txType == TeacherSchool && p.contract.Some? && p.contract.value in w.contracts) ==>
      r.value.1.contracts == w.contracts
    ensures r.Some? && p.txType == StudentTeacher && p.course.Some? ==>
      r.value.1.enrollments == w.enrollments[enrollmentId := Courses.NewEnrollment(p.sender, p.course.value, true, invoice)]
    ensures r.Some? && !(p.txType == StudentTeacher && p.course.Some?) ==>
      r.value.1.enrollments == w.enrollments
  {
    var q := p.(status := Completed, chargilyId := chargilyId, invoiceNumber := invoice, completedAt := Some(now));
    if p.id in w.feeRecords then None
    else
      var fees := w.feeRecords[p.id := p.fee];
      if p.txType == TeacherSchool && p.contract.Some? && p.contract.value in w.contracts then
        var cs := w.contracts[p.contract.value := ContractPaid(w.contracts[p.contract.value], invoice)];
        Some((TransferFee(q, reply, now), Ledger(cs, w.enrollments, MoveFunds(w.wallets, p), fees)))
      else if p.txType == StudentTeacher && p.course.Some? then
        if Courses.Enrolled(w.enrollments, p.sender, p.course.value) then None
        else
          var es := w.enrollments[enrollmentId := Courses.NewEnrollment(p.sender, p.course.value, true, invoice)];
          Some((TransferFee(q, reply, now), Ledger(w.contracts, es, MoveFunds(w.wallets, p), fees)))
      else
        Some((TransferFee(q, reply, now), Ledger(w.contracts, w.enrollments, MoveFunds(w.wallets, p), fees)))
  }

  /** How `mark_as_completed` ends: it returns, or an exception escapes its
      atomic block. That block covers the default database only, so on an
      exception the payment, its fee record, the wallets and any chat room
      a save hook opened are as before, while what was written to the
      course database stays: `ledger` is the state after the roll-back. */
  datatype Completion =
    | Returned(payment: Payment, ledger: Ledger)
    | Raised(ledger: Ledger)

  /** `mark_as_completed` as written. Two helpers import their models by
      module paths that do not resolve: `_create_enrollment` imports
      `courses.models` (the app is `backend.apps.courses`) and
      `_update_wallet_balances` imports `wallets.models` (there is no wallets
      app at all), so each raises on its first line. A duplicate fee record
      raises first; every other completion reaches the wallet update, so no
      completion returns. The only write that survives is a teacher_school
      contract saved to the course database before the wallet update,
      whether or not its save hook raised first. */
  function MarkAsCompletedAsWritten(p: Payment, w: Ledger, invoice: Option<string>): (r: Completion)
    ensures r.Raised?
    ensures r.ledger.wallets == w.wallets && r.ledger.feeRecords == w.feeRecords
    ensures r.ledger.enrollments == w.enrollments
    ensures p.id !in w.feeRecords && p.txType == TeacherSchool && p.contract.Some? && p.contract.value in w.contracts ==>
      r.ledger.contracts == w.contracts[p.contract.value := ContractPaid(w.contracts[p.contract.value], invoice)]
    ensures !(p.id !in w.feeRecords && p.txType == TeacherSchool && p.contract.Some? && p.contract.value in w.contracts) ==>
      r.ledger == w
  {
    if p.id in w.feeRecords then Raised(w)
    else if p.txType == TeacherSchool && p.contract.Some? && p.contract.value in w.contracts then
      Raised(w.(contracts := w.contracts[p.contract.value := ContractPaid(w.contracts[p.contract.value], invoice)]))
    else
      // a course payment raises in `_create_enrollment` before its insert,
      // any other in `_update_wallet_balances`
      Raised(w)
  }

  /** As written, no payment is ever completed: wherever the corrected
      completion succeeds, the written one raises with no fee recorded, no
      money moved and no enrollment created, and only a teacher_school
      contract is left ready for enrollment. A retry of the provider's
      notification raises again and writes nothing new. */
  lemma MarkAsCompletedAsWrittenStrands(p: Payment, w: Ledger, cid: Option<string>, inv: Option<string>,
                                        now: int, eid: Oid, reply: TransferReply)
    requires eid !in w.enrollments
    requires MarkAsCompleted(p, w, cid, inv, now, eid, reply).Some?
    ensures var r := MarkAsCompletedAsWritten(p, w, inv);
      && r.Raised?
      && p.id !in r.ledger.feeRecords && r.ledger.wallets == w.wallets
      && (p.txType == StudentTeacher && p.course.Some? ==> !Courses.Enrolled(r.ledger.enrollments, p.sender, p.course.value))
      && (p.txType == TeacherSchool && p.contract.Some? && p.contract.value in w.contracts ==>
            r.ledger.contracts[p.contract.value].status == Contracts.ReadyForEnrollment)
      && MarkAsCompletedAsWritten(p, r.ledger, inv).Raised?
      && MarkAsCompletedAsWritten(p, r.ledger, inv).ledger.enrollments == w.enrollments
      && MarkAsCompletedAsWritten(p, r.ledger, inv).ledger.wallets == w.wallets
  {
  }

  /** Completion is one-shot: a second completion of the same payment
      rolls back, because its fee record exists. */
  lemma CompleteOnce(p: Payment, w: Ledger, cid: Option<string>, inv: Option<string>, now: int, eid: Oid,
                     reply: TransferReply, cid2: Option<string>, inv2: Option<string>, now2: int, eid2: Oid, reply2: TransferReply)
    requires eid !in w.enrollments
    requires MarkAsCompleted(p, w, cid, inv, now, eid, reply).Some?
    requires eid2 !in MarkAsCompleted(p, w, cid, inv, now, eid, reply).value.1.enrollments
    ensures var (q, l) := MarkAsCompleted(p, w, cid, inv, now, eid, reply).value;
      MarkAsCompleted(q, l, cid2, inv2, now2, eid2, reply2).None?
  {
  }
}

=== FILE: rating_text.dfy ===
/** Python's `int(float(s))` on plain decimal text, as the rating
    endpoint applies it to a rating sent as a string. */
module RatingText {
  import opened Wrappers
  import opened CharFields

  predicate IsDigit(c: char) {
    '0' <= c <= '9'
  }

  predicate AllDigits(s: string) {
    forall i :: 0 <= i < |s| ==> IsDigit(s[i])
  }

  function DigitsValue(s: string): (n: nat)
    requires AllDigits(s)
  {
    if |s| == 0 then 0 else 10 * DigitsValue(s[..|s| - 1]) + (s[|s| - 1] as int - '0' as int)
  }

  /** The position of the first '.', or `|s|`. */
  function DotAt(s: string): (p: nat)
    ensures p <= |s|
    ensures p < |s| ==> s[p] == '.'
    ensures forall i :: 0 <= i < p ==> s[i] != '.'
  {
    if |s| == 0 then 0 else if s[0] == '.' then 0 else 1 + DotAt(s[1..])
  }

  /** Decimal text: an optional sign, digits, and an optional point with
      more digits, with at least one digit in all. */
  predicate DecimalChars(s: string) {
    forall i :: 0 <= i < |s| ==> IsDigit(s[i]) || s[i] == '.' || (i == 0 && (s[i] == '-' || s[i] == '+'))
  }

  predicate HasDigit(s: string) {
    exists i :: 0 <= i < |s| && IsDigit(s[i])
  }

  /** The text after an optional leading sign. */
  function Unsigned(s: string): (b: string)
    ensures |s| > 0 && (s[0] == '-' || s[0] == '+') ==> b == s[1..]
    ensures !(|s| > 0 && (s[0] == '-' || s[0] == '+')) ==> b == s
  {
    if |s| > 0 && (s[0] == '-' || s[0] == '+') then s[1..] else s
  }

  /** The digits before the first point. */
  function Whole(b: string): string {
    b[..DotAt(b)]
  }

  /** The text after the first point, empty without one. */
  function Fraction(b: string): string {
    if DotAt(b) < |b| then b[DotAt(b) + 1..] else ""
  }

  /** `int(float(s))` for text without surrounding white space: the
      fraction is dropped, which is truncation toward zero. Anything that
      is not decimal text is a `ValueError`. */
  function ParseDecimal(s: string): (r: Option<int>)
    ensures r.Some? ==> DecimalChars(s) && HasDigit(s)
  {
    var b := Unsigned(s);
    var whole := Whole(b);
    var frac := Fraction(b);
    if AllDigits(whole) && AllDigits(frac) && (|whole| > 0 || |frac| > 0) then
      var n: int := DigitsValue(whole);
      DecimalCharsOf(s);
      Some(if |s| > 0 && s[0] == '-' then -n else n)
    else None
  }

  /** Text whose whole part and fraction are digits is decimal text. */
  lemma DecimalCharsOf(s: string)
    requires AllDigits(Whole(Unsigned(s))) && AllDigits(Fraction(Unsigned(s)))
    requires |Whole(Unsigned(s))| > 0 || |Fraction(Unsigned(s))| > 0
    ensures DecimalChars(s) && HasDigit(s)
  {
    var b := Unsigned(s);
    var k := |s| - |b|;
    var p := DotAt(b);
    assert forall i :: k <= i < k + p ==> s[i] == Whole(b)[i - k];
    assert forall i :: k + p < i < |s| ==> s[i] == Fraction(b)[i - k - p - 1];
    if |Whole(b)| > 0 {
      assert IsDigit(s[k]);
    } else {
      assert IsDigit(s[k + p + 1]);
    }
  }

  /** `int(float(s))` for rating text: `float` ignores white space around
      the number. */
  function ParseRatingText(s: string): (r: Option<int>)
    ensures r.Some? ==> DecimalChars(Strip(s)) && HasDigit(Strip(s))
  {
    ParseDecimal(Strip(s))
  }

  /** The decimal digits of `n`. */
  function NatText(n: nat): (r: string)
    ensures |r| > 0 && AllDigits(r)
    ensures forall i :: 0 <= i < |r| ==> r[i] != '.'
  {
    var d := ['0' + (n % 10) as char];
    if n < 10 then d else NatText(n / 10) + d
  }

  lemma {:induction false} NatTextValue(n: nat)
    ensures DigitsValue(NatText(n)) == n
  {
    var t := NatText(n);
    if n >= 10 {
      NatTextValue(n / 10);
      assert t[..|t| - 1] == NatText(n / 10);
    }
  }

  /** The first point of `w + "." + f` is the one after `w`. */
  lemma {:induction false} DotAfter(w: string, f: string)
    requires forall i :: 0 <= i < |w| ==> w[i] != '.'
    ensures DotAt(w + f) == |w| + DotAt(f)
  {
    if w != [] {
      assert (w + f)[1..] == w[1..] + f;
      DotAfter(w[1..], f);
    } else {
      assert w + f == f;
    }
  }

  /** Digits followed, when `frac` is given, by a point and the fraction. */
  function Decimal(w: string, frac: Option<string>): string {
    if frac.Some? then w + "." + frac.value else w
  }

  /** Where the point falls in digits followed by an optional fraction. */
  lemma BodyParts(w: string, frac: Option<string>)
    requires |w| > 0 && AllDigits(w)
    ensures var b := Decimal(w, frac);
      && DotAt(b) == |w|
      && b[..|w|] == w
      && (frac.Some? ==> b[|w| + 1..] == frac.value)
      && (frac.None? ==> |w| == |b|)
  {
    assert forall i :: 0 <= i < |w| ==> w[i] != '.' by {
      assert forall i :: 0 <= i < |w| ==> IsDigit(w[i]);
    }
    if frac.Some? {
      assert w + "." + frac.value == w + ("." + frac.value);
      DotAfter(w, "." + frac.value);
    } else {
      DotAfter(w, "");
      assert w + "" == w;
    }
  }

  /** `n` under a written sign. */
  function Signed(sign: string, n: int): int {
    if sign == "-" then -n else n
  }

  /** A sign in front of text that starts with a digit. */
  lemma SignedParts(sign: string, b: string)
    requires |b| > 0 && IsDigit(b[0])
    requires sign == "" || sign == "-" || sign == "+"
    ensures Unsigned(sign + b) == b
    ensures (sign + b)[0] == '-' <==> sign == "-"
  {
    if sign == "" {
      assert sign + b == b;
    } else {
      assert (sign + b)[0] == sign[0];
      assert (sign + b)[1..] == b;
    }
  }

  /** A signed whole number, optionally followed by a point and a
      fraction, reads as the whole number. */
  lemma DecimalValue(sign: string, w: string, frac: Option<string>)
    requires |w| > 0 && AllDigits(w) && (frac.Some? ==> AllDigits(frac.value))
    requires sign == "" || sign == "-" || sign == "+"
    ensures ParseDecimal(sign + Decimal(w, frac)) == Some(Signed(sign, DigitsValue(w)))
  {
    var b := Decimal(w, frac);
    BodyParts(w, frac);
    assert b[0] == w[0];
    SignedParts(sign, b);
    assert Whole(b) == w;
    assert AllDigits(Fraction(b));
    ParsedAs(sign + b, w);
  }

  /** Text whose whole part is the digits `w` and whose fraction is
      digits reads as `w`, negated after a minus sign. */
  lemma ParsedAs(s: string, w: string)
    requires |w| > 0 && AllDigits(w)
    requires Whole(Unsigned(s)) == w && AllDigits(Fraction(Unsigned(s)))
    ensures ParseDecimal(s) == Some(if s[0] == '-' then -(DigitsValue(w) as int) else DigitsValue(w))
  {
  }

  /** Decimal text starts and ends with something other than white space. */
  lemma DecimalTrimmed(sign: string, w: string, frac: Option<string>)
    requires |w| > 0 && AllDigits(w) && (frac.Some? ==> AllDigits(frac.value))
    requires sign == "" || sign == "-" || sign == "+"
    ensures Trimmed(sign + Decimal(w, frac))
  {
    var b := Decimal(w, frac);
    var t := sign + b;
    assert b[0] == w[0];
    if frac.Some? && |frac.value| > 0 {
      assert b[|b| - 1] == frac.value[|frac.value| - 1];
    } else if frac.Some? {
      assert b[|b| - 1] == '.';
    } else {
      assert b[|b| - 1] == w[|w| - 1];
    }
    assert t[|t| - 1] == b[|b| - 1];
    assert t[0] == (if sign == "" then b[0] else sign[0]);
  }

  /** Rating text written as a signed whole number and a fraction, with
      white space around it, reads as the whole number: the fraction is
      truncated toward zero. */
  lemma RatingTextRoundTrip(p: string, sign: string, n: nat, frac: Option<string>, q: string)
    requires AllSpace(p) && AllSpace(q) && (frac.Some? ==> AllDigits(frac.value))
    requires sign == "" || sign == "-" || sign == "+"
    ensures ParseRatingText(p + (sign + Decimal(NatText(n), frac)) + q) == Some(Signed(sign, n))
  {
    var w := NatText(n);
    var t := sign + Decimal(w, frac);
    NatTextValue(n);
    DecimalTrimmed(sign, w, frac);
    TextPadded(p, t, q);
    DecimalValue(sign, w, frac);
  }

  /** White space around trimmed text is ignored. */
  lemma TextPadded(p: string, t: string, q: string)
    requires AllSpace(p) && AllSpace(q) && Trimmed(t)
    ensures ParseRatingText(p + t + q) == ParseDecimal(t)
  {
    StripPadded(p, t, q);
    StripTrimmed(t);
  }
}

=== FILE: registration.dfy ===
/** Account registration: the serializer's field layer, the role-specific
    field check, the split of the submitted fields between the user row and
    the role's profile, and the points and badges the profile serializer
    reports. Submitted values are kept as text. */
module Registration {
  import opened Wrappers
  import opened CharFields

  type Fields = map<string, string>

  /** The profile fields of each role; a school's secondary phone number
      is the one profile field `validate` does not demand. */
  const StudentFields: set<string> := {"age", "education_level", "specialization"}
  const TeacherFields: set<string> := {"experience_years", "qualification"}
  const SchoolRequired: set<string> :=
    {"school_name", "director_name", "phone_number", "address", "license_number", "school_account_name"}
  const SchoolFields: set<string> := SchoolRequired + {"secondary_phone_number"}

  /** The fields `validate` demands for a role. */
  function RequiredFields(role: string): (r: set<string>)
    ensures role !in {"student", "teacher", "school"} ==> r == {}
    ensures role == "school" ==> |r| == 6 && "secondary_phone_number" !in r
  {
    if role == "student" then StudentFields
    else if role == "teacher" then TeacherFields
    else if role == "school" then SchoolRequired
    else {}
  }

  datatype RegisterError = FullNameRequired | RoleFieldsMissing(role: string)

  /** `data.get(key)` is truthy: present and non-empty. */
  predicate Filled(data: Fields, key: string) {
    key in data && data[key] != ""
  }

  /** `RegisterSerializer.validate`. */
  function Validate(data: Fields): (r: Result<Fields, RegisterError>)
    ensures r.Ok? <==> Filled(data, "full_name") && (var role := if "role" in data then data["role"] else ""; RequiredFields(role) <= data.Keys)
    ensures r.Ok? ==> r.value == data
    ensures !Filled(data, "full_name") ==> r == Err(FullNameRequired)
  {
    if !Filled(data, "full_name") then Err(FullNameRequired)
    else
      var role := if "role" in data then data["role"] else "";
      if !(RequiredFields(role) <= data.Keys) then Err(RoleFieldsMissing(role)) else Ok(data)
  }

  /** The fields `create` moves from the submission into the profile. */
  function ProfileFields(role: string): (r: set<string>)
    ensures RequiredFields(role) <= r
  {
    if role == "school" then SchoolFields else RequiredFields(role)
  }

  /** Columns of the user row that `User.objects.create` accepts from the
      remaining submission. */
  const UserColumns: set<string> := {"username", "email", "phone", "region_number"}

  datatype Profile = Profile(role: string, fields: Fields, points: int, badges: seq<string>)

  datatype User = User(fullName: string, role: string, username: string, email: string, columns: Fields)

  /** The user model refuses keywords it has no column for (a teacher who
      also sends a student-only field, say). */
  datatype CreateFault = UnexpectedKeywords(fields: set<string>)

  /** What remains of the submission once password, role, full name and
      the role's profile fields are taken out. */
  function Remaining(data: Fields): (r: Fields)
    requires "role" in data
    ensures r.Keys == data.Keys - {"password", "role", "full_name"} - ProfileFields(data["role"])
    ensures forall k :: k in r ==> r[k] == data[k]
  {
    data - {"password", "role", "full_name"} - ProfileFields(data["role"])
  }

  /** The username stored: the submitted one, or the email when it is
      absent or empty (neither is a profile field, so both survive the
      removal of the profile fields). */
  function Username(data: Fields): string
    requires "email" in data
  {
    if Filled(data, "username") then data["username"] else data["email"]
  }

  /** The keyword arguments left for the user row that it has no column
      for. */
  function Unexpected(data: Fields): (r: set<string>)
    requires "role" in data
    ensures forall k :: k in r <==>
      k in data && k !in {"password", "role", "full_name"} && k !in ProfileFields(data["role"]) && k !in UserColumns
  {
    Remaining(data).Keys - UserColumns
  }

  /** `RegisterSerializer.create`, after field validation has guaranteed
      that password, role, full name and email are present. */
  function Create(data: Fields): (r: Result<(User, Option<Profile>), CreateFault>)
    requires "password" in data && "role" in data && "full_name" in data && "email" in data
    ensures r.Err? <==> Unexpected(data) != {}
    ensures r.Ok? ==>
      && r.value.0.username == (if Filled(data, "username") then data["username"] else data["email"])
      && r.value.0.role == data["role"]
      && r.value.0.columns.Keys <= UserColumns
      && "password" !in r.value.0.columns
      && (r.value.1.Some? <==> data["role"] in {"student", "teacher", "school"})
      && (r.value.1.Some? ==>
            && r.value.1.value.role == data["role"]
            && r.value.1.value.points == 0 && r.value.1.value.badges == []
            && r.value.1.value.fields.Keys == data.Keys * ProfileFields(data["role"])
            && forall k :: k in r.value.1.value.fields ==> r.value.1.value.fields[k] == data[k])
  {
    var role := data["role"];
    var columns := Remaining(data)["username" := Username(data)];
    if Unexpected(data) != {} then Err(UnexpectedKeywords(Unexpected(data)))
    else
      var profile := if role in {"student", "teacher", "school"} then
        Some(Profile(role, map k | k in data && k in ProfileFields(role) :: data[k], 0, []))
      else None;
      Ok((User(data["full_name"], role, Username(data), data["email"], columns), profile))
  }

  /** The role names the `role` choice field accepts. */
  const Roles: set<string> := {"student", "teacher", "school"}

  /** Every field the serializer declares, its own and the user model's;
      any other submitted key is dropped before validation. */
  const DeclaredFields: set<string> :=
    {"password", "role", "full_name"} + UserColumns + StudentFields + TeacherFields + SchoolFields

  /** The declared fields a submission must carry: the serializer's own
      password and full name, and the user model's columns without a
      default or blank allowance. */
  const RequiredInput: set<string> := {"full_name", "email", "password", "role", "phone", "region_number"}

  /** Text fields that accept blank text. */
  const BlankableFields: set<string> := {"username", "secondary_phone_number"}

  /** Integer fields; their values stay text here. */
  const IntegerFields: set<string> := {"age", "experience_years", "region_number"}

  /** Declared text fields that refuse blank text. */
  const TextFields: set<string> := {
    "full_name", "email", "password", "phone",
    "education_level", "specialization", "qualification",
    "school_name", "director_name", "phone_number",
    "address", "license_number", "school_account_name"}

  /** Every declared field is a text field, a blankable one, an integer
      or the role choice. */
  lemma DeclaredSplit()
    ensures DeclaredFields == TextFields + BlankableFields + IntegerFields + {"role"}
  {
    var split := TextFields + BlankableFields + IntegerFields + {"role"};
    assert {"password", "role", "full_name"} <= split;
    assert UserColumns <= split;
    assert StudentFields <= split;
    assert TeacherFields <= split;
    assert SchoolFields <= split;
    assert TextFields <= DeclaredFields;
    assert BlankableFields <= DeclaredFields;
    assert IntegerFields <= DeclaredFields;
  }

  /** The field layer refuses the submitted value of `k`. */
  predicate FieldFails(data: Fields, k: string)
    requires k in data
  {
    if k == "role" then data[k] !in Roles
    else if k in BlankableFields then BlankableCharField(data[k]).Err?
    else if k in TextFields then CharField(data[k]).Err?
    else false
  }

  /** The fields the field layer reports: required ones that are missing
      and declared ones whose value it refuses. */
  function FieldErrors(data: Fields): (r: set<string>)
    ensures forall k :: k in r <==>
      (k in RequiredInput && k !in data) || (k in data && k in DeclaredFields && FieldFails(data, k))
  {
    (RequiredInput - data.Keys) + set k | k in data.Keys * DeclaredFields && FieldFails(data, k)
  }

  /** The value the field layer passes on for `k`: text trimmed, anything
      else as submitted. */
  function CleanValue(k: string, v: string): string {
    if k in BlankableFields && BlankableCharField(v).Ok? then BlankableCharField(v).value
    else if k in TextFields && CharField(v).Ok? then CharField(v).value
    else v
  }

  /** The validated data: the declared keys only, with cleaned values. */
  function Cleaned(data: Fields): (r: Fields)
    ensures r.Keys == data.Keys * DeclaredFields
    ensures forall k :: k in r ==> r[k] == CleanValue(k, data[k])
  {
    map k | k in data && k in DeclaredFields :: CleanValue(k, data[k])
  }

  /** Why a registration does not go through: the field layer (400), the
      role check of `validate` (400), or the user model refusing a keyword
      (an exception, 500). */
  datatype RegisterFailure = FieldsInvalid(fields: set<string>) | Refused(error: RegisterError) | Crashed(fault: CreateFault)

  /** The registration endpoint: the field layer, then `validate`, then
      `create`. */
  function Register(data: Fields): (r: Result<(User, Option<Profile>), RegisterFailure>)
    ensures r.Err? && r.error.FieldsInvalid? <==> FieldErrors(data) != {}
    ensures r.Err? && r.error.FieldsInvalid? ==> r.error.fields == FieldErrors(data)
    ensures r.Err? && r.error.Refused? ==> r.error == Refused(RoleFieldsMissing(data["role"]))
    ensures r.Ok? ==>
      && data["role"] in Roles
      && r.value.0.role == data["role"]
      && r.value.0.fullName == CharField(data["full_name"]).value
      && r.value.1.Some?
      && RequiredFields(data["role"]) <= r.value.1.value.fields.Keys
  {
    if FieldErrors(data) != {} then Err(FieldsInvalid(FieldErrors(data)))
    else
      CleanedRequired(data);
      ValidateAndCreate(Cleaned(data))
  }

  /** `validate` then `create` on data the field layer has accepted. */
  function ValidateAndCreate(clean: Fields): (r: Result<(User, Option<Profile>), RegisterFailure>)
    requires RequiredInput <= clean.Keys && clean["role"] in Roles && Filled(clean, "full_name")
    ensures r.Err? ==> r.error == Refused(RoleFieldsMissing(clean["role"])) || r.error.Crashed?
    ensures r.Ok? ==>
      && r.value.0.role == clean["role"]
      && r.value.0.fullName == clean["full_name"]
      && r.value.1.Some?
      && RequiredFields(clean["role"]) <= r.value.1.value.fields.Keys
  {
    match Validate(clean)
    case Err(e) => Err(Refused(e))
    case Ok(v) =>
      match Create(v)
      case Err(f) => Err(Crashed(f))
      case Ok(x) => Ok(x)
  }

  /** Data the field layer accepts keeps every required field, the role
      as submitted and the full name trimmed and non-empty. */
  lemma CleanedRequired(data: Fields)
    requires FieldErrors(data) == {}
    ensures RequiredInput <= Cleaned(data).Keys
    ensures data["role"] in Roles && Cleaned(data)["role"] == data["role"]
    ensures CharField(data["full_name"]).Ok?
    ensures Cleaned(data)["full_name"] == CharField(data["full_name"]).value
    ensures Filled(Cleaned(data), "full_name")
  {
    assert RequiredInput <= DeclaredFields;
    RoleKept(data);
    assert !FieldFails(data, "full_name");
    assert "full_name" in TextFields && "full_name" !in BlankableFields;
  }

  lemma RoleKept(data: Fields)
    requires FieldErrors(data) == {}
    ensures "role" in data && data["role"] in Roles
    ensures "role" in Cleaned(data) && Cleaned(data)["role"] == data["role"]
  {
    assert "role" in data by {
      assert "role" in RequiredInput;
    }
    assert "role" in DeclaredFields;
    assert !FieldFails(data, "role");
    RoleUntouched(data["role"]);
  }

  /** The role choice is passed on as submitted. */
  lemma RoleUntouched(v: string)
    ensures CleanValue("role", v) == v
  {
    assert "role" !in BlankableFields && "role" !in TextFields;
  }

  /** Every profile field of a role other than `role`. */
  function OtherProfileFields(role: string): set<string> {
    ProfileFields("student") + ProfileFields("teacher") + ProfileFields("school") - ProfileFields(role)
  }

  /** After the field layer the only keywords the user row refuses are
      profile fields of another role: a teacher who also sends a
      student-only field, say. */
  lemma RegisterUnexpected(data: Fields)
    requires FieldErrors(data) == {}
    ensures "role" in Cleaned(data)
    ensures Unexpected(Cleaned(data)) == data.Keys * OtherProfileFields(data["role"])
  {
    RoleKept(data);
    var role := data["role"];
    var clean := Cleaned(data);
    ProfileFieldsDeclared();
    UnexpectedKeys(clean);
    KeptAfterRemoval(data.Keys, DeclaredFields, {"password", "role", "full_name"}, UserColumns,
      ProfileFields("student") + ProfileFields("teacher") + ProfileFields("school"), ProfileFields(role));
  }

  /** The keywords without a column, as a set difference. */
  lemma UnexpectedKeys(data: Fields)
    requires "role" in data
    ensures Unexpected(data) == data.Keys - {"password", "role", "full_name"} - ProfileFields(data["role"]) - UserColumns
  {
  }

  /** Keys filtered to `d` and then stripped of `a`, `p` and `u` are the
      keys in `all` but not in `p`, when `d` without `a` and `u` is `all`. */
  lemma KeptAfterRemoval(keys: set<string>, d: set<string>, a: set<string>, u: set<string>, all: set<string>, p: set<string>)
    requires d - a - u == all
    ensures (keys * d) - a - p - u == keys * (all - p)
  {
    forall k ensures k in (keys * d) - a - p - u <==> k in keys * (all - p) {
      assert k in all <==> k in d - a - u;
    }
  }

  /** The declared fields the user row takes no column for, password, role
      and full name aside, are exactly the profile fields of the three
      roles. */
  lemma ProfileFieldsDeclared()
    ensures DeclaredFields - {"password", "role", "full_name"} - UserColumns
      == ProfileFields("student") + ProfileFields("teacher") + ProfileFields("school")
  {
    var a := {"password", "role", "full_name"} + UserColumns;
    Disjoint(StudentFields, a);
    Disjoint(TeacherFields, a);
    Disjoint(SchoolRequired, a);
    Disjoint({"secondary_phone_number"}, a);
  }

  /** The profile fields of the `group` share no name with the account's
      own fields and the user columns. */
  lemma Disjoint(group: set<string>, a: set<string>)
    requires group in {StudentFields, TeacherFields, SchoolRequired, {"secondary_phone_number"}}
    requires a == {"password", "role", "full_name"} + UserColumns
    ensures group * a == {}
  {
    forall k | k in group ensures k !in a {
    }
  }

  /** Past the field layer, registration is refused exactly when a field
      the role demands is missing, and fails in `create` exactly when the
      submission also carries another role's profile field. */
  lemma {:induction false} RegisterOutcome(data: Fields)
    requires FieldErrors(data) == {}
    ensures "role" in data
    ensures Register(data).Err? && Register(data).error.Refused? <==> !(RequiredFields(data["role"]) <= data.Keys)
    ensures Register(data).Err? && Register(data).error.Crashed? <==>
      RequiredFields(data["role"]) <= data.Keys && data.Keys * OtherProfileFields(data["role"]) != {}
  {
    CleanedRequired(data);
    var role := data["role"];
    var clean := Cleaned(data);
    assert Register(data) == ValidateAndCreate(clean);
    ValidateAndCreateOutcome(clean);
    RequiredKept(data.Keys, role);
    RegisterUnexpected(data);
  }

  /** `validate` refuses exactly when a field the role demands is missing,
      and `create` then fails exactly on a keyword without a column. */
  lemma ValidateAndCreateOutcome(clean: Fields)
    requires RequiredInput <= clean.Keys && clean["role"] in Roles && Filled(clean, "full_name")
    ensures ValidateAndCreate(clean).Err? && ValidateAndCreate(clean).error.Refused? <==>
      !(RequiredFields(clean["role"]) <= clean.Keys)
    ensures ValidateAndCreate(clean).Err? && ValidateAndCreate(clean).error.Crashed? <==>
      RequiredFields(clean["role"]) <= clean.Keys && Unexpected(clean) != {}
  {
  }

  /** Dropping undeclared keys keeps every field a role demands. */
  lemma RequiredKept(keys: set<string>, role: string)
    ensures RequiredFields(role) <= keys * DeclaredFields <==> RequiredFields(role) <= keys
  {
    assert RequiredFields(role) <= DeclaredFields;
  }

  /** A stored account: its role and whichever profiles exist. */
  datatype Account = Account(role: string, student: Option<Profile>, teacher: Option<Profile>, school: Option<Profile>)

  /** The profile matching the account's role, if it exists. */
  function RoleProfile(a: Account): (r: Option<Profile>)
    ensures a.role !in {"student", "teacher", "school"} ==> r.None?
    ensures a.role == "student" ==> r == a.student
    ensures a.role == "teacher" ==> r == a.teacher
    ensures a.role == "school" ==> r == a.school
  {
    if a.role == "student" then a.student
    else if a.role == "teacher" then a.teacher
    else if a.role == "school" then a.school
    else None
  }

  /** `UserProfileSerializer.get_points`. */
  function Points(a: Account): (r: int)
    ensures RoleProfile(a).None? ==> r == 0
    ensures RoleProfile(a).Some? ==> r == RoleProfile(a).value.points
  {
    match RoleProfile(a)
    case Some(p) => p.points
    case None => 0
  }

  /** `UserProfileSerializer.get_badges`. */
  function Badges(a: Account): (r: seq<string>)
    ensures RoleProfile(a).None? ==> r == []
    ensures RoleProfile(a).Some? ==> r == RoleProfile(a).value.badges
  {
    match RoleProfile(a)
    case Some(p) => p.badges
    case None => []
  }

  /** The account a successful registration stores. */
  function Stored(u: User, p: Option<Profile>): Account {
    Account(u.role,
            if u.role == "student" then p else None,
            if u.role == "teacher" then p else None,
            if u.role == "school" then p else None)
  }

  /** Registration followed by a profile read: a new account reports no
      points and no badges, whatever its role. */
  lemma NewAccountStartsEmpty(data: Fields)
    requires "password" in data && "role" in data && "full_name" in data && "email" in data
    requires Create(data).Ok?
    ensures Points(Stored(Create(data).value.0, Create(data).value.1)) == 0
    ensures Badges(Stored(Create(data).value.0, Create(data).value.1)) == []
  {
  }
}

=== FILE: sorting.dfy ===
/** A stable insertion sort over sequences, parameterised by a total preorder.
    The ranking engine sorts leaderboard entries with it and the classroom
    search sorts its fallback results with it. */
module Sorting {

  /** `le` relates every pair one way or the other and is transitive. */
  ghost predicate TotalPreorder<T(!new)>(le: (T, T) -> bool) {
    && (forall x, y :: le(x, y) || le(y, x))
    && (forall x, y, z :: le(x, y) && le(y, z) ==> le(x, z))
  }

  predicate SortedBy<T>(s: seq<T>, le: (T, T) -> bool) {
    forall i, j :: 0 <= i < j < |s| ==> le(s[i], s[j])
  }

  /** No element occurs twice. */
  predicate Distinct<T(==)>(s: seq<T>) {
    forall i, j :: 0 <= i < |s| && 0 <= j < |s| && i != j ==> s[i] != s[j]
  }

  /** Puts `x` in front of the first element it is `le` to. */
  function Insert<T>(x: T, s: seq<T>, le: (T, T) -> bool): (r: seq<T>)
    ensures |r| == |s| + 1
    ensures multiset(r) == multiset(s) + multiset{x}
  {
    if |s| == 0 then [x]
    else if le(x, s[0]) then [x] + s
    else
      assert s == [s[0]] + s[1..];
      [s[0]] + Insert(x, s[1..], le)
  }

  /** Sorts `s` so that earlier elements are `le` to later ones; elements
      that are `le` to each other keep their relative order. */
  function Sort<T>(s: seq<T>, le: (T, T) -> bool): (r: seq<T>)
    ensures |r| == |s|
    ensures multiset(r) == multiset(s)
  {
    if |s| == 0 then []
    else
      assert s == [s[0]] + s[1..];
      Insert(s[0], Sort(s[1..], le), le)
  }

  lemma {:induction false} InsertSorted<T(!new)>(x: T, s: seq<T>, le: (T, T) -> bool)
    requires TotalPreorder(le)
    requires SortedBy(s, le)
    ensures SortedBy(Insert(x, s, le), le)
  {
    if |s| == 0 {
    } else if le(x, s[0]) {
      var r := [x] + s;
      forall i, j | 0 <= i < j < |r|
        ensures le(r[i], r[j])
      {
        if i == 0 {
          assert r[j] == s[j - 1];
          if j > 1 {
            assert le(s[0], s[j - 1]);
          }
        } else {
          assert r[i] == s[i - 1] && r[j] == s[j - 1];
        }
      }
    } else {
      var t := s[1..];
      assert SortedBy(t, le) by {
        forall i, j | 0 <= i < j < |t| ensures le(t[i], t[j]) {
          assert t[i] == s[i + 1] && t[j] == s[j + 1];
        }
      }
      InsertSorted(x, t, le);
      var u := Insert(x, t, le);
      var r := [s[0]] + u;
      assert le(s[0], x);
      forall i, j | 0 <= i < j < |r|
        ensures le(r[i], r[j])
      {
        if i == 0 {
          assert r[j] == u[j - 1];
          assert u[j - 1] in multiset(u);
          if u[j - 1] != x {
            assert u[j - 1] in multiset(t);
            var k :| 0 <= k < |t| && t[k] == u[j - 1];
            assert t[k] == s[k + 1];
          }
        } else {
          assert r[i] == u[i - 1] && r[j] == u[j - 1];
        }
      }
    }
  }

  lemma {:induction false} SortSorted<T(!new)>(s: seq<T>, le: (T, T) -> bool)
    requires TotalPreorder(le)
    ensures SortedBy(Sort(s, le), le)
  {
    if |s| > 0 {
      SortSorted(s[1..], le);
      InsertSorted(s[0], Sort(s[1..], le), le);
    }
  }

  lemma {:induction false} InsertDistinct<T>(x: T, s: seq<T>, le: (T, T) -> bool)
    requires Distinct(s)
    requires x !in s
    ensures Distinct(Insert(x, s, le))
  {
    if |s| > 0 && !le(x, s[0]) {
      var t := s[1..];
      assert Distinct(t) by {
        forall i, j | 0 <= i < |t| && 0 <= j < |t| && i != j ensures t[i] != t[j] {
          assert t[i] == s[i + 1] && t[j] == s[j + 1];
        }
      }
      assert x !in t by {
        assert s == [s[0]] + t;
        assert x !in multiset(s);
      }
      InsertDistinct(x, t, le);
      var u := Insert(x, t, le);
      assert s[0] !in u by {
        forall k | 0 <= k < |t| ensures t[k] != s[0] {
          assert t[k] == s[k + 1];
        }
        assert s[0] != x by { assert s[0] in s; }
        assert s[0] !in multiset(u);
      }
      var r := [s[0]] + u;
      forall i, j | 0 <= i < |r| && 0 <= j < |r| && i != j
        ensures r[i] != r[j]
      {
        if i == 0 {
          assert r[j] == u[j - 1] && r[j] in u;
        } else if j == 0 {
          assert r[i] == u[i - 1] && r[i] in u;
        } else {
          assert r[i] == u[i - 1] && r[j] == u[j - 1];
        }
      }
    }
  }

  /** Sorting a sequence without repetitions yields one without repetitions. */
  lemma {:induction false} SortDistinct<T>(s: seq<T>, le: (T, T) -> bool)
    requires Distinct(s)
    ensures Distinct(Sort(s, le))
  {
    if |s| > 0 {
      var t := s[1..];
      assert Distinct(t) by {
        forall i, j | 0 <= i < |t| && 0 <= j < |t| && i != j ensures t[i] != t[j] {
          assert t[i] == s[i + 1] && t[j] == s[j + 1];
        }
      }
      SortDistinct(t, le);
      assert s[0] !in t by {
        forall k | 0 <= k < |t| ensures t[k] != s[0] {
          assert t[k] == s[k + 1];
        }
      }
      assert s[0] !in Sort(t, le) by {
        assert s[0] !in multiset(t);
      }
      InsertDistinct(s[0], Sort(t, le), le);
    }
  }
}

=== FILE: wrappers.dfy ===
/** Optional values and results shared by every module of the model. */
module Wrappers {

  /** A value that may be absent: Python's `None`, a missing document or a
      missing dictionary key. */
  datatype Option<+T> = None | Some(value: T) {

    /** The wrapped value, or `default` when absent (Python's `x or default`
        for a nullable field). */
    function GetOr(default: T): T {
      match this
      case Some(v) => v
      case None => default
    }
  }

  /** The outcome of a validation: the accepted value or a failure reason. */
  datatype Result<+R, +E> = Ok(value: R) | Err(error: E)
}
